=== FILE: README.md ===
# Educational agent platform — a verified model

This project models, in Dafny, the deterministic core of a multi-agent
educational platform. Each agent is a separate service; the repository
describes their behaviour through its test suites, and this model follows
those suites. The agents are:

- **orchestration agent**: a circuit breaker per agent, a token-bucket
  rate limiter per agent, a priority task queue, request routing, task
  distribution, monitoring, aggregation and failure handling;
- **realtime coordination agent**: vector clocks, conflict resolution and
  collaboration rooms;
- **caching agent**: an L1 in-process cache with TTL, a byte budget and LRU
  eviction, glob pattern keys, tags and dependencies. It also has:
  - a compression manager;
  - an invalidation manager with event subscriptions and transitive
    dependencies;
  - the tiered (L1 + L2) cache with write-through, write-back and
    write-around strategies;
- **content quality agent**: the human-review queue and the fact-check and
  known-content bookkeeping;
- **security and compliance agent**: role-based permissions, per-user and
  per-endpoint request limits, the masking audit log, and COPPA/GDPR checks;
- **local AI agent**: field anonymisation, GDPR/COPPA/FERPA privacy rules
  and key rotation;
- **infrastructure agent**: auto-scaling decisions with cooldowns, alert
  rules, backup file names and rollback;
- **content ingestion agent**: file validation, equation extraction, LaTeX
  `\frac` conversion, table processing, Bloom's-level estimation, concept
  ids, relationship types and job status;
- **database management agent**: query classification, pool statistics, the
  query-result cache, query execution and transactions;
- **testing/QA agent**: unit, integration and end-to-end runs, accuracy
  and metrics, code coverage and the text report;
- **personalization agent**: the fallback profile, cache keys, example
  adaptation, cultural context, difficulty scaling and learning-style
  tips;
- **knowledge graph agent**: node and query request validation, node
  creation, and the concept-graph neighbourhood.

Every stateful component is an immutable datatype with pure transition
functions. Time is an explicit parameter. External services are replaced
by maps or by function parameters: Redis, Neo4j, PostgreSQL, HTTP agents,
hash functions and language models.

Files, one module each unless noted:

- `wrappers.dfy` (`Wrappers`: `Option`, `Result`) and `json.dfy` (`Json`:
  JSON values);
- `text.dfy` (`Text`): substring search, ASCII case mapping, trimming, glob
  matching;
- `circuit_breaker.dfy`, `token_bucket.dfy`, `dispatch_queue.dfy` and
  `orchestrator.dfy`;
- `realtime.dfy` (`VectorClocks`, `Conflicts`, `Rooms`);
- `l1_cache.dfy`, `compression.dfy`, `invalidation.dfy` and
  `tiered_cache.dfy`;
- `content_quality.dfy` (`ReviewQueue`, `QualityChecks`);
- `security.dfy` (`Authorization`, `RequestLimits`, `Audit`, `Compliance`);
- `local_ai.dfy` (`Anonymization`, `PrivacyRules`, `KeyRotation`);
- `infrastructure.dfy` (`AutoScaling`, `Alerts`, `Operations`);
- `ingestion.dfy` (`FileProcessor`, `ConceptMapping`, `IngestionJobs`);
- `database.dfy` (`QueryClassifier`, `ConnectionPool`, `QueryExecution`);
- `testing_qa.dfy`, `personalization.dfy` and `knowledge_graph.dfy`.

## Model

| member | source | states |
|---|---|---|
| CircuitBreaker.Init | agents/orchestration_agent/tests/test_orchestration_agent.py:49-54 | A new breaker is CLOSED with no failures and keeps its threshold and timeout. |
| CircuitBreaker.RecordFailure | agents/orchestration_agent/tests/test_orchestration_agent.py:56-68 | Each failure adds one to the count and stamps the time. The breaker is OPEN exactly when the count reaches the threshold or it was already open. A failure while HALF_OPEN reopens it. |
| CircuitBreaker.CanExecute | agents/orchestration_agent/tests/test_orchestration_agent.py:70-91 | A call is admitted exactly when the breaker is not OPEN or its timeout has elapsed. An elapsed OPEN breaker moves to HALF_OPEN; nothing else changes. |
| CircuitBreaker.RecordSuccess | agents/orchestration_agent/tests/test_orchestration_agent.py:70-91 | A success always closes the breaker and clears the failure count. |
| CircuitBreaker.StateValue | agents/orchestration_agent/tests/test_orchestration_agent.py:93-102 | The metric value is 0 exactly for CLOSED, 2 exactly for OPEN, and never above 2. |
| CircuitBreaker.FailuresFromInit | agents/orchestration_agent/tests/test_orchestration_agent.py:56-68 | After n failures from a fresh breaker the count is n. The breaker is OPEN exactly when n has reached the threshold. |
| CircuitBreaker.ThresholdFailuresBlock | agents/orchestration_agent/tests/test_orchestration_agent.py:56-68 | Threshold-many failures at the same instant make the breaker refuse calls. |
| CircuitBreaker.RecoveryAfterCooldown | agents/orchestration_agent/tests/test_orchestration_agent.py:70-91 | An OPEN breaker whose timeout has elapsed admits a call and becomes HALF_OPEN. A success then closes it with zero failures. |
| TokenBucket.Init | agents/orchestration_agent/tests/test_orchestration_agent.py:171-184 | A new bucket is full: it holds burst tokens. |
| TokenBucket.Acquire | agents/orchestration_agent/tests/test_orchestration_agent.py:171-199 | A token is granted exactly when the refilled level is at least one, and granting spends one. The level never exceeds the burst size. |
| TokenBucket.BurstThenRefuse | agents/orchestration_agent/tests/test_orchestration_agent.py:172-184 | From a fresh bucket, burst calls at one instant succeed and the next one fails. |
| TokenBucket.DrainWholeTokens | agents/orchestration_agent/tests/test_orchestration_agent.py:172-184 | With k whole tokens and no elapsed time, the i-th of n calls succeeds exactly when i < k. |
| TokenBucket.BurstExhausts | agents/orchestration_agent/tests/test_orchestration_agent.py:172-184 | After burst acquisitions the bucket holds less than one token and refuses. |
| TokenBucket.RefillAdmits | agents/orchestration_agent/tests/test_orchestration_agent.py:186-199 | Once enough time has passed to earn one token at rate per 60 seconds, a call succeeds again. |
| DispatchQueue.Init | agents/orchestration_agent/tests/test_orchestration_agent.py:156-165 | A new queue is empty. |
| DispatchQueue.Enqueue | agents/orchestration_agent/tests/test_orchestration_agent.py:127-137 | Enqueue fails exactly when the queue is full. Otherwise it appends the entry with the next sequence number. |
| DispatchQueue.Dequeue | agents/orchestration_agent/tests/test_orchestration_agent.py:108-125 | An empty queue yields nothing. Otherwise the result is removed (the multiset shrinks by it). No remaining entry has higher priority, and none of equal priority was enqueued earlier. |
| DispatchQueue.Remove | agents/orchestration_agent/tests/test_orchestration_agent.py:139-154 | Reports whether the id was queued, and keeps exactly the entries with other ids. |
| DispatchQueue.DequeueOrderNonIncreasing | agents/orchestration_agent/tests/test_orchestration_agent.py:108-125 | Two successive dequeues give non-increasing priorities, in first-in order among equals. |
| DispatchQueue.RemovedNeverDequeued | agents/orchestration_agent/tests/test_orchestration_agent.py:139-154 | After removing an id, the next dequeue never returns it. |
| DispatchQueue.SizeBounded | agents/orchestration_agent/tests/test_orchestration_agent.py:127-137 | The size never exceeds max_size, and a full queue refuses. |
| Orchestrator.NewTaskRequest | agents/orchestration_agent/tests/test_orchestration_agent.py:411-437 | A request is valid exactly when its pattern is non-empty and its priority is within 1..5. A valid request keeps every field as given. |
| Orchestrator.DefaultTaskRequest | agents/orchestration_agent/tests/test_orchestration_agent.py:439-449 | Defaults are priority 1, empty metadata, no timeout and no callback. |
| Orchestrator.RouteRequest | agents/orchestration_agent/tests/test_orchestration_agent.py:218-237 | An unknown pattern is refused. A known pattern routes to its target agent exactly when that agent's breaker admits the call. Only that agent's breaker changes, to the state its admission check leaves; an agent without a breaker leaves the orchestrator untouched. |
| Orchestrator.DistributeTask | agents/orchestration_agent/tests/test_orchestration_agent.py:239-259 | Succeeds exactly when the agent's limiter (if any) admits and the queue has room. Then a fresh id is recorded as QUEUED and enqueued with the request's priority. The limiter keeps the token it spent; rules and breakers are unchanged. |
| Orchestrator.MonitorExecution | agents/orchestration_agent/tests/test_integration.py:34-62 | A known id reports itself, its status and its agent; an unknown id is an error. |
| Orchestrator.AggregateResults | agents/orchestration_agent/tests/test_orchestration_agent.py:286-312 | total_tasks is the number of ids. Results hold exactly the completed tasks and errors exactly the failed or unknown ones; the two never overlap. |
| Orchestrator.AggregatePartitions | agents/orchestration_agent/tests/test_integration.py:64-91 | Each known id is a result iff completed, an error iff failed, and in neither iff still pending. |
| Orchestrator.DequeueNext | agents/orchestration_agent/tests/test_integration.py:34-62 | Hands the highest-priority queued task to execution and turns it from QUEUED to RUNNING. The queue is what the queue's own dequeue leaves; routing state is unchanged and the registry invariant holds. An empty queue yields nothing and changes nothing. |
| Orchestrator.RecordAttempt | agents/orchestration_agent/tests/test_integration.py:34-62 | Only a RUNNING task takes an outcome; it counts one attempt. Success completes the task, and a failure fails it once retries are used up. The assigned agent's circuit breaker records the success or failure. Other tasks, other breakers, rules, limiters, the queue and the id counter are untouched. |
| Orchestrator.CheckTimeout | agents/orchestration_agent/tests/test_integration.py:181-206 | A task past its timeout becomes FAILED. A task that was not COMPLETED is never reported COMPLETED. |
| Orchestrator.HandleFailure | agents/orchestration_agent/tests/test_orchestration_agent.py:314-336 | Recovery echoes the task id, marks an unfinished task FAILED with the error and withdraws its queue entries; other tasks and routing state are unchanged. A finished task is left alone; an unknown id is refused. |
| Orchestrator.FailedTaskNeverDequeued | agents/orchestration_agent/tests/test_orchestration_agent.py:314-336 | After failure handling, the next dequeue never hands out the failed task. |
| Orchestrator.TerminalIsFinal | agents/orchestration_agent/tests/test_integration.py:181-206 | A COMPLETED or FAILED task is never changed by start, timeout, attempts or failure handling. |
| Orchestrator.OpenBreakerBlocksRouting | agents/orchestration_agent/tests/test_integration.py:93-115 | After threshold failures on the target agent's breaker, routing to it fails. |
| Orchestrator.ExhaustedLimiterBlocksDistribution | agents/orchestration_agent/tests/test_integration.py:152-179 | After burst acquisitions on an agent's limiter, distributing to it fails. |
| Orchestrator.HigherPriorityDequeuedFirst | agents/orchestration_agent/tests/test_integration.py:117-150 | A low-priority then a high-priority submission: the high-priority task is dequeued first. |
| Orchestrator.HealthStatus | agents/orchestration_agent/tests/test_orchestration_agent.py:338-345 | Agents are counted by breaker, healthy agents are those whose breaker is CLOSED, active tasks are those QUEUED or RUNNING, and the queue size is the queue's. Status is healthy exactly when the healthy ratio is met. |
| Orchestrator.DistributeAddsActiveTask | agents/orchestration_agent/tests/test_orchestration_agent.py:338-345 | Distributing a task raises the active count and the queue size by one and leaves the agent counts alone. |
| Orchestrator.FailureRetiresActiveTask | agents/orchestration_agent/tests/test_orchestration_agent.py:314-345 | Failing an unfinished task lowers the active count by one. |
| VectorClocks.Increment | agents/realtime_coordination_agent/tests/test_realtime_coordination_agent.py:172-180 | The device's counter rises by exactly one (an absent device goes to 1); all other counters stay. |
| VectorClocks.Merge | agents/realtime_coordination_agent/tests/test_realtime_coordination_agent.py:182-191 | The merge covers both key sets and is the pointwise maximum. |
| VectorClocks.Compare | agents/realtime_coordination_agent/tests/test_realtime_coordination_agent.py:193-219 | before, after, equal and concurrent correspond exactly to the four combinations of componentwise ≤ in each direction. |
| VectorClocks.EqualMeansSameCounters | agents/realtime_coordination_agent/tests/test_realtime_coordination_agent.py:207-212 | "equal" holds exactly when every device has the same counter. |
| VectorClocks.CompareMirror | agents/realtime_coordination_agent/tests/test_realtime_coordination_agent.py:193-212 | Swapping the arguments swaps before and after and keeps equal and concurrent. |
| VectorClocks.IncrementIsAfter | agents/realtime_coordination_agent/tests/test_realtime_coordination_agent.py:172-212 | An incremented clock compares "after" the original. |
| VectorClocks.MergeIsLeastUpperBound | agents/realtime_coordination_agent/tests/test_realtime_coordination_agent.py:182-191 | The merge dominates both inputs and is below every common upper bound. |
| VectorClocks.MergeCommutesAndAbsorbs | agents/realtime_coordination_agent/tests/test_realtime_coordination_agent.py:182-191 | Merging is commutative and idempotent. |
| Conflicts.Resolve | agents/realtime_coordination_agent/tests/test_realtime_coordination_agent.py:430-493 | The winner is one of the two updates. Under last-write-wins the remote wins iff it is strictly newer. Under vector clocks the remote wins iff the local clock is strictly before it. |
| Conflicts.LwwKeepsNewest | agents/realtime_coordination_agent/tests/test_realtime_coordination_agent.py:430-468 | The last-write-wins winner is at least as new as both updates, and without a tie the argument order does not matter. |
| Conflicts.VectorClockRespectsCausality | agents/realtime_coordination_agent/tests/test_realtime_coordination_agent.py:470-493 | A local update that dominates or is concurrent with the remote one wins; a strictly earlier one loses. |
| Rooms.CreateRoom | agents/realtime_coordination_agent/tests/test_realtime_coordination_agent.py:572-598 | A created room has exactly its creator as member. |
| Rooms.JoinRoom | agents/realtime_coordination_agent/tests/test_realtime_coordination_agent.py:600-611 | Joining succeeds iff the room exists and either the user is already in or there is room. It adds just the user, without duplicates. |
| Rooms.LeaveRoom | agents/realtime_coordination_agent/tests/test_realtime_coordination_agent.py:613-625 | Leaving succeeds iff the user is a member and removes only that user. |
| Rooms.JoinKeepsCapacity | agents/realtime_coordination_agent/tests/test_realtime_coordination_agent.py:641-651 | Membership never exceeds max_size. |
| Rooms.ThreeMembersAfterTwoJoins | agents/realtime_coordination_agent/tests/test_realtime_coordination_agent.py:627-651 | Two joins give three members; in a room of size 2 the second join fails. |
| Rooms.JoinThenLeave | agents/realtime_coordination_agent/tests/test_realtime_coordination_agent.py:600-625 | Join followed by leave restores the membership. |
| L1Cache.Set | agents/caching_agent/tests/test_caching_agent.py:163-199 | The new entry is stored last and found by its key. The kept older entries are a suffix of the previous ones, so eviction drops from the oldest end. Nothing is evicted when the value fits, and no entry is evicted once it fits. Afterwards the budget holds unless the new entry is alone. Nothing new appears except the entry. |
| L1Cache.Get | agents/caching_agent/tests/test_caching_agent.py:163-186 | A hit happens exactly for a present, unexpired key and returns its value, keeping every entry. An expired entry is dropped. |
| L1Cache.HitMovesToEnd | agents/caching_agent/tests/test_caching_agent.py:163-199 | A hit moves the entry to the most-recently-used end, and every other entry keeps its place in the eviction order. With two or more entries, the key read is no longer the first to be evicted. |
| L1Cache.Delete | agents/caching_agent/tests/test_caching_agent.py:201-207 | Reports whether the key was present; afterwards it is absent and all else is kept. |
| L1Cache.SetThenGet | agents/caching_agent/tests/test_caching_agent.py:163-186 | A get after a set returns the value until the TTL elapses and nothing after. |
| L1Cache.MissOnUnknown | agents/caching_agent/tests/test_caching_agent.py:170-173 | An unknown key misses and leaves the cache unchanged. |
| L1Cache.EvictionIsOldestFirst | agents/caching_agent/tests/test_caching_agent.py:188-199 | If an older entry survives an insertion, so does every newer one. |
| L1Cache.OverBudgetEvictsOldest | agents/caching_agent/tests/test_caching_agent.py:188-199 | When the budget is exceeded, the oldest entry is evicted. |
| L1Cache.KeysByPattern | agents/caching_agent/tests/test_caching_agent.py:209-216 | Returns exactly the stored keys the glob matches, each key once. |
| L1Cache.PatternScenario | agents/caching_agent/tests/test_caching_agent.py:209-216 | With keys user:1:profile, user:2:profile and content:1 stored, "user:*:profile" selects two keys. |
| L1Cache.KeysByTag | agents/caching_agent/tests/test_caching_agent.py:218-224 | Returns exactly the keys carrying the tag, each key once. |
| L1Cache.TagScenario | agents/caching_agent/tests/test_caching_agent.py:218-224 | With key1 tagged tag1 and tag2 and key2 tagged tag1, the tag tag1 selects two keys. |
| L1Cache.NoRepeatsCount | agents/caching_agent/tests/test_caching_agent.py:216-224 | A key list without repeats has as many distinct keys as entries, so the counts above are counts of distinct keys. |
| L1Cache.DependentKeys | agents/caching_agent/tests/test_caching_agent.py:226-232 | Returns exactly the stored keys, each starting with "cache:", of the entries that list the key as a dependency. |
| L1Cache.DropMatching | agents/caching_agent/tests/test_caching_agent.py:268-280 | Keeps exactly the entries whose key the glob does not match. |
| Compression.Encode | agents/caching_agent/tests/test_caching_agent.py:292-298 | The run-length form is canonical and never has more runs than the input has bytes. |
| Compression.DecodeEncode | agents/caching_agent/tests/test_caching_agent.py:300-307 | Decoding an encoding gives back the input. |
| Compression.EncodeDecode | agents/caching_agent/tests/test_caching_agent.py:300-307 | Encoding a decoded canonical form gives back that form. |
| Compression.Compress | agents/caching_agent/tests/test_caching_agent.py:285-298 | Data is compressed exactly when compression is enabled and the size is at least the threshold; otherwise it is stored plain. |
| Compression.Decompress | agents/caching_agent/tests/test_caching_agent.py:300-307 | A plain payload comes back as is, and a payload packed from some string comes back as that string. |
| Compression.CompressRoundTrip | agents/caching_agent/tests/test_caching_agent.py:300-307 | decompress(compress(x)) == x for every input and setting. |
| Invalidation.RegisterEventSubscription | agents/caching_agent/tests/test_caching_agent.py:317-328 | Adds exactly the key to the event's subscribers; other events and dependencies are unchanged. |
| Invalidation.RegisterDependency | agents/caching_agent/tests/test_caching_agent.py:330-336 | Adds exactly the dependent under its source; other sources and subscriptions are unchanged. |
| Invalidation.DependentsIsLeastClosure | agents/caching_agent/tests/test_caching_agent.py:338-346 | The dependents of a key form the smallest set that holds its direct dependents and is closed under dependency. |
| Invalidation.KeysToInvalidate | agents/caching_agent/tests/test_caching_agent.py:317-346 | Returns the event's subscribers and the transitive dependents of the source, and nothing else. |
| Invalidation.ChainIsTransitive | agents/caching_agent/tests/test_caching_agent.py:338-346 | With key1 → key2 → key3, invalidating key1 reaches key2 and key3. |
| TieredCache.CacheKey | agents/caching_agent/tests/test_caching_agent.py:357-371 | Keys are namespaced with "cache:" and the original key is recoverable. |
| TieredCache.CacheKeyInjective | agents/caching_agent/tests/test_caching_agent.py:357-371 | Distinct keys never share a cache key. |
| TieredCache.Set | agents/caching_agent/tests/test_caching_agent.py:356-409 | Write-through puts the value in L1 and L2. Write-back puts it in L1 and the buffer, leaving L2 alone. Write-around puts it only in L2. No other L2 key changes. |
| TieredCache.Flush | agents/caching_agent/tests/test_caching_agent.py:373-395 | Every buffered value reaches L2, other L2 keys are kept, and the buffer empties. |
| TieredCache.Get | agents/caching_agent/tests/test_caching_agent.py:411-429 | An L1 hit is returned first, otherwise the L2 value. Hits and misses are counted, and a hit leaves the key in L1. |
| TieredCache.GetOrCompute | agents/caching_agent/tests/test_caching_agent.py:450-474 | The computed value is used exactly on a miss, and is then stored. |
| TieredCache.InvalidatePattern | agents/caching_agent/tests/test_caching_agent.py:476-498 | Removes exactly the matching keys from both tiers and returns how many distinct keys matched. |
| TieredCache.HitRate | agents/caching_agent/tests/test_caching_agent.py:500-526 | The hit rate lies in [0, 1], strictly inside when there are both hits and misses. |
| TieredCache.WriteBackThenFlush | agents/caching_agent/tests/test_caching_agent.py:373-395 | A write-back value is absent from L2 until a flush, then present. |
| TieredCache.L2HitPromotes | agents/caching_agent/tests/test_caching_agent.py:411-429 | An L1 miss that hits L2 returns the L2 value and promotes it into L1. |
| TieredCache.ComputeOnce | agents/caching_agent/tests/test_caching_agent.py:450-474 | The first get_or_compute computes. The second returns the first value without computing. |
| TieredCache.InvalidatedKeysMiss | agents/caching_agent/tests/test_caching_agent.py:476-498 | After invalidating a pattern, every matching key misses. |
| TieredCache.UnknownKeyMisses | agents/caching_agent/tests/test_caching_agent.py:500-526 | A key in neither tier misses and counts exactly one miss. |
| TieredCache.StatsScenario | agents/caching_agent/tests/test_caching_agent.py:500-526 | One set, one hit and one miss give statistics (1, 1, 1) and a hit rate strictly between 0 and 1. |
| ReviewQueue.AddToQueue | agents/content_quality_agent/tests/test_content_quality_agent.py:483-496 | Returns the content id and stores a pending item under it. It fails exactly when a new id would exceed max_size. Other items are unchanged. |
| ReviewQueue.GetNextItem | agents/content_quality_agent/tests/test_content_quality_agent.py:498-513 | Returns a pending queued item of the most urgent priority present; returns nothing when all are reviewed. |
| ReviewQueue.ApproveContent | agents/content_quality_agent/tests/test_content_quality_agent.py:543-558 | Succeeds exactly for a queued id, marking it reviewed and approved by the reviewer; others are unchanged. |
| ReviewQueue.QueueStatus | agents/content_quality_agent/tests/test_content_quality_agent.py:560-566 | Reports total_items and max_size. Each of the three priorities maps to the number of queued items of that priority, and the three counts sum to the total. |
| ReviewQueue.SafetyFailServedFirst | agents/content_quality_agent/tests/test_content_quality_agent.py:515-541 | A SAFETY_FAIL item added after a LOW_QUALITY item is served first. |
| ReviewQueue.ApprovedNotOfferedAgain | agents/content_quality_agent/tests/test_content_quality_agent.py:543-558 | An approved item is never offered again. |
| QualityChecks.CheckFacts | agents/content_quality_agent/tests/test_content_quality_agent.py:184-209 | The verified count is the number of true verdicts and the unverified count the number of false ones; together they partition the claims. The check passes iff all are verified. No claims gives 0, 0, passed. |
| QualityChecks.OneVerifiedClaim | agents/content_quality_agent/tests/test_content_quality_agent.py:195-209 | A single claim that the checker verifies gives one verified, none unverified, passed. |
| QualityChecks.AddContent | agents/content_quality_agent/tests/test_content_quality_agent.py:317-327 | The known-content store grows by exactly the new record. |
| Authorization.CheckPermission | agents/security_compliance_agent/tests/test_security_compliance_agent.py:326-355 | Allowed exactly when the role holds "action:resource" or the wildcard. |
| Authorization.CheckPermissionCases | agents/security_compliance_agent/tests/test_security_compliance_agent.py:345-355 | An unknown role is denied everything, a wildcard role is allowed everything, and other roles are allowed exactly their listed permissions. |
| Authorization.PermissionStringInjective | agents/security_compliance_agent/tests/test_security_compliance_agent.py:357-368 | For actions without ':', the permission string determines both action and resource. |
| Authorization.RolesAreIndependent | agents/security_compliance_agent/tests/test_security_compliance_agent.py:326-343 | Granting a permission to one role does not change another role's answers. |
| RequestLimits.Check | agents/security_compliance_agent/tests/test_security_compliance_agent.py:389-420 | A request passes iff its counter is under the endpoint's limit. Only its own (user, endpoint, window) counter increases. |
| RequestLimits.CheckManyOutcomes | agents/security_compliance_agent/tests/test_security_compliance_agent.py:389-420 | The i-th of n requests passes iff the earlier count plus i is under the limit. |
| RequestLimits.LimitThenRefuse | agents/security_compliance_agent/tests/test_security_compliance_agent.py:390-420 | From zero, exactly limit requests pass and the next fails. |
| RequestLimits.CountersAreIndependent | agents/security_compliance_agent/tests/test_security_compliance_agent.py:422-448 | A request by one user on one endpoint never changes the answer for another user or endpoint. |
| Audit.Mask | agents/security_compliance_agent/tests/test_security_compliance_agent.py:477-498 | Keeps the shape and the field names, and replaces every sensitive field with "***MASKED***". |
| Audit.MaskHidesSecrets | agents/security_compliance_agent/tests/test_security_compliance_agent.py:477-498 | No sensitive value survives at any depth, and masking twice is masking once. |
| Audit.MaskKeepsPlainFields | agents/security_compliance_agent/tests/test_security_compliance_agent.py:477-498 | Non-sensitive scalar fields are unchanged. |
| Audit.AuditLog | agents/security_compliance_agent/tests/test_security_compliance_agent.py:459-476 | Logging prepends the masked event and keeps the log. |
| Audit.GetAuditLogs | agents/security_compliance_agent/tests/test_security_compliance_agent.py:459-511 | Returns the first limit matching events (all of them when fewer), newest first, in log order. |
| Audit.NewestFirst | agents/security_compliance_agent/tests/test_security_compliance_agent.py:459-476 | A newly logged event heads the user's filtered history when it matches and leaves it alone otherwise. |
| Audit.Filter | agents/security_compliance_agent/tests/test_security_compliance_agent.py:500-511 | Keeps exactly the events matching the user and event-type filters. |
| Audit.FilterAppend | agents/security_compliance_agent/tests/test_security_compliance_agent.py:500-511 | Filtering a concatenation is concatenating the filtered parts, so the order of events is kept. |
| Audit.NestedPasswordMasked | agents/security_compliance_agent/tests/test_security_compliance_agent.py:477-498 | In the logged event the nested password is masked and the username and email are unchanged. |
| Compliance.CheckCompliance | agents/security_compliance_agent/tests/test_security_compliance_agent.py:536-592 | Compliant iff there are no issues. Under COPPA, compliant iff age is unknown or at least 13 or parental consent is given; otherwise the issue mentions parental consent. GDPR needs consent and policy acceptance. |
| Anonymization.AnonymizeField | agents/local_ai_agent/tests/test_local_ai_agent.py:330-354 | Names get a "Student_" prefix and emails the "@anonymous.local" domain. An ssn becomes "XXX-XX-XXXX" and a phone "XXX-XXX-XXXX". Other fields are kept. |
| Anonymization.AnonymizedDiffers | agents/local_ai_agent/tests/test_local_ai_agent.py:330-346 | A real name or email is always changed. |
| Anonymization.AnonymizeData | agents/local_ai_agent/tests/test_local_ai_agent.py:356-372 | Keeps the shape and field names, anonymises every string field by its name, and recurses into nested objects. |
| Anonymization.AnonymizeDataIsAnonymous | agents/local_ai_agent/tests/test_local_ai_agent.py:356-372 | No identifying field survives at any depth. |
| Anonymization.NestedPhoneMasked | agents/local_ai_agent/tests/test_local_ai_agent.py:356-372 | In the nested student record the phone becomes "XXX-XXX-XXXX". |
| Anonymization.MasksAreStable | agents/local_ai_agent/tests/test_local_ai_agent.py:374-382 | An already-masked ssn or phone is left as is. |
| PrivacyRules.Violations | agents/local_ai_agent/tests/test_local_ai_agent.py:260-328 | GDPR flags missing consent first and passes with consent and a retention policy. COPPA flags a child without parental consent. FERPA flags sensitive data without a legitimate interest. |
| PrivacyRules.NoViolationsIffAllMet | agents/local_ai_agent/tests/test_local_ai_agent.py:260-305 | No violations overall iff every checked standard has none. |
| PrivacyRules.CheckCompliance | agents/local_ai_agent/tests/test_local_ai_agent.py:260-305 | standards_met holds exactly the satisfied standards; compliant iff all are met iff there are no violations. |
| KeyRotation.RotateKeys | agents/local_ai_agent/tests/test_local_ai_agent.py:202-218 | Keeps exactly the unexpired keys and returns the number removed. |
| KeyRotation.AllExpiredRotated | agents/local_ai_agent/tests/test_local_ai_agent.py:202-218 | When every key has expired, all are removed. |
| AutoScaling.Evaluate | agents/infrastructure_agent/tests/test_infrastructure_agent.py:332-362 | At or above the up threshold, scales up by one when below max and cooled down. At or below the down threshold, scales down by one when above min and cooled down. Between thresholds: no decision. |
| AutoScaling.Scenarios | agents/infrastructure_agent/tests/test_infrastructure_agent.py:332-362 | cpu 75 with 2 replicas gives 3. cpu 25 with 5 replicas gives 4. cpu 50 gives no decision. |
| AutoScaling.CooldownSuppressesRepeat | agents/infrastructure_agent/tests/test_infrastructure_agent.py:342-353 | Within the cooldown after a scaling, no further scaling is decided. |
| AutoScaling.StaysInBounds | agents/infrastructure_agent/tests/test_infrastructure_agent.py:332-362 | Any sequence of decisions keeps replicas between min and max. |
| Alerts.CheckAlertRules | agents/infrastructure_agent/tests/test_infrastructure_agent.py:316-326 | An alert is raised for exactly the rules whose metric exceeds its threshold, carrying the metric and value. |
| Alerts.QuietMetricsRaiseNothing | agents/infrastructure_agent/tests/test_infrastructure_agent.py:316-326 | Metrics below all thresholds raise nothing. |
| Operations.BackupFile | agents/infrastructure_agent/tests/test_infrastructure_agent.py:444-497 | The file name contains the database name and ends in .sql, .dump or .rdb by database kind. |
| Operations.BackupNamesDistinct | agents/infrastructure_agent/tests/test_infrastructure_agent.py:444-497 | Backups at different timestamps get different names. |
| Operations.PreviousVersion | agents/infrastructure_agent/tests/test_infrastructure_agent.py:416-438 | Finds the latest successful earlier deployment of the service, or nothing if there is none. |
| Operations.Rollback | agents/infrastructure_agent/tests/test_infrastructure_agent.py:416-438 | Succeeds iff such a version exists, appending a successful deployment of it. |
| Operations.RollbackScenario | agents/infrastructure_agent/tests/test_infrastructure_agent.py:416-438 | v1.0 succeeded and v2.0 failed, so rollback from v2.0 targets v1.0. |
| Operations.RollbackNeverTargetsCurrent | agents/infrastructure_agent/tests/test_infrastructure_agent.py:416-438 | Rollback never redeploys the current version. |
| FileProcessor.ValidateFile | agents/content_ingestion_agent/tests/test_content_ingestion_agent.py:168-195 | Rejects, in this order, a missing file ("File not found"), an oversize file ("File too large") and an unsupported extension ("Unsupported format"). Valid iff none applies. |
| FileProcessor.EquationsBounded | agents/content_ingestion_agent/tests/test_content_ingestion_agent.py:218-223 | The scan yields at most one equation per two characters, since each needs its delimiters. |
| FileProcessor.EquationsAreDelimited | agents/content_ingestion_agent/tests/test_content_ingestion_agent.py:218-226 | Every extracted equation is delimited in the text by `$…$` or `$$…$$`. |
| FileProcessor.ScanTwo | agents/content_ingestion_agent/tests/test_content_ingestion_agent.py:218-226 | A text with one inline and one display equation yields exactly those two, in order. |
| FileProcessor.ConvertLatex | agents/content_ingestion_agent/tests/test_content_ingestion_agent.py:228-236 | Text without a backslash is unchanged. |
| FileProcessor.FracBecomesDivision | agents/content_ingestion_agent/tests/test_content_ingestion_agent.py:228-236 | `\frac{a}{b}` becomes `(a)/(b)` and the rest of the text is kept. |
| FileProcessor.ProcessTables | agents/content_ingestion_agent/tests/test_content_ingestion_agent.py:238-251 | Headers are the first row, rows the rest, row_count is the number of rows after the header and column_count the header width. |
| FileProcessor.TableRoundTrip | agents/content_ingestion_agent/tests/test_content_ingestion_agent.py:238-251 | Headers followed by rows rebuild the original table. |
| ConceptMapping.EstimateBloomsLevel | agents/content_ingestion_agent/tests/test_content_ingestion_agent.py:324-335 | The level is that of the first verb group mentioned in the text, and Understand when none is. |
| ConceptMapping.DefineIsRemember | agents/content_ingestion_agent/tests/test_content_ingestion_agent.py:324-335 | "Define …" is at the remember level. |
| ConceptMapping.DesignIsCreate | agents/content_ingestion_agent/tests/test_content_ingestion_agent.py:324-335 | "Design …" is at the create level. |
| ConceptMapping.ConceptId | agents/content_ingestion_agent/tests/test_content_ingestion_agent.py:375-385 | The id has 16 characters and begins the digest of the lower-cased name. |
| ConceptMapping.ConceptIdIgnoresCase | agents/content_ingestion_agent/tests/test_content_ingestion_agent.py:375-385 | Names equal up to case get equal ids. |
| ConceptMapping.MapRelationshipType | agents/content_ingestion_agent/tests/test_content_ingestion_agent.py:387-393 | Gives "PREREQUISITE_OF" exactly for "prerequisite_of" and "BELONGS_TO" for anything else. |
| IngestionJobs.GetJobStatus | agents/content_ingestion_agent/tests/test_content_ingestion_agent.py:471-502 | Returns the stored record for a known job, otherwise "Job not found". |
| IngestionJobs.RecordThenStatus | agents/content_ingestion_agent/tests/test_content_ingestion_agent.py:471-502 | A recorded job is found as recorded, and other jobs are unaffected. |
| QueryClassifier.Classify | agents/database_management_agent/tests/test_database_management_agent.py:257-266 | The class is the first of SELECT, INSERT, UPDATE and DELETE that starts the trimmed, upper-cased query, and DDL when none does; each class is stated as an if-and-only-if. |
| QueryClassifier.ClassifyIgnoresCase | agents/database_management_agent/tests/test_database_management_agent.py:257-266 | Classification ignores letter case. |
| QueryClassifier.ClassifyByKeyword | agents/database_management_agent/tests/test_database_management_agent.py:257-266 | Queries starting SELECT, INSERT, UPDATE, DELETE and CREATE are classified SELECT, INSERT, UPDATE, DELETE and DDL. |
| ConnectionPool.GetPoolStats | agents/database_management_agent/tests/test_database_management_agent.py:169-192 | Active plus idle is the total, max is the pool's, and active is within the total when idle is. |
| ConnectionPool.PoolScenario | agents/database_management_agent/tests/test_database_management_agent.py:169-192 | 5 total, 3 idle and max 10 give 2 active. |
| QueryExecution.CacheGet | agents/database_management_agent/tests/test_database_management_agent.py:202-216 | An uncached (query, params) pair misses; a cached one is returned marked from_cache. |
| QueryExecution.CacheRoundTrip | agents/database_management_agent/tests/test_database_management_agent.py:218-246 | After set, get returns the same rows with from_cache true; other queries still miss. |
| QueryExecution.ExecuteQuery | agents/database_management_agent/tests/test_database_management_agent.py:268-290 | A cached SELECT is served from the cache. Anything else returns the fetched rows with row_count their number and the query's type, and a SELECT is then cached. |
| QueryExecution.SecondSelectIsCached | agents/database_management_agent/tests/test_database_management_agent.py:202-246 | A repeated SELECT is served from the cache with the first rows. |
| QueryExecution.ExecuteTransaction | agents/database_management_agent/tests/test_database_management_agent.py:300-325 | With no failure every query is sent once and committed, and the result is true. Otherwise it stops at the first failing query and commits nothing. |
| TestingQA.RunUnitTests | agents/testing_qa_agent/tests/test_testing_qa_agent.py:124-139 | Passed exactly for exit code 0; failed otherwise with at least one failure. Module and duration are echoed, and coverage is present exactly when requested and reported. |
| TestingQA.RunIntegrationTests | agents/testing_qa_agent/tests/test_testing_qa_agent.py:170-189 | Records each agent's status. The counts match the per-agent statuses and sum to the agent count. The run passes iff no agent failed. |
| TestingQA.CountsPartition | agents/testing_qa_agent/tests/test_testing_qa_agent.py:170-189 | Passed, failed and skipped counts add up to the number of agents. |
| TestingQA.CountZeroIffNone | agents/testing_qa_agent/tests/test_testing_qa_agent.py:170-189 | A status count is zero iff no agent has that status. |
| TestingQA.RunE2ETests | agents/testing_qa_agent/tests/test_testing_qa_agent.py:213-221 | Echoes the scenario list with one result per scenario; passes iff every scenario does. |
| TestingQA.MatchesBounds | agents/testing_qa_agent/tests/test_testing_qa_agent.py:305-320 | Matches are at most the length: all iff every label agrees, none iff every label differs. |
| TestingQA.Accuracy | agents/testing_qa_agent/tests/test_testing_qa_agent.py:305-320 | Defined for equal non-empty label lists. It lies in [0, 1]: 1 iff all labels match, 0 iff none do. |
| TestingQA.CalculateMetrics | agents/testing_qa_agent/tests/test_testing_qa_agent.py:305-320 | Reports exactly the requested known metrics, each in [0, 1], with accuracy equal to Accuracy. |
| TestingQA.MetricsScenario | agents/testing_qa_agent/tests/test_testing_qa_agent.py:305-320 | For the labels of the test, accuracy is 0.8 and precision 1.0. |
| TestingQA.CalculateCodeCoverage | agents/testing_qa_agent/tests/test_testing_qa_agent.py:381-399 | Coverage is read from the first section named "unit": its reported coverage if it has one, otherwise 0.0. Without a unit section it is 0.0. |
| TestingQA.UnitCoverageReported | agents/testing_qa_agent/tests/test_testing_qa_agent.py:381-399 | A reported unit coverage is returned as is, and an empty run gives 0.0. |
| TestingQA.GenerateTestReport | agents/testing_qa_agent/tests/test_testing_qa_agent.py:409-435 | The report contains "TEST REPORT", the run id and the formatted coverage. |
| TestingQA.ReportMentionsSections | agents/testing_qa_agent/tests/test_testing_qa_agent.py:409-435 | The report names every section in upper case, with its formatted coverage when present. |
| Personalization.GetUserProfile | agents/personalization_agent/tests/test_personalization_agent.py:222-234 | A fetched profile is returned as is. On failure the default echoes the user id, with grade "8" and interests ["general"]. |
| Personalization.CacheKey | agents/personalization_agent/tests/test_personalization_agent.py:366-376 | Keys start with "personalization:". |
| Personalization.CacheKeySeparatesUsers | agents/personalization_agent/tests/test_personalization_agent.py:366-376 | Different users get different keys for the same concept and content type. |
| Personalization.CacheKeyInjective | agents/personalization_agent/tests/test_personalization_agent.py:366-376 | For ids without ':', the key determines user, concept and content type. |
| Personalization.AdaptExamples | agents/personalization_agent/tests/test_personalization_agent.py:389-397 | The result extends the base content, is strictly longer and mentions the connection to the learner's interests. |
| Personalization.ApplyCulturalContext | agents/personalization_agent/tests/test_personalization_agent.py:399-415 | Content naming a filtered term is marked "[culturally adapted]"; other content is unchanged. |
| Personalization.CulturalContextCases | agents/personalization_agent/tests/test_personalization_agent.py:399-415 | The "general" context leaves content intact; "middle_eastern" marks text naming pork. |
| Personalization.ScaleDifficulty | agents/personalization_agent/tests/test_personalization_agent.py:417-422 | Beginners' text never loses a full stop and gains one where a compound sentence is split; other levels keep the text. |
| Personalization.CompoundSentenceSplits | agents/personalization_agent/tests/test_personalization_agent.py:417-425 | A sentence joined by " and ", like the scenario's long sentence, gets strictly more full stops when scaled for a beginner of any grade. |
| Personalization.MatchLearningStyle | agents/personalization_agent/tests/test_personalization_agent.py:427-452 | The content is followed by the style's tip, or kept unchanged for an unknown style. |
| Personalization.StyleTipsNamed | agents/personalization_agent/tests/test_personalization_agent.py:427-452 | The visual, auditory and kinesthetic results each name their tip. |
| KnowledgeGraph.ValidateNodeRequest | agents/knowledge_graph_agent/tests/test_knowledge_graph_agent.py:92-115 | Empty properties are refused first and missing id second. Valid iff id is present, and label and properties are kept. |
| KnowledgeGraph.ValidateQueryRequest | agents/knowledge_graph_agent/tests/test_knowledge_graph_agent.py:146-157 | A blank query is refused first, then one containing a dangerous pattern. Valid iff neither applies. |
| KnowledgeGraph.QueryScenarios | agents/knowledge_graph_agent/tests/test_knowledge_graph_agent.py:146-157 | A whitespace query is empty, and "MATCH (n) DELETE ALL" is dangerous. |
| KnowledgeGraph.CreateNode | agents/knowledge_graph_agent/tests/test_knowledge_graph_agent.py:302-309 | A label outside the node types gives "Invalid node label: …". Success iff the label is known and an id is present. The node is stored under its id and nothing else changes. |
| KnowledgeGraph.LabelCheck | agents/knowledge_graph_agent/tests/test_knowledge_graph_agent.py:302-309 | Every configured node type is accepted and "InvalidLabel" is refused. |
| KnowledgeGraph.GetConceptGraph | agents/knowledge_graph_agent/tests/test_knowledge_graph_agent.py:454-485 | Echoes the central node and depth. Nodes are the stored nodes within depth. Edges are exactly the stored relationships whose two ends both lie within depth. |
| KnowledgeGraph.ConceptGraphIsNeighbourhood | agents/knowledge_graph_agent/tests/test_knowledge_graph_agent.py:454-485 | A stored node is in the graph iff a walk of at most depth relationships reaches it. Every returned edge joins two nodes of the neighbourhood. |
| KnowledgeGraph.DeeperGraphKeepsNodes | agents/knowledge_graph_agent/tests/test_knowledge_graph_agent.py:454-485 | A deeper request never loses a node. |

## Left out

- HTTP/FastAPI endpoints and their client tests: framework wiring.
- Redis, Neo4j, PostgreSQL (asyncpg), RabbitMQ, httpx and Ollama clients: their stores become in-memory maps or sequences, and results they fetch become parameters.
- asyncio concurrency, sleeps and latency measurements: every step is a sequential pure function with time as a parameter.
- Docker, Kubernetes, subprocess, Slack and SMTP side effects: the infrastructure and QA agents' external commands are replaced by their inputs and outcomes.
- Language-model and classifier inference (toxicity, bias, embeddings, content generation): opaque and not modelled.
- Floating-point quality scores, learning velocity and container CPU/memory percentages: not modelled.
- AES-GCM encryption, JWT signing and expiry, and pickle: not modelled.
- MD5: digests are a function parameter `digest`.
- gzip: replaced by a run-length codec, so the compression round trip is stated about a concrete codec.
- Configuration tables the repository leaves out become parameters: permission tables, the default and per-endpoint request limits, the dangerous query patterns, privacy sensitive-data detection (FERPA), and the routing rules.
- Scripts and fixtures (validation scripts, demos, conftest): file and AST I/O.
- The L2 (Redis) TTL: not modelled; L2 entries do not expire.
- Query-result cache TTL in the database agent: not modelled.
- Blocking dequeue in the task queue: only the non-blocking form is modelled.
- Deployment strategies (rolling, blue-green, canary): only the recorded history and rollback are modelled, not the rollout steps.
- PDF, DOCX and PPTX text extraction: the processor starts from extracted text and tables.
- Orchestrator.DistributeTask: task ids come from a counter rather than random UUIDs, so freshness is stated against the recorded tasks.
- Orchestrator.RouteRequest: follows the integration test, in which an open breaker makes routing fail, rather than a plain table lookup.
- Orchestrator.RecordAttempt: the retry limit is a field of the orchestrator; the agent's HTTP call is replaced by its outcome.
- Conflicts.Resolve: under vector clocks, equal or concurrent clocks keep the local update; without clocks on both sides it falls back to last-write-wins, and a timestamp tie keeps the local update.
- L1Cache.KeysByPattern: only `*` and `?` are wildcards; shell character classes such as `[abc]` and backslash escapes match literally. The same glob serves L1Cache.DropMatching and TieredCache.InvalidatePattern.
- L1Cache.Get: an entry is expired when the current time is strictly past its expiry; a single entry larger than the budget is still admitted by L1Cache.Set.
- L1Cache.Size: an entry's size is the length of its value; the source's serialized byte size is not modelled.
- L1Cache.DependentKeys: the stored key is "cache:" followed by the key itself, not by a hash of it, so only the prefix the source promises is stated.
- Orchestrator.CheckTimeout: a timed-out task becomes FAILED with the error "Task timed out"; there is no separate TIMEOUT status.
- Orchestrator.HealthStatus: an agent counts as healthy exactly while its circuit breaker is CLOSED; no health-check probe is modelled.
- Orchestrator.HandleFailure: withdraws the failed task's queue entries so that no worker picks it up later; the retry of a failed task is not modelled.
- Rooms.JoinRoom: a member rejoining is accepted and not duplicated.
- ReviewQueue.AddToQueue: re-adding a known id replaces that item; get_next_item does not remove the item it returns.
- QualityChecks.CheckFacts: claims are verified by a parameter, and the check passes iff no claim is unverified.
- TieredCache.CacheKey: the key is "cache:" + key rather than a hash of it.
- Anonymization.AnonymizeField: the field kind is decided by the first of name, email, ssn, phone that the lower-cased field name contains.
- PrivacyRules.Violations: a record without a numeric age is not treated as a child's.
- AutoScaling.Evaluate: a scale-up decision at max_replicas (or a scale-down at min) yields no decision.
- ConceptMapping.EstimateBloomsLevel: the verb table is fixed by this model and defaults to Understand when no verb is mentioned.
- QueryClassifier.Classify: a query with no known leading keyword is classified DDL; rows are returned as the pool gives them.
- TestingQA.RunUnitTests: passed and failed counts are derived from the exit code (0/1), since pytest's own counts are not parsed.
- TestingQA.Accuracy: empty or mismatched label lists are an error rather than a division by zero.
- TestingQA.GenerateTestReport: the report layout is fixed by this model, and number formatting is a parameter `fmt`.
- Personalization.CacheKey: a plain joined key rather than a hash, so injectivity is stated for ids without ':'.
- Personalization.ApplyCulturalContext: marks the content rather than removing the term; only the middle_eastern → pork filter is known.
- Personalization.ScaleDifficulty: splits compound sentences at " and " for beginners; vocabulary levels and the grade are not modelled.
- Personalization.MatchLearningStyle: the tip texts are fixed by this model.
- KnowledgeGraph.ValidateQueryRequest: dangerous patterns are a parameter.
- KnowledgeGraph.CreateNode: node ids are JSON values, and creating a node with an existing id replaces it.
- KnowledgeGraph.GetConceptGraph: depth is a natural number and relationships are followed in both directions.

=== FILE: circuit_breaker.dfy ===
/** Per-agent failure gate of the orchestrator.
    States CLOSED, HALF_OPEN, OPEN; `threshold` consecutive failures open
    it, and once `timeout` seconds have passed since the last failure the
    next admission check moves it to HALF_OPEN and admits one trial.
    Wall-clock time is an explicit `now` parameter (seconds, as `real`,
    matching the source's `time.time()`). */
module CircuitBreaker {

  datatype State = Closed | HalfOpen | Open

  datatype Breaker = Breaker(
    threshold: nat,
    timeout: real,
    state: State,
    failureCount: nat,
    lastFailure: real)

  /** Result of `can_execute`: the (possibly moved) breaker and the verdict. */
  datatype Admission = Admission(breaker: Breaker, allowed: bool)

  /** Reachable breakers: OPEN and HALF_OPEN are only entered once the
      failure count has reached the threshold. */
  predicate Valid(b: Breaker) {
    b.state != Closed ==> b.failureCount >= b.threshold
  }

  /** `CircuitBreaker(threshold, timeout)`. */
  function Init(threshold: nat, timeout: real): (b: Breaker)
    ensures b.state == Closed && b.failureCount == 0
    ensures b.threshold == threshold && b.timeout == timeout
    ensures Valid(b)
  {
    Breaker(threshold, timeout, Closed, 0, 0.0)
  }

  /** Whether `timeout` seconds have elapsed since the breaker opened. */
  predicate CooledDown(b: Breaker, now: real) {
    now - b.lastFailure >= b.timeout
  }

  /** `can_execute()`: CLOSED and HALF_OPEN admit; OPEN admits only after
      the cooldown, moving to HALF_OPEN; nothing else changes. */
  function CanExecute(b: Breaker, now: real): (a: Admission)
    ensures a.allowed <==> b.state != Open || CooledDown(b, now)
    ensures a.breaker.state ==
      (if b.state == Open && CooledDown(b, now) then HalfOpen else b.state)
    ensures a.breaker.failureCount == b.failureCount
    ensures a.breaker.threshold == b.threshold && a.breaker.timeout == b.timeout
    ensures a.breaker.lastFailure == b.lastFailure
    ensures Valid(b) ==> Valid(a.breaker)
  {
    match b.state
    case Closed => Admission(b, true)
    case HalfOpen => Admission(b, true)
    case Open =>
      if CooledDown(b, now) then Admission(b.(state := HalfOpen), true)
      else Admission(b, false)
  }

  /** `record_failure()`: counts the failure, stamps it, and opens the
      breaker once the count reaches the threshold (a failed HALF_OPEN
      trial therefore re-opens it). */
  function RecordFailure(b: Breaker, now: real): (r: Breaker)
    ensures r.failureCount == b.failureCount + 1
    ensures r.threshold == b.threshold && r.timeout == b.timeout
    ensures r.lastFailure == now
    ensures r.state == Open <==> (r.failureCount >= b.threshold || b.state == Open)
    ensures r.state != Open ==> r.state == b.state
    ensures Valid(b) && b.state == HalfOpen ==> r.state == Open
    ensures Valid(b) ==> Valid(r)
  {
    var count := b.failureCount + 1;
    b.(failureCount := count,
       lastFailure := now,
       state := if count >= b.threshold then Open else b.state)
  }

  /** `record_success()`: closes the breaker and clears the count. */
  function RecordSuccess(b: Breaker): (r: Breaker)
    ensures r.state == Closed && r.failureCount == 0
    ensures r.threshold == b.threshold && r.timeout == b.timeout
    ensures Valid(r)
  {
    b.(state := Closed, failureCount := 0)
  }

  /** `get_state_value()`: the gauge exported for monitoring. */
  function StateValue(s: State): (v: nat)
    ensures v <= 2
    ensures v == 0 <==> s == Closed
    ensures v == 2 <==> s == Open
  {
    match s
    case Closed => 0
    case HalfOpen => 1
    case Open => 2
  }

  /** `n` consecutive failures at the same instant. */
  function Failures(b: Breaker, n: nat, now: real): (r: Breaker)
    ensures r.threshold == b.threshold && r.timeout == b.timeout
    ensures n > 0 ==> r.lastFailure == now
  {
    if n == 0 then b else RecordFailure(Failures(b, n - 1, now), now)
  }

  /** From a fresh breaker, `n` failures leave it CLOSED while `n` is below
      the threshold and OPEN from the threshold on; the count is `n`. */
  lemma {:induction false} FailuresFromInit(threshold: nat, timeout: real, n: nat, now: real)
    ensures Failures(Init(threshold, timeout), n, now).failureCount == n
    ensures Failures(Init(threshold, timeout), n, now).state ==
      (if n >= threshold && n > 0 then Open else Closed)
  {
    if n > 0 {
      FailuresFromInit(threshold, timeout, n - 1, now);
      var prev := Failures(Init(threshold, timeout), n - 1, now);
      assert Failures(Init(threshold, timeout), n, now) == RecordFailure(prev, now);
    }
  }

  /** With a positive timeout, the breaker opened by the threshold-th
      failure refuses an admission check made at that same instant. */
  lemma ThresholdFailuresBlock(threshold: nat, timeout: real, now: real)
    requires threshold > 0 && timeout > 0.0
    ensures !CanExecute(Failures(Init(threshold, timeout), threshold, now), now).allowed
  {
    var b := Failures(Init(threshold, timeout), threshold, now);
    FailuresFromInit(threshold, timeout, threshold, now);
    assert b.state == Open && b.lastFailure == now;
    assert !CooledDown(b, now);
  }

  /** Recovery path: an OPEN breaker whose cooldown has elapsed admits one
      trial (moving to HALF_OPEN), and a success then closes it with a
      zero failure count. */
  lemma RecoveryAfterCooldown(b: Breaker, now: real)
    requires b.state == Open && CooledDown(b, now)
    ensures CanExecute(b, now).allowed
    ensures CanExecute(b, now).breaker.state == HalfOpen
    ensures RecordSuccess(CanExecute(b, now).breaker).state == Closed
    ensures RecordSuccess(CanExecute(b, now).breaker).failureCount == 0
  {
  }
}

=== FILE: compression.dfy ===
/** Payload compression of the caching agent. Values at or above a size
    threshold are stored compressed, smaller ones as they are. The source
    uses gzip; here the codec is run-length encoding, which keeps the
    contract the callers rely on: decompressing a compressed value gives
    the value back. */
module Compression {
  datatype Run = Run(ch: char, count: nat)

  datatype Blob = Plain(data: string) | Packed(runs: seq<Run>)

  function Repeat(c: char, n: nat): (s: string)
    ensures |s| == n && forall i :: 0 <= i < n ==> s[i] == c
  {
    seq(n, _ => c)
  }

  /** Runs are non-empty and neighbouring runs carry different characters. */
  predicate Canonical(runs: seq<Run>) {
    && (forall i :: 0 <= i < |runs| ==> runs[i].count >= 1)
    && (forall i :: 0 <= i < |runs| - 1 ==> runs[i].ch != runs[i + 1].ch)
  }

  function Encode(s: string): (runs: seq<Run>)
    ensures Canonical(runs)
    ensures |runs| <= |s|
    ensures |s| > 0 ==> |runs| > 0 && runs[0].ch == s[0]
  {
    if |s| == 0 then []
    else
      var rest := Encode(s[1..]);
      if |rest| > 0 && rest[0].ch == s[0] then [Run(s[0], rest[0].count + 1)] + rest[1..]
      else [Run(s[0], 1)] + rest
  }

  function Decode(runs: seq<Run>): (s: string)
    ensures Canonical(runs) && |runs| > 0 ==> |s| > 0 && s[0] == runs[0].ch
  {
    if |runs| == 0 then [] else Repeat(runs[0].ch, runs[0].count) + Decode(runs[1..])
  }

  lemma DecodeCons(c: char, n: nat, rest: seq<Run>)
    ensures Decode([Run(c, n + 1)] + rest) == [c] + Decode([Run(c, n)] + rest)
  {
    assert ([Run(c, n + 1)] + rest)[1..] == rest;
    assert ([Run(c, n)] + rest)[1..] == rest;
    assert Repeat(c, n + 1) == [c] + Repeat(c, n);
  }

  /** Decoding undoes encoding, for every string. */
  lemma {:induction false} DecodeEncode(s: string)
    ensures Decode(Encode(s)) == s
  {
    if |s| > 0 {
      var rest := Encode(s[1..]);
      DecodeEncode(s[1..]);
      if |rest| > 0 && rest[0].ch == s[0] {
        assert rest == [Run(s[0], rest[0].count)] + rest[1..];
        DecodeCons(s[0], rest[0].count, rest[1..]);
      } else {
        assert ([Run(s[0], 1)] + rest)[1..] == rest;
        assert Repeat(s[0], 1) == [s[0]];
      }
      assert s == [s[0]] + s[1..];
    }
  }

  /** Encoding undoes decoding on canonical run lists, so the encoding of
      a string is its unique canonical run list. */
  lemma {:induction false} EncodeDecode(runs: seq<Run>)
    requires Canonical(runs)
    ensures Encode(Decode(runs)) == runs
  {
    if |runs| > 0 {
      var r := runs[0];
      var tail := runs[1..];
      assert Canonical(tail);
      EncodeDecode(tail);
      RepeatThenEncode(r.ch, r.count, tail);
    }
  }

  lemma {:induction false} RepeatThenEncode(c: char, n: nat, tail: seq<Run>)
    requires n >= 1 && Canonical(tail) && Encode(Decode(tail)) == tail
    requires |tail| > 0 ==> tail[0].ch != c
    ensures Encode(Repeat(c, n) + Decode(tail)) == [Run(c, n)] + tail
  {
    var s := Repeat(c, n) + Decode(tail);
    assert s[1..] == Repeat(c, n - 1) + Decode(tail);
    if n == 1 {
      assert Repeat(c, 0) + Decode(tail) == Decode(tail);
    } else {
      RepeatThenEncode(c, n - 1, tail);
    }
  }

  /** A run of one repeated character packs into a single run. */
  lemma ConstantPacksToOneRun(c: char, n: nat)
    requires n >= 1
    ensures Encode(Repeat(c, n)) == [Run(c, n)]
  {
    assert Decode([]) == [];
    assert Repeat(c, n) + Decode([]) == Repeat(c, n);
    RepeatThenEncode(c, n, []);
  }

  datatype Compressed = Compressed(blob: Blob, isCompressed: bool)

  /** `compress(data)`: data shorter than the threshold (or any data when
      compression is disabled) is stored as it is. */
  function Compress(data: string, enabled: bool, thresholdBytes: nat): (r: Compressed)
    ensures r.isCompressed <==> enabled && |data| >= thresholdBytes
    ensures !r.isCompressed ==> r.blob == Plain(data)
    ensures r.isCompressed ==> r.blob.Packed? && |r.blob.runs| <= |data|
  {
    if enabled && |data| >= thresholdBytes then Compressed(Packed(Encode(data)), true)
    else Compressed(Plain(data), false)
  }

  /** `decompress(payload, is_compressed)`. */
  function Decompress(blob: Blob, isCompressed: bool): (s: string)
    ensures !isCompressed && blob.Plain? ==> s == blob.data
    ensures forall t :: blob == Packed(Encode(t)) ==> s == t
  {
    match blob
    case Plain(data) => data
    case Packed(runs) =>
      assert forall t :: blob == Packed(Encode(t)) ==> Decode(runs) == t by {
        forall t | blob == Packed(Encode(t))
          ensures Decode(runs) == t
        {
          DecodeEncode(t);
        }
      }
      Decode(runs)
  }

  /** Round trip through the compression manager, on either side of the
      threshold. */
  lemma CompressRoundTrip(data: string, enabled: bool, thresholdBytes: nat)
    ensures var c := Compress(data, enabled, thresholdBytes); Decompress(c.blob, c.isCompressed) == data
  {
    DecodeEncode(data);
  }
}

=== FILE: content_quality.dfy ===
/** The human review queue of the content quality agent: flagged content
    waits for a reviewer, and the next item to review is the unreviewed
    one whose reason ranks first in the configured priority order (earlier
    arrival first among equals). */
module ReviewQueue {
  import opened Wrappers

  datatype ReviewPriority = SafetyFail | LowQuality | BiasDetected

  datatype Item = Item(
    contentId: string,
    content: string,
    priority: ReviewPriority,
    reviewed: bool,
    approved: bool,
    reviewer: Option<string>,
    notes: string)

  /** `ids` keeps arrival order; `items` holds the record of each id. */
  datatype Queue = Queue(
    maxSize: nat,
    priorityOrder: seq<ReviewPriority>,
    ids: seq<string>,
    items: map<string, Item>)

  predicate Valid(q: Queue) {
    && (forall i, j :: 0 <= i < j < |q.ids| ==> q.ids[i] != q.ids[j])
    && q.items.Keys == (set id | id in q.ids)
    && (forall id :: id in q.items ==> q.items[id].contentId == id)
    && |q.ids| <= q.maxSize
  }

  function Init(maxSize: nat, priorityOrder: seq<ReviewPriority>): (q: Queue)
    ensures Valid(q) && |q.ids| == 0 && q.maxSize == maxSize
  {
    Queue(maxSize, priorityOrder, [], map[])
  }

  /** Position of a priority in the configured order; an unlisted priority
      ranks after every listed one. Lower is more urgent. */
  function Rank(order: seq<ReviewPriority>, p: ReviewPriority): (r: nat)
    ensures r <= |order|
    ensures r < |order| ==> order[r] == p && forall i :: 0 <= i < r ==> order[i] != p
    ensures r == |order| ==> p !in order
  {
    if |order| == 0 then 0
    else if order[0] == p then 0
    else 1 + Rank(order[1..], p)
  }

  /** `add_to_queue(content_id, content, validation, priority)`: returns
      the id; a full queue refuses new ids, and re-adding a known id
      replaces its record as unreviewed. */
  function AddToQueue(q: Queue, contentId: string, content: string, priority: ReviewPriority): (r: Result<(Queue, string)>)
    requires Valid(q)
    ensures r.Err? <==> contentId !in q.items && |q.ids| >= q.maxSize
    ensures r.Ok? ==> r.value.1 == contentId && Valid(r.value.0)
    ensures r.Ok? ==> contentId in r.value.0.items
                      && r.value.0.items[contentId] == Item(contentId, content, priority, false, false, None, "")
    ensures r.Ok? ==> forall id :: id in q.items && id != contentId ==> id in r.value.0.items && r.value.0.items[id] == q.items[id]
    ensures r.Ok? ==> r.value.0.items.Keys == q.items.Keys + {contentId}
  {
    var item := Item(contentId, content, priority, false, false, None, "");
    if contentId in q.items then Ok((q.(items := q.items[contentId := item]), contentId))
    else if |q.ids| >= q.maxSize then Err("Review queue is full")
    else Ok((q.(ids := q.ids + [contentId], items := q.items[contentId := item]), contentId))
  }

  predicate Pending(q: Queue, id: string)
    requires Valid(q)
  {
    id in q.items && !q.items[id].reviewed
  }

  /** Scan for the most urgent pending item at or after position `from`. */
  function Best(q: Queue, from: nat): (r: Option<nat>)
    requires Valid(q) && from <= |q.ids|
    ensures r.Some? ==> from <= r.value < |q.ids| && Pending(q, q.ids[r.value])
    ensures r.None? <==> forall i :: from <= i < |q.ids| ==> !Pending(q, q.ids[i])
    ensures r.Some? ==> forall i :: from <= i < |q.ids| && Pending(q, q.ids[i]) ==>
              Rank(q.priorityOrder, q.items[q.ids[r.value]].priority) <= Rank(q.priorityOrder, q.items[q.ids[i]].priority)
    ensures r.Some? ==> forall i :: from <= i < r.value && Pending(q, q.ids[i]) ==>
              Rank(q.priorityOrder, q.items[q.ids[r.value]].priority) < Rank(q.priorityOrder, q.items[q.ids[i]].priority)
    decreases |q.ids| - from
  {
    if from == |q.ids| then None
    else
      var rest := Best(q, from + 1);
      if !Pending(q, q.ids[from]) then rest
      else if rest.None? then Some(from)
      else if Rank(q.priorityOrder, q.items[q.ids[from]].priority)
              <= Rank(q.priorityOrder, q.items[q.ids[rest.value]].priority) then Some(from)
      else rest
  }

  /** `get_next_item()`: the most urgent unreviewed item, earliest first
      among equally urgent ones; nothing when every item is reviewed. The
      item stays in the queue until a reviewer acts on it. */
  function GetNextItem(q: Queue): (r: Option<Item>)
    requires Valid(q)
    ensures r.None? <==> forall id :: id in q.items ==> q.items[id].reviewed
    ensures r.Some? ==> r.value.contentId in q.items && q.items[r.value.contentId] == r.value && !r.value.reviewed
    ensures r.Some? ==> forall id :: Pending(q, id) ==>
              Rank(q.priorityOrder, r.value.priority) <= Rank(q.priorityOrder, q.items[id].priority)
  {
    var b := Best(q, 0);
    if b.None? then
      assert forall id :: id in q.items ==> q.items[id].reviewed by {
        forall id | id in q.items ensures q.items[id].reviewed {
          var i :| 0 <= i < |q.ids| && q.ids[i] == id;
        }
      }
      None
    else
      var best := q.items[q.ids[b.value]];
      assert forall id :: Pending(q, id) ==> Rank(q.priorityOrder, best.priority) <= Rank(q.priorityOrder, q.items[id].priority) by {
        forall id | Pending(q, id) ensures Rank(q.priorityOrder, best.priority) <= Rank(q.priorityOrder, q.items[id].priority) {
          var i :| 0 <= i < |q.ids| && q.ids[i] == id;
        }
      }
      Some(best)
  }

  /** `approve_content(content_id, reviewer, notes)`: marks a known item
      reviewed and approved; reports whether the id was known. */
  function ApproveContent(q: Queue, contentId: string, reviewer: string, notes: string): (r: (Queue, bool))
    requires Valid(q)
    ensures r.1 <==> contentId in q.items
    ensures Valid(r.0) && r.0.ids == q.ids && r.0.items.Keys == q.items.Keys
    ensures r.1 ==> r.0.items[contentId].reviewed && r.0.items[contentId].approved
                    && r.0.items[contentId].reviewer == Some(reviewer)
                    && r.0.items[contentId].content == q.items[contentId].content
    ensures forall id :: id in q.items && id != contentId ==> r.0.items[id] == q.items[id]
    ensures !r.1 ==> r.0 == q
  {
    if contentId !in q.items then (q, false)
    else
      var it := q.items[contentId];
      (q.(items := q.items[contentId := it.(reviewed := true, approved := true, reviewer := Some(reviewer), notes := notes)]), true)
  }

  function CountPriority(q: Queue, ids: seq<string>, p: ReviewPriority): nat
    requires forall i :: 0 <= i < |ids| ==> ids[i] in q.items
  {
    if |ids| == 0 then 0
    else (if q.items[ids[0]].priority == p then 1 else 0) + CountPriority(q, ids[1..], p)
  }

  datatype Status = Status(totalItems: nat, byPriority: map<ReviewPriority, nat>, maxSize: nat)

  /** `get_queue_status()`: the item count, per-priority counts and the
      capacity. */
  function QueueStatus(q: Queue): (s: Status)
    requires Valid(q)
    ensures s.totalItems == |q.items| && s.maxSize == q.maxSize
    ensures s.byPriority.Keys == {SafetyFail, LowQuality, BiasDetected}
    ensures s.byPriority[SafetyFail] + s.byPriority[LowQuality] + s.byPriority[BiasDetected] == s.totalItems
    ensures s.byPriority[SafetyFail] == |WithPriority(q, SafetyFail)|
    ensures s.byPriority[LowQuality] == |WithPriority(q, LowQuality)|
    ensures s.byPriority[BiasDetected] == |WithPriority(q, BiasDetected)|
  {
    StatusCounts(q);
    Status(|q.items|,
      map[SafetyFail := CountPriority(q, q.ids, SafetyFail),
          LowQuality := CountPriority(q, q.ids, LowQuality),
          BiasDetected := CountPriority(q, q.ids, BiasDetected)],
      q.maxSize)
  }

  lemma StatusCounts(q: Queue)
    requires Valid(q)
    ensures forall i :: 0 <= i < |q.ids| ==> q.ids[i] in q.items
    ensures CountPriority(q, q.ids, SafetyFail) + CountPriority(q, q.ids, LowQuality)
            + CountPriority(q, q.ids, BiasDetected) == |q.items|
    ensures CountPriority(q, q.ids, SafetyFail) == |WithPriority(q, SafetyFail)|
    ensures CountPriority(q, q.ids, LowQuality) == |WithPriority(q, LowQuality)|
    ensures CountPriority(q, q.ids, BiasDetected) == |WithPriority(q, BiasDetected)|
  {
    assert forall i :: 0 <= i < |q.ids| ==> q.ids[i] in q.items;
    CountsPartition(q, q.ids);
    DistinctCard(q);
    CountIsWithPriority(q, SafetyFail);
    CountIsWithPriority(q, LowQuality);
    CountIsWithPriority(q, BiasDetected);
  }

  lemma {:induction false} CountsPartition(q: Queue, ids: seq<string>)
    requires forall i :: 0 <= i < |ids| ==> ids[i] in q.items
    ensures CountPriority(q, ids, SafetyFail) + CountPriority(q, ids, LowQuality)
            + CountPriority(q, ids, BiasDetected) == |ids|
  {
    if |ids| > 0 {
      CountsPartition(q, ids[1..]);
    }
  }

  /** The queued ids whose item carries priority `p`. */
  function WithPriority(q: Queue, p: ReviewPriority): set<string> {
    set id | id in q.items && q.items[id].priority == p
  }

  /** The ids in `ids` whose item carries priority `p`. */
  function Matching(q: Queue, ids: seq<string>, p: ReviewPriority): (r: set<string>)
    ensures forall id :: id in r <==> id in ids && id in q.items && q.items[id].priority == p
  {
    if |ids| == 0 then {}
    else
      var rest := Matching(q, ids[1..], p);
      assert forall id :: id in ids <==> id == ids[0] || id in ids[1..];
      if ids[0] in q.items && q.items[ids[0]].priority == p then rest + {ids[0]} else rest
  }

  /** Counting along the arrival order counts each queued item of the
      priority once. */
  lemma CountIsWithPriority(q: Queue, p: ReviewPriority)
    requires Valid(q)
    ensures CountPriority(q, q.ids, p) == |WithPriority(q, p)|
  {
    CountIsSetSize(q, q.ids, p);
    assert WithPriority(q, p) == Matching(q, q.ids, p);
  }

  lemma {:induction false} CountIsSetSize(q: Queue, ids: seq<string>, p: ReviewPriority)
    requires forall i :: 0 <= i < |ids| ==> ids[i] in q.items
    requires forall i, j :: 0 <= i < j < |ids| ==> ids[i] != ids[j]
    ensures CountPriority(q, ids, p) == |Matching(q, ids, p)|
  {
    if |ids| > 0 {
      CountIsSetSize(q, ids[1..], p);
      assert ids[0] !in ids[1..] by {
        forall i | 0 <= i < |ids[1..]| ensures ids[1..][i] != ids[0] {
          assert ids[1..][i] == ids[i + 1];
        }
      }
    }
  }

  lemma DistinctCard(q: Queue)
    requires Valid(q)
    ensures |q.items| == |q.ids|
  {
    DistinctSeqCard(q.ids);
    assert |q.items| == |q.items.Keys|;
  }

  lemma {:induction false} DistinctSeqCard(s: seq<string>)
    requires forall i, j :: 0 <= i < j < |s| ==> s[i] != s[j]
    ensures |set x | x in s| == |s|
  {
    if |s| > 0 {
      DistinctSeqCard(s[1..]);
      assert (set x | x in s) == (set x | x in s[1..]) + {s[0]};
      assert s[0] !in s[1..];
    }
  }

  /** Urgency beats arrival: with SAFETY_FAIL ranked before LOW_QUALITY, a
      safety failure added after a low-quality item is served first. */
  lemma SafetyFailServedFirst(q: Queue, low: string, high: string)
    requires Valid(q) && |q.ids| == 0 && q.maxSize >= 2 && low != high
    requires q.priorityOrder == [SafetyFail, LowQuality, BiasDetected]
    ensures AddToQueue(q, low, "", LowQuality).Ok?
    ensures var q1 := AddToQueue(q, low, "", LowQuality).value.0;
            AddToQueue(q1, high, "", SafetyFail).Ok?
            && GetNextItem(AddToQueue(q1, high, "", SafetyFail).value.0).value.contentId == high
  {
    var q1 := AddToQueue(q, low, "", LowQuality).value.0;
    var q2 := AddToQueue(q1, high, "", SafetyFail).value.0;
    assert q2.ids == [low, high];
    assert Rank(q2.priorityOrder, SafetyFail) == 0;
    assert Rank(q2.priorityOrder, LowQuality) == 1;
    var n := GetNextItem(q2).value;
    assert Pending(q2, high);
  }

  /** Once approved, an item is never offered for review again. */
  lemma ApprovedNotOfferedAgain(q: Queue, contentId: string, reviewer: string, notes: string)
    requires Valid(q) && contentId in q.items
    ensures var n := GetNextItem(ApproveContent(q, contentId, reviewer, notes).0);
            n.Some? ==> n.value.contentId != contentId
  {
  }
}

/** Fact checking of extracted claims and the plagiarism detector's store
    of known content. Claim extraction and claim verification (an
    external knowledge-graph call) are supplied as inputs. */
module QualityChecks {
  datatype FactCheck = FactCheck(verifiedCount: nat, unverifiedCount: nat, passed: bool)

  function CountTrue(s: seq<bool>): (n: nat)
    ensures n <= |s|
  {
    if |s| == 0 then 0 else (if s[0] then 1 else 0) + CountTrue(s[1..])
  }

  /** `check_facts(content)` given one verification verdict per extracted
      claim: the counts partition the claims, and the check passes when
      no claim is left unverified (so content without claims passes). */
  function CheckFacts(verdicts: seq<bool>): (r: FactCheck)
    ensures r.verifiedCount == multiset(verdicts)[true]
    ensures r.unverifiedCount == multiset(verdicts)[false]
    ensures r.verifiedCount + r.unverifiedCount == |verdicts|
    ensures r.passed <==> forall i :: 0 <= i < |verdicts| ==> verdicts[i]
    ensures |verdicts| == 0 ==> r == FactCheck(0, 0, true)
  {
    AllTrueIffCountFull(verdicts);
    CountTrueIsMultiplicity(verdicts);
    var v := CountTrue(verdicts);
    FactCheck(v, |verdicts| - v, v == |verdicts|)
  }

  /** `CountTrue` counts the true verdicts, and the rest are false. */
  lemma {:induction false} CountTrueIsMultiplicity(s: seq<bool>)
    ensures CountTrue(s) == multiset(s)[true]
    ensures |s| - CountTrue(s) == multiset(s)[false]
  {
    if |s| > 0 {
      CountTrueIsMultiplicity(s[1..]);
      assert s == [s[0]] + s[1..];
      assert multiset(s) == multiset([s[0]]) + multiset(s[1..]);
    }
  }

  /** One claim, verified: one verified, none unverified, and the check
      passes. */
  lemma OneVerifiedClaim()
    ensures CheckFacts([true]) == FactCheck(1, 0, true)
  {
    assert multiset([true])[true] == 1;
  }

  lemma {:induction false} AllTrueIffCountFull(s: seq<bool>)
    ensures CountTrue(s) == |s| <==> forall i :: 0 <= i < |s| ==> s[i]
  {
    if |s| > 0 {
      AllTrueIffCountFull(s[1..]);
      assert forall i :: 1 <= i < |s| ==> s[i] == s[1..][i - 1];
    }
  }

  datatype KnownContent = KnownContent(contentId: string, text: string, source: string)

  /** `add_content(content_id, text, source)`: appends one entry to the
      known-content store. */
  function AddContent(known: seq<KnownContent>, contentId: string, text: string, source: string): (r: seq<KnownContent>)
    ensures |r| == |known| + 1
    ensures r[..|known|] == known && r[|known|] == KnownContent(contentId, text, source)
  {
    known + [KnownContent(contentId, text, source)]
  }
}

=== FILE: database.dfy ===
/** The database management agent's query handling: classification,
    pool statistics, the result cache and transactions. The PostgreSQL
    connection is not modelled: what the database returns for a query is
    passed in. */
module QueryClassifier {
  import Text

  datatype QueryType = Select | Insert | Update | Delete | Ddl

  /** `_classify_query(query)`: by the leading keyword of the stripped,
      upper-cased text; anything that is not a read or a row change is a
      schema statement. */
  function Classify(query: string): (t: QueryType)
    ensures t == Select <==> Text.IsPrefix("SELECT", Text.Upper(Text.TrimStart(query)))
    ensures t == Insert <==> !Text.IsPrefix("SELECT", Text.Upper(Text.TrimStart(query)))
                             && Text.IsPrefix("INSERT", Text.Upper(Text.TrimStart(query)))
    ensures t == Update <==> !Text.IsPrefix("SELECT", Text.Upper(Text.TrimStart(query)))
                             && !Text.IsPrefix("INSERT", Text.Upper(Text.TrimStart(query)))
                             && Text.IsPrefix("UPDATE", Text.Upper(Text.TrimStart(query)))
    ensures t == Delete <==> !Text.IsPrefix("SELECT", Text.Upper(Text.TrimStart(query)))
                             && !Text.IsPrefix("INSERT", Text.Upper(Text.TrimStart(query)))
                             && !Text.IsPrefix("UPDATE", Text.Upper(Text.TrimStart(query)))
                             && Text.IsPrefix("DELETE", Text.Upper(Text.TrimStart(query)))
    ensures t == Ddl <==> !Text.IsPrefix("SELECT", Text.Upper(Text.TrimStart(query)))
                          && !Text.IsPrefix("INSERT", Text.Upper(Text.TrimStart(query)))
                          && !Text.IsPrefix("UPDATE", Text.Upper(Text.TrimStart(query)))
                          && !Text.IsPrefix("DELETE", Text.Upper(Text.TrimStart(query)))
  {
    var q := Text.Upper(Text.TrimStart(query));
    if Text.IsPrefix("SELECT", q) then Select
    else if Text.IsPrefix("INSERT", q) then Insert
    else if Text.IsPrefix("UPDATE", q) then Update
    else if Text.IsPrefix("DELETE", q) then Delete
    else Ddl
  }

  /** Classification ignores letter case. */
  lemma ClassifyIgnoresCase(query: string)
    ensures Classify(Text.Lower(query)) == Classify(query)
  {
    var t := Text.TrimStart(query);
    var lt := Text.TrimStart(Text.Lower(query));
    assert lt == Text.Lower(t) by {
      TrimCommutesWithLower(query);
    }
    Text.UpperOfLower(t);
  }

  /** Lower-casing never turns a space into a letter or back. */
  lemma {:induction false} TrimCommutesWithLower(s: string)
    ensures Text.TrimStart(Text.Lower(s)) == Text.Lower(Text.TrimStart(s))
  {
    if |s| > 0 {
      assert Text.Lower(s)[0] == Text.LowerChar(s[0]);
      assert Text.Lower(s)[1..] == Text.Lower(s[1..]);
      if Text.IsSpace(s[0]) {
        TrimCommutesWithLower(s[1..]);
      }
    }
  }

  /** A statement that starts with an upper-case keyword is classified by
      it, as in the classification test's five statements. */
  lemma ClassifyByKeyword(query: string)
    requires |query| >= 6 && !Text.IsSpace(query[0])
    ensures query[..6] == "SELECT" ==> Classify(query) == Select
    ensures query[..6] == "INSERT" ==> Classify(query) == Insert
    ensures query[..6] == "UPDATE" ==> Classify(query) == Update
    ensures query[..6] == "DELETE" ==> Classify(query) == Delete
    ensures query[..6] == "CREATE" ==> Classify(query) == Ddl
  {
    assert Text.TrimStart(query) == query;
    var u := Text.Upper(query);
    var k := query[..6];
    if k in {"SELECT", "INSERT", "UPDATE", "DELETE", "CREATE"} {
      forall i | 0 <= i < 6 ensures u[i] == k[i] {
        assert 'A' <= k[i] <= 'Z';
      }
      assert u[..6] == k;
    }
  }
}

module ConnectionPool {
  datatype PoolStats = PoolStats(total: nat, idle: nat, active: int, max: nat)

  /** `get_pool_stats()`: the pool's size, idle count and maximum, with
      the connections in use derived from them. */
  function GetPoolStats(size: nat, idleSize: nat, maxSize: nat): (s: PoolStats)
    ensures s.total == size && s.idle == idleSize && s.max == maxSize
    ensures s.active + s.idle == s.total
    ensures idleSize <= size ==> 0 <= s.active <= s.total
  {
    PoolStats(size, idleSize, size - idleSize, maxSize)
  }

  /** The pool of the test: 5 connections, 3 idle, at most 10. */
  lemma PoolScenario()
    ensures GetPoolStats(5, 3, 10) == PoolStats(5, 3, 2, 10)
  {
  }
}

module QueryExecution {
  import opened Wrappers
  import J = Json
  import QC = QueryClassifier

  type Row = J.Value

  datatype QueryResult = QueryResult(
    rows: seq<Row>,
    rowCount: nat,
    executionTime: real,
    queryType: QC.QueryType,
    fromCache: bool)

  /** Cached results by query text and parameters (the source keys them by
      a digest of the two). */
  type Cache = map<(string, seq<J.Value>), QueryResult>

  /** `QueryCacheManager.get(query, params)`: a cached result is marked as
      coming from the cache. */
  function CacheGet(c: Cache, query: string, params: seq<J.Value>): (r: Option<QueryResult>)
    ensures r.None? <==> (query, params) !in c
    ensures r.Some? ==> r.value == c[(query, params)].(fromCache := true)
  {
    if (query, params) in c then Some(c[(query, params)].(fromCache := true)) else None
  }

  function CacheSet(c: Cache, query: string, params: seq<J.Value>, result: QueryResult): (c': Cache)
    ensures (query, params) in c' && c'[(query, params)] == result
    ensures forall k :: k in c && k != (query, params) ==> k in c' && c'[k] == c[k]
  {
    c[(query, params) := result]
  }

  /** A stored result comes back with the same rows, flagged as cached; a
      query never stored misses. */
  lemma CacheRoundTrip(c: Cache, query: string, params: seq<J.Value>, result: QueryResult, other: string)
    requires other != query && (other, params) !in c
    ensures CacheGet(CacheSet(c, query, params, result), query, params) == Some(result.(fromCache := true))
    ensures CacheGet(CacheSet(c, query, params, result), query, params).value.rows == result.rows
    ensures CacheGet(CacheSet(c, query, params, result), other, params).None?
  {
  }

  datatype Executed = Executed(result: QueryResult, cache: Cache)

  /** `execute_query(query, params, use_cache)`: a cached SELECT is served
      from the cache; otherwise the database's answer `fetched` is
      returned with its row count and the query's type, and a SELECT
      answer is cached. */
  function ExecuteQuery(c: Cache, query: string, params: seq<J.Value>, useCache: bool,
                        fetched: seq<Row>, elapsed: real): (e: Executed)
    ensures var cacheable := useCache && QC.Classify(query) == QC.Select;
            && (cacheable && (query, params) in c ==>
                  e.result == c[(query, params)].(fromCache := true) && e.cache == c)
            && (!(cacheable && (query, params) in c) ==>
                  && e.result.rows == fetched
                  && e.result.rowCount == |fetched|
                  && e.result.queryType == QC.Classify(query)
                  && !e.result.fromCache
                  && (cacheable ==> e.cache == c[(query, params) := e.result])
                  && (!cacheable ==> e.cache == c))
  {
    var cacheable := useCache && QC.Classify(query) == QC.Select;
    var hit := if cacheable then CacheGet(c, query, params) else None;
    if hit.Some? then Executed(hit.value, c)
    else
      var result := QueryResult(fetched, |fetched|, elapsed, QC.Classify(query), false);
      Executed(result, if cacheable then CacheSet(c, query, params, result) else c)
  }

  /** Running the same SELECT twice answers the second time from the cache,
      with the first answer's rows, whatever the database would now say. */
  lemma SecondSelectIsCached(c: Cache, query: string, params: seq<J.Value>,
                             first: seq<Row>, second: seq<Row>, t1: real, t2: real)
    requires QC.Classify(query) == QC.Select
    ensures var e1 := ExecuteQuery(c, query, params, true, first, t1);
            var e2 := ExecuteQuery(e1.cache, query, params, true, second, t2);
            e2.result.fromCache && e2.result.rows == e1.result.rows
  {
  }

  /** Statements of a transaction; `fails` says which ones the database
      rejects. */
  datatype Statement = Statement(sql: string, params: seq<J.Value>)

  /** `execute_transaction(queries)`: runs the statements in order on one
      connection; the first failure rolls everything back. Returns whether
      the transaction committed, the statements sent to the database, and
      those whose effects persist. */
  method ExecuteTransaction(queries: seq<Statement>, fails: Statement -> bool)
    returns (ok: bool, sent: seq<Statement>, committed: seq<Statement>)
    ensures ok <==> forall i :: 0 <= i < |queries| ==> !fails(queries[i])
    ensures ok ==> sent == queries && committed == queries
    ensures !ok ==> committed == [] && |sent| > 0 && fails(sent[|sent| - 1])
                    && Prefix(sent, queries)
                    && forall i :: 0 <= i < |sent| - 1 ==> !fails(sent[i])
  {
    sent := [];
    var i := 0;
    while i < |queries|
      invariant 0 <= i <= |queries|
      invariant sent == queries[..i]
      invariant forall j :: 0 <= j < i ==> !fails(queries[j])
    {
      sent := sent + [queries[i]];
      if fails(queries[i]) {
        assert sent == queries[..i + 1];
        return false, sent, [];
      }
      i := i + 1;
    }
    assert sent == queries;
    return true, sent, queries;
  }

  predicate Prefix(p: seq<Statement>, s: seq<Statement>) {
    |p| <= |s| && s[..|p|] == p
  }
}

=== FILE: dispatch_queue.dfy ===
/** Bounded max-priority queue of pending tasks (`PriorityQueue`).
    Entries are kept in insertion order, each stamped with a strictly
    increasing sequence number; `dequeue` takes the highest priority and,
    among equal priorities, the earliest enqueued. */
module DispatchQueue {
  import opened Wrappers

  datatype Entry<Id> = Entry(taskId: Id, priority: int, seqNo: nat, payload: map<string, string>)

  datatype Queue<Id> = Queue(maxSize: nat, entries: seq<Entry<Id>>, counter: nat)

  /** Sequence numbers grow along the entries and stay below the counter. */
  predicate Valid<Id(==,!new)>(q: Queue<Id>) {
    && |q.entries| <= q.maxSize
    && (forall i, j :: 0 <= i < j < |q.entries| ==> q.entries[i].seqNo < q.entries[j].seqNo)
    && (forall i :: 0 <= i < |q.entries| ==> q.entries[i].seqNo < q.counter)
  }

  /** `PriorityQueue(max_size)`. */
  function Init<Id(==,!new)>(maxSize: nat): (q: Queue<Id>)
    ensures Valid(q) && Size(q) == 0 && q.maxSize == maxSize
  {
    Queue(maxSize, [], 0)
  }

  /** `get_size()`: the number of live (not removed, not dequeued) entries. */
  function Size<Id(==,!new)>(q: Queue<Id>): nat {
    |q.entries|
  }

  /** `enqueue(task_id, priority, payload)`: refuses when the queue already
      holds `max_size` entries; otherwise appends one entry. */
  function Enqueue<Id(==,!new)>(q: Queue<Id>, taskId: Id, priority: int, payload: map<string, string>): (r: Result<Queue<Id>>)
    requires Valid(q)
    ensures r.Err? <==> Size(q) >= q.maxSize
    ensures r.Ok? ==> Valid(r.value) && r.value.maxSize == q.maxSize
    ensures r.Ok? ==> r.value.entries == q.entries + [Entry(taskId, priority, q.counter, payload)]
  {
    if |q.entries| >= q.maxSize then Err("Queue is full")
    else Ok(Queue(q.maxSize, q.entries + [Entry(taskId, priority, q.counter, payload)], q.counter + 1))
  }

  /** Index of the entry to serve: a highest priority, and no earlier
      entry has that priority. */
  function BestIndex<Id(==,!new)>(es: seq<Entry<Id>>): (k: nat)
    requires |es| > 0
    ensures k < |es|
    ensures forall j :: 0 <= j < |es| ==> es[j].priority <= es[k].priority
    ensures forall j :: 0 <= j < k ==> es[j].priority < es[k].priority
  {
    if |es| == 1 then 0
    else
      var k := BestIndex(es[..|es| - 1]);
      if es[|es| - 1].priority > es[k].priority then |es| - 1 else k
  }

  datatype Dequeued<Id> = Dequeued(entry: Option<Entry<Id>>, queue: Queue<Id>)

  function RemoveAt<Id(==,!new)>(es: seq<Entry<Id>>, k: nat): (r: seq<Entry<Id>>)
    requires k < |es|
    ensures |r| == |es| - 1
    ensures forall j :: 0 <= j < k ==> r[j] == es[j]
    ensures forall j :: k <= j < |r| ==> r[j] == es[j + 1]
    ensures multiset(r) + multiset{es[k]} == multiset(es)
  {
    assert es == es[..k] + [es[k]] + es[k + 1..];
    es[..k] + es[k + 1..]
  }

  /** The entry `e` is served before every entry of `rest`: strictly higher
      priority, or equal priority and enqueued earlier. */
  predicate ServedFirst<Id(==,!new)>(e: Entry<Id>, rest: seq<Entry<Id>>) {
    forall j :: 0 <= j < |rest| ==>
      rest[j].priority < e.priority || (rest[j].priority == e.priority && e.seqNo < rest[j].seqNo)
  }

  lemma RemoveAtKeepsOrder<Id(!new)>(q: Queue<Id>, k: nat)
    requires Valid(q) && k < |q.entries|
    ensures Valid(Queue(q.maxSize, RemoveAt(q.entries, k), q.counter))
  {
    var r := RemoveAt(q.entries, k);
    forall i, j | 0 <= i < j < |r|
      ensures r[i].seqNo < r[j].seqNo
    {
      var i' := if i < k then i else i + 1;
      var j' := if j < k then j else j + 1;
      assert r[i] == q.entries[i'] && r[j] == q.entries[j'];
    }
    forall i | 0 <= i < |r|
      ensures r[i].seqNo < q.counter
    {
      var i' := if i < k then i else i + 1;
      assert r[i] == q.entries[i'];
    }
  }

  lemma BestIsServedFirst<Id(!new)>(q: Queue<Id>, k: nat)
    requires Valid(q) && |q.entries| > 0 && k == BestIndex(q.entries)
    ensures ServedFirst(q.entries[k], RemoveAt(q.entries, k))
  {
    var r := RemoveAt(q.entries, k);
    forall j | 0 <= j < |r|
      ensures r[j].priority < q.entries[k].priority
           || (r[j].priority == q.entries[k].priority && q.entries[k].seqNo < r[j].seqNo)
    {
      if j < k {
        assert r[j] == q.entries[j];
      } else {
        assert r[j] == q.entries[j + 1];
      }
    }
  }

  /** `dequeue()`: the empty queue yields nothing (the source waits for an
      entry instead); otherwise the served entry leaves, the others stay
      in order. */
  function Dequeue<Id(==,!new)>(q: Queue<Id>): (d: Dequeued<Id>)
    requires Valid(q)
    ensures d.entry.None? <==> Size(q) == 0
    ensures Valid(d.queue) && d.queue.maxSize == q.maxSize
    ensures d.entry.Some? ==>
      && Size(d.queue) == Size(q) - 1
      && multiset(d.queue.entries) + multiset{d.entry.value} == multiset(q.entries)
      && ServedFirst(d.entry.value, d.queue.entries)
    ensures d.entry.None? ==> d.queue == q
  {
    if |q.entries| == 0 then Dequeued(None, q)
    else
      var k := BestIndex(q.entries);
      var rest := RemoveAt(q.entries, k);
      RemoveAtKeepsOrder(q, k);
      BestIsServedFirst(q, k);
      Dequeued(Some(q.entries[k]), Queue(q.maxSize, rest, q.counter))
  }

  function Filter<Id(==,!new)>(es: seq<Entry<Id>>, taskId: Id): (r: seq<Entry<Id>>)
    ensures |r| <= |es|
    ensures forall i :: 0 <= i < |r| ==> r[i].taskId != taskId
    ensures forall e :: e in r <==> e in es && e.taskId != taskId
    ensures (forall i, j :: 0 <= i < j < |es| ==> es[i].seqNo < es[j].seqNo) ==>
              (forall i, j :: 0 <= i < j < |r| ==> r[i].seqNo < r[j].seqNo)
  {
    if |es| == 0 then []
    else if es[0].taskId == taskId then Filter(es[1..], taskId)
    else
      var tail := Filter(es[1..], taskId);
      assert forall e :: e in tail ==> e in es[1..];
      [es[0]] + tail
  }

  lemma FilterKeepsValid<Id(!new)>(q: Queue<Id>, taskId: Id)
    requires Valid(q)
    ensures Valid(Queue(q.maxSize, Filter(q.entries, taskId), q.counter))
  {
    var r := Filter(q.entries, taskId);
    forall i | 0 <= i < |r|
      ensures r[i].seqNo < q.counter
    {
      assert r[i] in q.entries;
    }
  }

  datatype Removed<Id> = Removed(found: bool, queue: Queue<Id>)

  /** `remove(task_id)`: cancels every queued entry for the task and
      reports whether there was one. */
  function Remove<Id(==,!new)>(q: Queue<Id>, taskId: Id): (r: Removed<Id>)
    requires Valid(q)
    ensures r.found <==> exists i :: 0 <= i < |q.entries| && q.entries[i].taskId == taskId
    ensures Valid(r.queue) && r.queue.maxSize == q.maxSize
    ensures forall e :: e in r.queue.entries <==> e in q.entries && e.taskId != taskId
  {
    var kept := Filter(q.entries, taskId);
    var found := exists i :: 0 <= i < |q.entries| && q.entries[i].taskId == taskId;
    FilterKeepsValid(q, taskId);
    Removed(found, Queue(q.maxSize, kept, q.counter))
  }

  /** Two successive dequeues serve non-increasing priorities. */
  lemma DequeueOrderNonIncreasing<Id(!new)>(q: Queue<Id>)
    requires Valid(q) && Size(q) >= 2
    ensures Dequeue(q).entry.Some? && Dequeue(Dequeue(q).queue).entry.Some?
    ensures Dequeue(Dequeue(q).queue).entry.value.priority <= Dequeue(q).entry.value.priority
    ensures Dequeue(Dequeue(q).queue).entry.value.priority == Dequeue(q).entry.value.priority ==>
              Dequeue(q).entry.value.seqNo < Dequeue(Dequeue(q).queue).entry.value.seqNo
  {
    var d1 := Dequeue(q);
    var d2 := Dequeue(d1.queue);
    var e2 := d2.entry.value;
    assert e2 in multiset(d1.queue.entries);
    var j :| 0 <= j < |d1.queue.entries| && d1.queue.entries[j] == e2;
  }

  /** A cancelled task is never served afterwards. */
  lemma RemovedNeverDequeued<Id(!new)>(q: Queue<Id>, taskId: Id)
    requires Valid(q)
    ensures Dequeue(Remove(q, taskId).queue).entry.Some? ==>
              Dequeue(Remove(q, taskId).queue).entry.value.taskId != taskId
  {
    var r := Remove(q, taskId).queue;
    var d := Dequeue(r);
    if d.entry.Some? {
      assert d.entry.value in multiset(r.entries);
    }
  }

  /** Enqueuing on a full queue fails, so the size never exceeds `max_size`. */
  lemma SizeBounded<Id(!new)>(q: Queue<Id>, taskId: Id, priority: int, payload: map<string, string>)
    requires Valid(q)
    ensures Enqueue(q, taskId, priority, payload).Ok? ==>
              Size(Enqueue(q, taskId, priority, payload).value) <= q.maxSize
    ensures Size(q) == q.maxSize ==> Enqueue(q, taskId, priority, payload).Err?
  {
  }
}

=== FILE: infrastructure.dfy ===
/** The auto-scaling decision rule of the infrastructure agent
    (`AutoScaler.evaluate_scaling`). Replica counts and the CPU reading
    come from the orchestrator and the monitor, which are not modelled;
    they arrive as parameters, as does the current time. */
module AutoScaling {
  import opened Wrappers

  datatype Config = Config(
    minReplicas: nat,
    maxReplicas: nat,
    upThreshold: real,
    upCooldown: real,
    downThreshold: real,
    downCooldown: real)

  /** The deployed configuration: 2..10 replicas, scale up at 70% CPU
      after 300 s, scale down at 30% after 600 s. */
  const Default: Config := Config(2, 10, 70.0, 300.0, 30.0, 600.0)

  predicate ValidConfig(c: Config) {
    c.minReplicas <= c.maxReplicas && c.downThreshold < c.upThreshold
  }

  /** Last scaling time per service. */
  type LastScale = map<string, real>

  predicate CooledDown(last: LastScale, service: string, cooldown: real, now: real) {
    service !in last || now - last[service] >= cooldown
  }

  datatype Decision = Decision(replicas: Option<nat>, last: LastScale)

  /** `evaluate_scaling(service, metrics)`: one replica more when CPU is at
      or above the scale-up threshold, one fewer when at or below the
      scale-down threshold, each only outside its cooldown and inside the
      replica bounds; otherwise no decision. A decision is recorded as the
      service's last scaling time. */
  function Evaluate(c: Config, last: LastScale, service: string, cpu: real, replicas: nat, now: real): (d: Decision)
    requires ValidConfig(c)
    ensures d.replicas.Some? ==> c.minReplicas <= replicas ==> c.minReplicas <= d.replicas.value
    ensures d.replicas.Some? ==> replicas <= c.maxReplicas ==> d.replicas.value <= c.maxReplicas
    ensures d.replicas.Some? && cpu >= c.upThreshold ==> d.replicas.value == replicas + 1
    ensures d.replicas.Some? && cpu <= c.downThreshold ==> d.replicas.value == replicas - 1
    ensures c.downThreshold < cpu < c.upThreshold ==> d.replicas.None?
    ensures cpu >= c.upThreshold ==>
              (d.replicas.Some? <==> replicas < c.maxReplicas && CooledDown(last, service, c.upCooldown, now))
    ensures cpu <= c.downThreshold ==>
              (d.replicas.Some? <==> replicas > c.minReplicas && CooledDown(last, service, c.downCooldown, now))
    ensures d.replicas.Some? ==> d.last == last[service := now]
    ensures d.replicas.None? ==> d.last == last
  {
    if cpu >= c.upThreshold && replicas < c.maxReplicas && CooledDown(last, service, c.upCooldown, now) then
      Decision(Some(replicas + 1), last[service := now])
    else if cpu <= c.downThreshold && replicas > c.minReplicas && CooledDown(last, service, c.downCooldown, now) then
      Decision(Some(replicas - 1), last[service := now])
    else
      Decision(None, last)
  }

  /** The three scenarios: 75% on 2 replicas scales to 3; 25% on 5
      replicas, last scaled at time 0, scales to 4; 50% does nothing. */
  lemma Scenarios(now: real)
    requires now >= 600.0
    ensures Evaluate(Default, map[], "test-service", 75.0, 2, now).replicas == Some(3)
    ensures Evaluate(Default, map["test-service" := 0.0], "test-service", 25.0, 5, now).replicas == Some(4)
    ensures Evaluate(Default, map[], "test-service", 50.0, 5, now).replicas.None?
  {
  }

  /** A second decision for the same service inside the shorter cooldown
      is refused, whatever the load. */
  lemma CooldownSuppressesRepeat(c: Config, last: LastScale, service: string,
                                 cpu1: real, cpu2: real, r1: nat, r2: nat, now: real, later: real)
    requires ValidConfig(c)
    requires Evaluate(c, last, service, cpu1, r1, now).replicas.Some?
    requires now <= later < now + c.upCooldown && later < now + c.downCooldown
    ensures Evaluate(c, Evaluate(c, last, service, cpu1, r1, now).last, service, cpu2, r2, later).replicas.None?
  {
  }

  /** Repeated decisions keep the replica count inside its bounds. */
  lemma {:induction false} StaysInBounds(c: Config, last: LastScale, service: string,
                                         loads: seq<real>, times: seq<real>, replicas: nat)
    requires ValidConfig(c) && |loads| == |times|
    requires c.minReplicas <= replicas <= c.maxReplicas
    ensures c.minReplicas <= Run(c, last, service, loads, times, replicas) <= c.maxReplicas
    decreases |loads|
  {
    if |loads| > 0 {
      var d := Evaluate(c, last, service, loads[0], replicas, times[0]);
      var next := if d.replicas.Some? then d.replicas.value else replicas;
      StaysInBounds(c, d.last, service, loads[1..], times[1..], next);
    }
  }

  /** The replica count after applying each decision in turn. */
  function Run(c: Config, last: LastScale, service: string, loads: seq<real>, times: seq<real>, replicas: nat): nat
    requires ValidConfig(c) && |loads| == |times|
    decreases |loads|
  {
    if |loads| == 0 then replicas
    else
      var d := Evaluate(c, last, service, loads[0], replicas, times[0]);
      Run(c, d.last, service, loads[1..], times[1..], if d.replicas.Some? then d.replicas.value else replicas)
  }
}

/** Threshold alert rules (`AlertManager.check_alert_rules`). Delivery to
    Slack or e-mail is not modelled. */
module Alerts {
  datatype Rule = Rule(metric: string, threshold: real)

  datatype Alert = Alert(metric: string, value: real, threshold: real)

  /** The rule fires: its metric was collected and is above the threshold. */
  predicate Fires(r: Rule, metrics: map<string, real>) {
    r.metric in metrics && metrics[r.metric] > r.threshold
  }

  /** One alert per firing rule, in rule order. */
  function CheckAlertRules(rules: seq<Rule>, metrics: map<string, real>): (alerts: seq<Alert>)
    ensures |alerts| <= |rules|
    ensures forall a :: a in alerts ==>
              a.metric in metrics && a.value == metrics[a.metric] && a.value > a.threshold
              && Rule(a.metric, a.threshold) in rules
    ensures forall r :: r in rules && Fires(r, metrics) ==>
              Alert(r.metric, metrics[r.metric], r.threshold) in alerts
    ensures |rules| > 0 && Fires(rules[0], metrics) ==> alerts[0].metric == rules[0].metric
  {
    if |rules| == 0 then []
    else
      var rest := CheckAlertRules(rules[1..], metrics);
      assert forall r :: r in rules <==> r == rules[0] || r in rules[1..];
      var r := rules[0];
      if Fires(r, metrics) then [Alert(r.metric, metrics[r.metric], r.threshold)] + rest else rest
  }

  /** The configured CPU rule at 80 fires for 85% CPU and stays silent for
      the 60% memory reading, which has no rule. */
  lemma CpuAlertScenario()
    ensures var alerts := CheckAlertRules([Rule("cpu_usage", 80.0)], map["cpu_usage" := 85.0, "memory_usage" := 60.0]);
            |alerts| == 1 && alerts[0].metric == "cpu_usage"
  {
  }

  /** A metric at or below every rule threshold raises nothing. */
  lemma QuietMetricsRaiseNothing(rules: seq<Rule>, metrics: map<string, real>)
    requires forall r :: r in rules ==> !Fires(r, metrics)
    ensures CheckAlertRules(rules, metrics) == []
  {
  }
}

/** Backup file naming of the database manager and deployment rollback.
    The dump tools and container deployment are not modelled. */
module Operations {
  import opened Wrappers
  import Text

  datatype Database = PostgreSql | Neo4j | Redis

  function DbName(db: Database): string {
    match db
    case PostgreSql => "postgresql"
    case Neo4j => "neo4j"
    case Redis => "redis"
  }

  function Extension(db: Database): string {
    match db
    case PostgreSql => ".sql"
    case Neo4j => ".dump"
    case Redis => ".rdb"
  }

  /** `<dir>/<db>_backup_<timestamp><ext>`. */
  function BackupFile(dir: string, db: Database, timestamp: string): (f: string)
    ensures Text.IsSuffix(Extension(db), f)
    ensures Text.Contains(f, DbName(db))
  {
    var head := dir + "/";
    var tail := "_backup_" + timestamp + Extension(db);
    Text.ContainsMiddle(head, DbName(db), tail);
    assert head + DbName(db) + tail == dir + "/" + DbName(db) + "_backup_" + timestamp + Extension(db);
    dir + "/" + DbName(db) + "_backup_" + timestamp + Extension(db)
  }

  /** Backups of the same database taken at different timestamps never
      overwrite each other. */
  lemma BackupNamesDistinct(dir: string, db: Database, t1: string, t2: string)
    requires t1 != t2
    ensures BackupFile(dir, db, t1) != BackupFile(dir, db, t2)
  {
    var p := dir + "/" + DbName(db) + "_backup_";
    var e := Extension(db);
    assert BackupFile(dir, db, t1) == p + t1 + e;
    assert BackupFile(dir, db, t2) == p + t2 + e;
    if |t1| == |t2| {
      assert (p + t1 + e)[|p|..|p| + |t1|] == t1;
      assert (p + t2 + e)[|p|..|p| + |t2|] == t2;
    }
  }

  /** The three databases produce differently named files. */
  lemma BackupKindsDistinct(dir: string, ts: string, a: Database, b: Database)
    requires a != b
    ensures BackupFile(dir, a, ts) != BackupFile(dir, b, ts)
  {
  }

  datatype Deployment = Deployment(service: string, version: string, strategy: string, status: string)

  predicate RollbackTarget(d: Deployment, service: string, current: string) {
    d.service == service && d.status == "success" && d.version != current
  }

  /** The version `rollback(service, version)` redeploys: the most recent
      successful deployment of the service other than the current version. */
  function PreviousVersion(history: seq<Deployment>, service: string, current: string): (v: Option<string>)
    ensures v.None? <==> forall i :: 0 <= i < |history| ==> !RollbackTarget(history[i], service, current)
    ensures v.Some? ==> exists i :: 0 <= i < |history| && RollbackTarget(history[i], service, current)
                                    && history[i].version == v.value
                                    && forall j :: i < j < |history| ==> !RollbackTarget(history[j], service, current)
  {
    if |history| == 0 then None
    else
      var last := history[|history| - 1];
      if RollbackTarget(last, service, current) then Some(last.version)
      else
        var v := PreviousVersion(history[..|history| - 1], service, current);
        assert forall i :: 0 <= i < |history| - 1 ==> history[..|history| - 1][i] == history[i];
        v
  }

  /** `rollback`: succeeds (redeploying the target and recording a
      deployment) exactly when there is a previous successful version. */
  function Rollback(history: seq<Deployment>, service: string, current: string): (r: Result<seq<Deployment>>)
    ensures r.Ok? <==> PreviousVersion(history, service, current).Some?
    ensures r.Ok? ==> |r.value| == |history| + 1 && r.value[..|history|] == history
                      && r.value[|history|].service == service
                      && r.value[|history|].version == PreviousVersion(history, service, current).value
                      && r.value[|history|].status == "success"
  {
    var target := PreviousVersion(history, service, current);
    if target.None? then Err("No previous version found")
    else Ok(history + [Deployment(service, target.value, "rollback", "success")])
  }

  /** The rollback scenario: v1.0 succeeded, v2.0 failed; rolling back
      v2.0 redeploys v1.0. */
  lemma RollbackScenario()
    ensures var h := [Deployment("test-service", "v1.0", "rolling", "success"),
                      Deployment("test-service", "v2.0", "rolling", "failed")];
            Rollback(h, "test-service", "v2.0").Ok?
            && PreviousVersion(h, "test-service", "v2.0") == Some("v1.0")
  {
    var h := [Deployment("test-service", "v1.0", "rolling", "success"),
              Deployment("test-service", "v2.0", "rolling", "failed")];
    assert !RollbackTarget(h[1], "test-service", "v2.0");
    assert h[..1] == [h[0]];
  }

  /** After a rollback, rolling back again from the restored version finds
      a target only in the older history, never the restored version itself. */
  lemma RollbackNeverTargetsCurrent(history: seq<Deployment>, service: string, current: string)
    ensures PreviousVersion(history, service, current).Some? ==>
              PreviousVersion(history, service, current).value != current
  {
  }
}

=== FILE: ingestion.dfy ===
/** The file processor of the content ingestion agent: upload validation,
    LaTeX equation extraction and conversion, and table summaries. Text
    extraction from PDF, DOCX and PPTX files is not modelled; the file
    system facts arrive as a `FileInfo`. */
module FileProcessor {
  import opened Wrappers
  import Text

  datatype FileInfo = FileInfo(exists_: bool, sizeBytes: nat, extension: string)

  const MegaByte: nat := 1024 * 1024

  /** `validate_file(path)`: a missing file, then an oversized one, then an
      unsupported extension (compared lower-cased, without the dot) are
      rejected, in that order. */
  function ValidateFile(f: FileInfo, supported: seq<string>, maxFileSizeMb: nat): (r: Result<bool>)
    ensures r.Ok? <==> f.exists_ && f.sizeBytes <= maxFileSizeMb * MegaByte && Text.Lower(f.extension) in supported
    ensures r.Ok? ==> r.value
    ensures !f.exists_ ==> r == Err("File not found")
    ensures f.exists_ && f.sizeBytes > maxFileSizeMb * MegaByte ==> r == Err("File too large")
    ensures f.exists_ && f.sizeBytes <= maxFileSizeMb * MegaByte && Text.Lower(f.extension) !in supported ==>
              r == Err("Unsupported format")
  {
    if !f.exists_ then Err("File not found")
    else if f.sizeBytes > maxFileSizeMb * MegaByte then Err("File too large")
    else if Text.Lower(f.extension) !in supported then Err("Unsupported format")
    else Ok(true)
  }

  /** A 60 MB PDF is too large under the 50 MB limit; an `.xyz` file is not
      a supported format. */
  lemma ValidationScenarios()
    ensures ValidateFile(FileInfo(true, 60 * MegaByte, "pdf"), ["pdf", "docx", "pptx"], 50) == Err("File too large")
    ensures ValidateFile(FileInfo(false, 0, "pdf"), ["pdf", "docx", "pptx"], 50) == Err("File not found")
  {
  }

  /** First `$` at or after `from`. */
  function DollarFrom(s: string, from: nat): (r: Option<nat>)
    ensures r.Some? ==> from <= r.value < |s| && s[r.value] == '$'
    ensures r.Some? ==> forall j :: from <= j < r.value ==> s[j] != '$'
    ensures r.None? ==> forall j :: from <= j < |s| ==> s[j] != '$'
    decreases |s| - from
  {
    if from >= |s| then None
    else if s[from] == '$' then Some(from)
    else DollarFrom(s, from + 1)
  }

  predicate PairAt(s: string, j: int) {
    0 <= j && j + 1 < |s| && s[j] == '$' && s[j + 1] == '$'
  }

  /** First `$$` at or after `from`. */
  function PairFrom(s: string, from: nat): (r: Option<nat>)
    ensures r.Some? ==> from <= r.value && PairAt(s, r.value)
    ensures r.Some? ==> forall j :: from <= j < r.value ==> !PairAt(s, j)
    ensures r.None? ==> forall j :: from <= j ==> !PairAt(s, j)
    decreases |s| - from
  {
    if from + 1 >= |s| then None
    else if PairAt(s, from) then Some(from)
    else PairFrom(s, from + 1)
  }

  datatype Equation = Equation(latex: string, display: bool)

  /** How the equation is written in the text. */
  function Delimited(e: Equation): string {
    if e.display then "$$" + e.latex + "$$" else "$" + e.latex + "$"
  }

  /** The next equation at or after `from`, and where scanning resumes:
      `$$` opens a display equation closed by the next `$$`, a single `$`
      an inline one closed by the next `$`. */
  function NextEquation(text: string, from: nat): (r: Option<(Equation, nat)>)
    ensures r.Some? ==> from < r.value.1 <= |text|
  {
    var open := DollarFrom(text, from);
    if open.None? then None
    else if PairAt(text, open.value) then
      var close := PairFrom(text, open.value + 2);
      if close.None? then None
      else Some((Equation(text[open.value + 2..close.value], true), close.value + 2))
    else
      var close := DollarFrom(text, open.value + 1);
      if close.None? then None
      else Some((Equation(text[open.value + 1..close.value], false), close.value + 1))
  }

  /** `_extract_equations(text)`: every equation in scanning order; an
      unclosed delimiter ends the scan. */
  function Equations(text: string, from: nat): seq<Equation>
    requires from <= |text|
    decreases |text| - from
  {
    var next := NextEquation(text, from);
    if next.None? then [] else [next.value.0] + Equations(text, next.value.1)
  }

  /** An equation found spans at least its two delimiters. */
  lemma NextAdvances(text: string, from: nat)
    requires NextEquation(text, from).Some?
    ensures from + 2 <= NextEquation(text, from).value.1
  {
  }

  /** Each equation takes at least its two delimiters, so a scan yields at
      most one equation per two characters. */
  lemma {:induction false} EquationsBounded(text: string, from: nat)
    requires from <= |text|
    ensures 2 * |Equations(text, from)| <= |text| - from
    decreases |text| - from
  {
    var next := NextEquation(text, from);
    if next.Some? {
      NextAdvances(text, from);
      EquationsBounded(text, next.value.1);
    }
  }

  /** `e` is written, with its delimiters, in `text`, and an inline
      equation holds no `$`. */
  predicate Found(text: string, e: Equation) {
    Text.Contains(text, Delimited(e)) && (!e.display ==> '$' !in e.latex)
  }

  /** A `$$`-delimited span from `open` to `close` is found in the text. */
  lemma DisplayFound(text: string, open: nat, close: nat)
    requires open + 2 <= close && PairAt(text, open) && PairAt(text, close)
    ensures Found(text, Equation(text[open + 2..close], true))
  {
    var latex := text[open + 2..close];
    assert text[open..open + 2] == "$$";
    assert text[close..close + 2] == "$$";
    assert text[open..close + 2] == text[open..open + 2] + latex + text[close..close + 2];
    assert Text.OccursAt("$$" + latex + "$$", text, open);
  }

  /** A `$`-delimited span from `open` to `close`, with no `$` inside, is
      found in the text. */
  lemma InlineFound(text: string, open: nat, close: nat)
    requires open < close < |text| && text[open] == '$' && text[close] == '$'
    requires forall j :: open < j < close ==> text[j] != '$'
    ensures Found(text, Equation(text[open + 1..close], false))
  {
    var latex := text[open + 1..close];
    assert text[open..close + 1] == [text[open]] + latex + [text[close]];
    assert Text.OccursAt("$" + latex + "$", text, open);
    forall k | 0 <= k < |latex| ensures latex[k] != '$' {
      assert latex[k] == text[open + 1 + k];
    }
  }

  /** The scan step from `from` opens a display equation at `o`, closed at `c`. */
  lemma DisplayStep(text: string, from: nat, o: nat, c: nat)
    requires DollarFrom(text, from) == Some(o) && PairAt(text, o)
    requires PairFrom(text, o + 2) == Some(c)
    ensures NextEquation(text, from) == Some((Equation(text[o + 2..c], true), c + 2))
  {
  }

  /** The scan step from `from` opens an inline equation at `o`, closed at `c`. */
  lemma InlineStep(text: string, from: nat, o: nat, c: nat)
    requires DollarFrom(text, from) == Some(o) && !PairAt(text, o)
    requires DollarFrom(text, o + 1) == Some(c)
    ensures NextEquation(text, from) == Some((Equation(text[o + 1..c], false), c + 1))
  {
  }

  /** The equation found next is written in the text. */
  lemma NextIsFound(text: string, from: nat)
    requires NextEquation(text, from).Some?
    ensures Found(text, NextEquation(text, from).value.0)
  {
    var o := DollarFrom(text, from).value;
    if PairAt(text, o) {
      var c := PairFrom(text, o + 2).value;
      DisplayStep(text, from, o, c);
      DisplayFound(text, o, c);
    } else {
      var c := DollarFrom(text, o + 1).value;
      InlineStep(text, from, o, c);
      InlineFound(text, o, c);
    }
  }

  /** Every extracted equation is written, with its delimiters, in the
      text; an inline one contains no `$`. */
  lemma {:induction false} EquationsAreDelimited(text: string, from: nat)
    requires from <= |text|
    ensures forall e :: e in Equations(text, from) ==> Found(text, e)
    decreases |text| - from
  {
    var next := NextEquation(text, from);
    if next.Some? {
      NextIsFound(text, from);
      EquationsAreDelimited(text, next.value.1);
      FoundCons(text, next.value.0, Equations(text, next.value.1));
    }
  }

  lemma FoundCons(text: string, e: Equation, rest: seq<Equation>)
    requires Found(text, e) && forall x :: x in rest ==> Found(text, x)
    ensures forall x :: x in [e] + rest ==> Found(text, x)
  {
  }

  /** One step of the scan: the next equation, then the rest from where
      it ends. */
  lemma StepTo(text: string, from: nat, e: Equation, next: nat)
    requires from <= |text| && NextEquation(text, from) == Some((e, next))
    ensures Equations(text, from) == [e] + Equations(text, next)
  {
  }

  /** No `$` at the positions of `t` from `lo` up to `hi`. */
  predicate NoDollar(t: string, lo: int, hi: int) {
    forall j | lo <= j < hi && 0 <= j < |t| :: t[j] != '$'
  }

  /** Finding the next `$$` after a `$`-free stretch. */
  lemma {:induction false} PairFromFinds(t: string, from: nat, c: nat)
    requires from <= c && PairAt(t, c)
    requires NoDollar(t, from, c)
    ensures PairFrom(t, from) == Some(c)
    decreases c - from
  {
    if from < c {
      PairFromFinds(t, from + 1, c);
    }
  }

  /** The scan at `from` meets an inline equation between `$`s at `o`
      and `c`. */
  lemma InlineAt(t: string, from: nat, o: nat, c: nat)
    requires from <= o && o + 1 < c < |t|
    requires NoDollar(t, from, o)
    requires NoDollar(t, o + 1, c)
    requires t[o] == '$' && t[c] == '$'
    ensures Equations(t, from) == [Equation(t[o + 1..c], false)] + Equations(t, c + 1)
  {
    InlineNext(t, from, o, c);
    StepTo(t, from, Equation(t[o + 1..c], false), c + 1);
  }

  lemma InlineNext(t: string, from: nat, o: nat, c: nat)
    requires from <= o && o + 1 < c < |t|
    requires NoDollar(t, from, o)
    requires NoDollar(t, o + 1, c)
    requires t[o] == '$' && t[c] == '$'
    ensures NextEquation(t, from) == Some((Equation(t[o + 1..c], false), c + 1))
  {
    assert DollarFrom(t, from) == Some(o);
    assert !PairAt(t, o);
    assert DollarFrom(t, o + 1) == Some(c);
  }

  /** The scan at `from` meets a display equation between `$$`s at `o`
      and `c`. */
  lemma DisplayAt(t: string, from: nat, o: nat, c: nat)
    requires from <= o && o + 2 <= c && c + 1 < |t|
    requires NoDollar(t, from, o)
    requires NoDollar(t, o + 2, c)
    requires t[o] == '$' && t[o + 1] == '$' && t[c] == '$' && t[c + 1] == '$'
    ensures Equations(t, from) == [Equation(t[o + 2..c], true)] + Equations(t, c + 2)
  {
    DisplayNext(t, from, o, c);
    StepTo(t, from, Equation(t[o + 2..c], true), c + 2);
  }

  lemma DisplayNext(t: string, from: nat, o: nat, c: nat)
    requires from <= o && o + 2 <= c && c + 1 < |t|
    requires NoDollar(t, from, o)
    requires NoDollar(t, o + 2, c)
    requires t[o] == '$' && t[o + 1] == '$' && t[c] == '$' && t[c + 1] == '$'
    ensures NextEquation(t, from) == Some((Equation(t[o + 2..c], true), c + 2))
  {
    assert DollarFrom(t, from) == Some(o);
    assert PairAt(t, o);
    PairFromFinds(t, o + 2, c);
  }

  /** A text laid out like "The formula is $E = mc^2$ and
      $$\\frac{a}{b} = c$$" (an inline equation, then a display equation,
      then no further `$`) yields both equations, in order. */
  lemma ScanTwo(t: string, o1: nat, c1: nat, o2: nat, c2: nat)
    requires o1 + 1 < c1 < o2 && o2 + 2 <= c2 && c2 + 1 < |t|
    requires NoDollar(t, 0, o1)
    requires NoDollar(t, o1 + 1, c1)
    requires NoDollar(t, c1 + 1, o2)
    requires NoDollar(t, o2 + 2, c2)
    requires NoDollar(t, c2 + 2, |t|)
    requires t[o1] == '$' && t[c1] == '$' && t[o2] == '$' && t[o2 + 1] == '$' && t[c2] == '$' && t[c2 + 1] == '$'
    ensures Equations(t, 0) == [Equation(t[o1 + 1..c1], false), Equation(t[o2 + 2..c2], true)]
  {
    ScanFirst(t, o1, c1, o2, c2);
    ScanSecond(t, o1, c1, o2, c2);
  }

  lemma ScanFirst(t: string, o1: nat, c1: nat, o2: nat, c2: nat)
    requires o1 + 1 < c1 < o2 && o2 + 2 <= c2 && c2 + 1 < |t|
    requires NoDollar(t, 0, o1)
    requires NoDollar(t, o1 + 1, c1)
    requires NoDollar(t, c1 + 1, o2)
    requires NoDollar(t, o2 + 2, c2)
    requires NoDollar(t, c2 + 2, |t|)
    requires t[o1] == '$' && t[c1] == '$' && t[o2] == '$' && t[o2 + 1] == '$' && t[c2] == '$' && t[c2 + 1] == '$'
    ensures Equations(t, 0) == [Equation(t[o1 + 1..c1], false)] + Equations(t, c1 + 1)
  {
    InlineAt(t, 0, o1, c1);
  }

  lemma ScanSecond(t: string, o1: nat, c1: nat, o2: nat, c2: nat)
    requires o1 + 1 < c1 < o2 && o2 + 2 <= c2 && c2 + 1 < |t|
    requires NoDollar(t, 0, o1)
    requires NoDollar(t, o1 + 1, c1)
    requires NoDollar(t, c1 + 1, o2)
    requires NoDollar(t, o2 + 2, c2)
    requires NoDollar(t, c2 + 2, |t|)
    requires t[o1] == '$' && t[c1] == '$' && t[o2] == '$' && t[o2 + 1] == '$' && t[c2] == '$' && t[c2 + 1] == '$'
    ensures Equations(t, c1 + 1) == [Equation(t[o2 + 2..c2], true)]
  {
    LastDisplay(t, c1 + 1, o2, c2);
  }

  /** A display equation with no `$` after it is the last one found. */
  lemma LastDisplay(t: string, from: nat, o: nat, c: nat)
    requires from <= o && o + 2 <= c && c + 1 < |t|
    requires NoDollar(t, from, o)
    requires NoDollar(t, o + 2, c)
    requires NoDollar(t, c + 2, |t|)
    requires t[o] == '$' && t[o + 1] == '$' && t[c] == '$' && t[c + 1] == '$'
    ensures Equations(t, from) == [Equation(t[o + 2..c], true)]
  {
    DisplayAt(t, from, o, c);
    NoDollarLeft(t, c + 2);
  }

  /** No `$` from `from` on: the scan ends. */
  lemma NoDollarLeft(t: string, from: nat)
    requires from <= |t|
    requires NoDollar(t, from, |t|)
    ensures Equations(t, from) == []
  {
    assert DollarFrom(t, from).None?;
  }

  /** First index of `ch` in `s`. */
  function IndexOfChar(s: string, ch: char): (r: Option<nat>)
    ensures r.Some? ==> r.value < |s| && s[r.value] == ch && ch !in s[..r.value]
    ensures r.None? <==> ch !in s
  {
    if |s| == 0 then None
    else if s[0] == ch then Some(0)
    else
      var r := IndexOfChar(s[1..], ch);
      if r.None? then None
      else
        assert s[..r.value + 1] == [s[0]] + s[1..][..r.value];
        Some(r.value + 1)
  }

  /** The first `ch` of `s` is at `k`. */
  lemma IndexOfCharAt(s: string, ch: char, k: nat)
    requires k < |s| && s[k] == ch && ch !in s[..k]
    ensures IndexOfChar(s, ch) == Some(k)
  {
  }

  const Frac: string := "\\frac{"

  /** `convert_latex(latex)`: every `\frac{a}{b}` becomes `(a)/(b)`; any
      other text is copied. */
  function ConvertLatex(s: string): (r: string)
    ensures '\\' !in s ==> r == s
    decreases |s|
  {
    if |s| == 0 then ""
    else if Text.IsPrefix(Frac, s) then
      assert s[0] == Frac[0];
      var rest := s[|Frac|..];
      var k := IndexOfChar(rest, '}');
      if k.Some? && k.value + 1 < |rest| && rest[k.value + 1] == '{' then
        var den := rest[k.value + 2..];
        var m := IndexOfChar(den, '}');
        if m.Some? then
          "(" + rest[..k.value] + ")/(" + den[..m.value] + ")" + ConvertLatex(den[m.value + 1..])
        else [s[0]] + ConvertLatex(s[1..])
      else [s[0]] + ConvertLatex(s[1..])
    else
      assert '\\' !in s ==> '\\' !in s[1..] by {
        if '\\' !in s { assert forall c :: c in s[1..] ==> c in s; }
      }
      [s[0]] + ConvertLatex(s[1..])
  }

  /** A fraction whose numerator and denominator are plain text becomes a
      parenthesised division. */
  lemma FracBecomesDivision(a: string, b: string, tail: string)
    requires '}' !in a && '}' !in b && '\\' !in tail
    ensures ConvertLatex(Frac + ((a + "}{") + ((b + "}") + tail))) == "(" + a + ")/(" + b + ")" + tail
  {
    var den := (b + "}") + tail;
    var rest := (a + "}{") + den;
    var s := Frac + rest;
    assert s[..|Frac|] == Frac;
    assert s[|Frac|..] == rest;
    assert rest[..|a|] == a && rest[|a|] == '}' && rest[|a| + 1] == '{';
    IndexOfCharAt(rest, '}', |a|);
    assert rest[|a| + 2..] == den;
    assert den[..|b|] == b && den[|b|] == '}';
    IndexOfCharAt(den, '}', |b|);
    assert den[|b| + 1..] == tail;
  }

  datatype Table = Table(headers: seq<string>, rows: seq<seq<string>>, rowCount: nat, columnCount: nat)

  /** `process_tables(tables)`: the first row is the header, the rest are
      data rows; an empty table has no header and no rows. */
  function ProcessTables(tables: seq<seq<seq<string>>>): (ts: seq<Table>)
    ensures |ts| == |tables|
    ensures forall i :: 0 <= i < |tables| && |tables[i]| > 0 ==>
              && ts[i].headers == tables[i][0]
              && ts[i].rows == tables[i][1..]
              && ts[i].rowCount == |tables[i]| - 1
              && ts[i].columnCount == |tables[i][0]|
    ensures forall i :: 0 <= i < |tables| && |tables[i]| == 0 ==>
              ts[i] == Table([], [], 0, 0)
  {
    seq(|tables|, i requires 0 <= i < |tables| =>
      if |tables[i]| == 0 then Table([], [], 0, 0)
      else Table(tables[i][0], tables[i][1..], |tables[i]| - 1, |tables[i][0]|))
  }

  /** The summary loses nothing: header row followed by data rows is the
      original table. */
  lemma TableRoundTrip(tables: seq<seq<seq<string>>>, i: nat)
    requires i < |tables|
    ensures var t := ProcessTables(tables)[i];
            (if |tables[i]| == 0 then [] else [t.headers] + t.rows) == tables[i]
  {
    if |tables[i]| > 0 {
      assert [tables[i][0]] + tables[i][1..] == tables[i];
    }
  }
}

/** Concept handling of the model manager and the knowledge graph client:
    Bloom's level estimation, concept identifiers and relationship type
    mapping. */
module ConceptMapping {
  import Text

  datatype BloomsLevel = Remember | Understand | Apply | Analyze | Evaluate | Create

  /** The verb lists, lowest level first. */
  const Verbs: seq<(BloomsLevel, seq<string>)> := [
    (Remember, ["define", "list", "recall", "identify", "name", "state"]),
    (Understand, ["explain", "describe", "summarize", "interpret", "classify"]),
    (Apply, ["apply", "use", "solve", "calculate", "demonstrate"]),
    (Analyze, ["analyze", "compare", "contrast", "examine", "differentiate"]),
    (Evaluate, ["evaluate", "judge", "justify", "assess", "critique"]),
    (Create, ["create", "design", "develop", "construct", "compose"])]

  predicate Mentions(text: string, verbs: seq<string>) {
    exists v :: v in verbs && Text.Contains(Text.Lower(text), v)
  }

  /** Index of the first level whose verbs the text mentions. */
  function FirstMatch(text: string, table: seq<(BloomsLevel, seq<string>)>): (k: nat)
    ensures k <= |table|
    ensures k < |table| ==> Mentions(text, table[k].1)
    ensures forall j :: 0 <= j < k ==> !Mentions(text, table[j].1)
  {
    if |table| == 0 then 0
    else if Mentions(text, table[0].1) then 0
    else 1 + FirstMatch(text, table[1..])
  }

  /** `_estimate_blooms_level(text)`: the lowest level one of whose verbs
      occurs in the lower-cased text; `understand` when none does. */
  function EstimateBloomsLevel(text: string): (l: BloomsLevel)
    ensures (forall j :: 0 <= j < |Verbs| ==> !Mentions(text, Verbs[j].1)) ==> l == Understand
    ensures (exists j :: 0 <= j < |Verbs| && Mentions(text, Verbs[j].1)) ==>
              exists k :: 0 <= k < |Verbs| && Verbs[k].0 == l && Mentions(text, Verbs[k].1)
                          && forall j :: 0 <= j < k ==> !Mentions(text, Verbs[j].1)
  {
    var k := FirstMatch(text, Verbs);
    if k < |Verbs| then Verbs[k].0 else Understand
  }

  /** "Define the term photosynthesis" is at the remember level. */
  lemma DefineIsRemember()
    ensures EstimateBloomsLevel("Define the term photosynthesis") == Remember
  {
    var t := "Define the term photosynthesis";
    assert Text.Lower(t)[..6] == "define";
    Text.PrefixIsContained("define", Text.Lower(t));
    assert Mentions(t, Verbs[0].1);
  }

  /** A text that opens with a creation verb and mentions no verb of a
      lower level is at the create level. */
  lemma DesignIsCreate(text: string)
    requires Text.IsPrefix("design", Text.Lower(text))
    requires forall j :: 0 <= j < 5 ==> !Mentions(text, Verbs[j].1)
    ensures EstimateBloomsLevel(text) == Create
  {
    Text.PrefixIsContained("design", Text.Lower(text));
    assert Mentions(text, Verbs[5].1);
  }

  /** MD5 digests in hexadecimal. */
  type Hex32 = s: string | |s| == 32 witness "00000000000000000000000000000000"

  /** `_generate_concept_id(text)`: the first 16 characters of the digest
      of the lower-cased text. */
  function ConceptId(text: string, digest: string -> Hex32): (id: string)
    ensures |id| == 16
    ensures Text.IsPrefix(id, digest(Text.Lower(text)))
  {
    digest(Text.Lower(text))[..16]
  }

  /** Identifiers ignore case: texts that differ only in letter case share
      one concept. */
  lemma ConceptIdIgnoresCase(a: string, b: string, digest: string -> Hex32)
    requires Text.Lower(a) == Text.Lower(b)
    ensures ConceptId(a, digest) == ConceptId(b, digest)
    ensures ConceptId(Text.Lower(a), digest) == ConceptId(a, digest)
  {
    Text.LowerIdempotent(a);
  }

  /** The "Algebra"/"algebra" case of the identifier test. */
  lemma AlgebraSameId(digest: string -> Hex32)
    ensures ConceptId("Algebra", digest) == ConceptId("algebra", digest)
  {
    assert Text.Lower("Algebra") == Text.Lower("algebra");
  }

  /** `_map_relationship_type(t)`: only a prerequisite keeps its own graph
      type; everything else is filed under BELONGS_TO. */
  function MapRelationshipType(t: string): (r: string)
    ensures r == "PREREQUISITE_OF" <==> t == "prerequisite_of"
    ensures r == "PREREQUISITE_OF" || r == "BELONGS_TO"
    ensures t == "prerequisite_of" ==> r == Text.Upper(t)
  {
    if t == "prerequisite_of" then "PREREQUISITE_OF" else "BELONGS_TO"
  }
}

/** Job bookkeeping of the ingestion agent. */
module IngestionJobs {
  import opened Wrappers

  datatype Status = Pending | Processing | Completed | Failed

  datatype Job = Job(status: Status, progress: real, message: string)

  /** `get_job_status(job_id)`. */
  function GetJobStatus(jobs: map<string, Job>, jobId: string): (r: Result<Job>)
    ensures r.Ok? <==> jobId in jobs
    ensures r.Ok? ==> r.value == jobs[jobId]
    ensures r.Err? ==> r.msg == "Job not found"
  {
    if jobId in jobs then Ok(jobs[jobId]) else Err("Job not found")
  }

  /** Recording a job's state makes it the status reported for that job
      and leaves every other job's report alone. */
  lemma RecordThenStatus(jobs: map<string, Job>, jobId: string, job: Job, other: string)
    requires other != jobId
    ensures GetJobStatus(jobs[jobId := job], jobId) == Ok(job)
    ensures GetJobStatus(jobs[jobId := job], other) == GetJobStatus(jobs, other)
  {
  }
}

=== FILE: invalidation.dfy ===
/** Event- and dependency-driven invalidation of the caching agent. Keys
    subscribe to events; a derived key registers the source key it was
    computed from, and invalidating a source invalidates everything derived
    from it, directly or transitively. */
module Invalidation {
  import opened Wrappers

  datatype Event = UserProfileUpdate | ContentModification

  datatype Manager = Manager(
    subscriptions: map<Event, seq<string>>,
    dependents: map<string, seq<string>>)

  function Init(): (m: Manager)
    ensures m.subscriptions == map[] && m.dependents == map[]
  {
    Manager(map[], map[])
  }

  function Subscribed(m: Manager, e: Event): seq<string> {
    if e in m.subscriptions then m.subscriptions[e] else []
  }

  function Children(deps: map<string, seq<string>>, k: string): seq<string> {
    if k in deps then deps[k] else []
  }

  /** `register_event_subscription(event, key)`. */
  function RegisterEventSubscription(m: Manager, e: Event, key: string): (r: Manager)
    ensures key in Subscribed(r, e)
    ensures forall k :: k in Subscribed(r, e) <==> k in Subscribed(m, e) || k == key
    ensures forall e' :: e' != e ==> Subscribed(r, e') == Subscribed(m, e')
    ensures r.dependents == m.dependents
  {
    var cur := Subscribed(m, e);
    m.(subscriptions := m.subscriptions[e := if key in cur then cur else cur + [key]])
  }

  /** `register_dependency(dependent, source)`. */
  function RegisterDependency(m: Manager, dependent: string, source: string): (r: Manager)
    ensures forall k :: k in Children(r.dependents, source) <==> k in Children(m.dependents, source) || k == dependent
    ensures forall s :: s != source ==> Children(r.dependents, s) == Children(m.dependents, s)
    ensures r.subscriptions == m.subscriptions
  {
    var cur := Children(m.dependents, source);
    m.(dependents := m.dependents[source := if dependent in cur then cur else cur + [dependent]])
  }

  /** Every key that appears as somebody's dependent. */
  function Universe(deps: map<string, seq<string>>): set<string> {
    set k, d | k in deps.Keys && d in deps[k] :: d
  }

  /** Worklist traversal of the dependency edges: `seen` is the set of keys
      already collected, `todo` the keys still to visit. */
  function Explore(deps: map<string, seq<string>>, todo: seq<string>, seen: set<string>): (r: set<string>)
    requires forall k :: k in todo ==> k in Universe(deps)
    ensures seen <= r
    ensures forall k :: k in todo ==> k in r
    ensures r <= seen + Universe(deps)
    decreases |Universe(deps) - seen|, |todo|
  {
    if |todo| == 0 then seen
    else
      var k := todo[0];
      if k in seen then Explore(deps, todo[1..], seen)
      else
        ShrinkingFrontier(Universe(deps), seen, k);
        var next := todo[1..] + Children(deps, k);
        assert forall x :: x in Children(deps, k) ==> x in Universe(deps);
        Explore(deps, next, seen + {k})
  }

  /** Visiting a new key of the universe leaves fewer keys unvisited. */
  lemma ShrinkingFrontier(u: set<string>, seen: set<string>, k: string)
    requires k in u && k !in seen
    ensures |u - (seen + {k})| < |u - seen|
  {
    assert u - seen == (u - (seen + {k})) + {k};
  }

  /** The transitive dependents of `source`, excluding `source` itself
      unless it depends on itself through a cycle. */
  function Dependents(deps: map<string, seq<string>>, source: string): (r: set<string>)
    ensures forall k :: k in Children(deps, source) ==> k in r
  {
    assert forall x :: x in Children(deps, source) ==> x in Universe(deps);
    Explore(deps, Children(deps, source), {})
  }

  /** A key set closed under "is a dependent of". */
  ghost predicate Closed(deps: map<string, seq<string>>, s: set<string>) {
    forall k, d :: k in s && d in Children(deps, k) ==> d in s
  }

  lemma {:induction false} ExploreClosed(deps: map<string, seq<string>>, todo: seq<string>, seen: set<string>)
    requires forall k :: k in todo ==> k in Universe(deps)
    requires forall k, d :: k in seen && d in Children(deps, k) ==> d in seen || d in todo
    ensures Closed(deps, Explore(deps, todo, seen))
    decreases |Universe(deps) - seen|, |todo|
  {
    if |todo| > 0 {
      var k := todo[0];
      if k in seen {
        ExploreClosed(deps, todo[1..], seen);
      } else {
        ShrinkingFrontier(Universe(deps), seen, k);
        assert forall x :: x in Children(deps, k) ==> x in Universe(deps);
        ExploreClosed(deps, todo[1..] + Children(deps, k), seen + {k});
      }
    }
  }

  lemma {:induction false} ExploreLeast(deps: map<string, seq<string>>, todo: seq<string>, seen: set<string>, s: set<string>)
    requires forall k :: k in todo ==> k in Universe(deps)
    requires seen <= s && (forall k :: k in todo ==> k in s) && Closed(deps, s)
    ensures Explore(deps, todo, seen) <= s
    decreases |Universe(deps) - seen|, |todo|
  {
    if |todo| > 0 {
      var k := todo[0];
      if k in seen {
        ExploreLeast(deps, todo[1..], seen, s);
      } else {
        ShrinkingFrontier(Universe(deps), seen, k);
        assert forall x :: x in Children(deps, k) ==> x in Universe(deps);
        ExploreLeast(deps, todo[1..] + Children(deps, k), seen + {k}, s);
      }
    }
  }

  /** The invalidation set of a source is exactly the least key set that
      holds its direct dependents and is closed under dependency: every
      transitively derived key is in it, and nothing else is. */
  lemma DependentsIsLeastClosure(deps: map<string, seq<string>>, source: string, s: set<string>)
    ensures Closed(deps, Dependents(deps, source))
    ensures (forall k :: k in Children(deps, source) ==> k in s) && Closed(deps, s) ==> Dependents(deps, source) <= s
  {
    assert forall x :: x in Children(deps, source) ==> x in Universe(deps);
    ExploreClosed(deps, Children(deps, source), {});
    if (forall k :: k in Children(deps, source) ==> k in s) && Closed(deps, s) {
      ExploreLeast(deps, Children(deps, source), {}, s);
    }
  }

  /** `get_keys_to_invalidate(event=…, dependency=…)`: the keys subscribed
      to the event together with the transitive dependents of the source
      key; either argument may be absent. */
  function KeysToInvalidate(m: Manager, event: Option<Event>, dependency: Option<string>): (r: set<string>)
    ensures event.Some? ==> forall k :: k in Subscribed(m, event.value) ==> k in r
    ensures dependency.Some? ==> Dependents(m.dependents, dependency.value) <= r
    ensures forall k :: k in r ==>
              (event.Some? && k in Subscribed(m, event.value))
              || (dependency.Some? && k in Dependents(m.dependents, dependency.value))
  {
    var fromEvent := if event.Some? then set k | k in Subscribed(m, event.value) else {};
    var fromDeps := if dependency.Some? then Dependents(m.dependents, dependency.value) else {};
    fromEvent + fromDeps
  }

  /** Registering key2 under key1 and key3 under key2 makes invalidating
      key1 reach both. */
  lemma ChainIsTransitive(k1: string, k2: string, k3: string)
    requires k1 != k2
    ensures var m := RegisterDependency(RegisterDependency(Init(), k2, k1), k3, k2);
            var r := KeysToInvalidate(m, None, Some(k1));
            k2 in r && k3 in r
  {
    var m := RegisterDependency(RegisterDependency(Init(), k2, k1), k3, k2);
    var d := Dependents(m.dependents, k1);
    DependentsIsLeastClosure(m.dependents, k1, {});
    assert k2 in Children(m.dependents, k1);
    assert k3 in Children(m.dependents, k2);
  }
}

=== FILE: json.dfy ===
/** JSON-like values as the agents exchange them (Python dicts, lists and
    scalars). An object keeps its fields in insertion order, as a Python
    dict does. */
module Json {
  import opened Wrappers

  datatype Value =
    | Null
    | Bool(b: bool)
    | Num(n: int)
    | Str(s: string)
    | Arr(items: seq<Value>)
    | Obj(fields: seq<(string, Value)>)

  function FieldNames(fields: seq<(string, Value)>): (ns: seq<string>)
    ensures |ns| == |fields|
    ensures forall i :: 0 <= i < |fields| ==> ns[i] == fields[i].0
  {
    seq(|fields|, i requires 0 <= i < |fields| => fields[i].0)
  }

  /** The value of the first field called `key`, as a dict lookup gives. */
  function Get(fields: seq<(string, Value)>, key: string): (r: Option<Value>)
    ensures r.None? <==> key !in FieldNames(fields)
    ensures r.Some? ==> exists i :: 0 <= i < |fields| && fields[i] == (key, r.value)
  {
    if |fields| == 0 then None
    else if fields[0].0 == key then Some(fields[0].1)
    else
      var r := Get(fields[1..], key);
      assert FieldNames(fields) == [fields[0].0] + FieldNames(fields[1..]);
      assert r.Some? ==> exists i :: 0 <= i < |fields| && fields[i] == (key, r.value) by {
        if r.Some? {
          var i :| 0 <= i < |fields[1..]| && fields[1..][i] == (key, r.value);
          assert fields[i + 1] == (key, r.value);
        }
      }
      r
  }

  /** `data.get(key, False)` read as a boolean flag. */
  function Flag(fields: seq<(string, Value)>, key: string): bool {
    Get(fields, key) == Some(Bool(true))
  }

  /** `data.get(key)` read as a string. */
  function StrField(fields: seq<(string, Value)>, key: string): Option<string> {
    match Get(fields, key)
    case Some(Str(s)) => Some(s)
    case _ => None
  }
}

=== FILE: knowledge_graph.dfy ===
/** Request validation and the in-memory view of the knowledge graph
    agent: `NodeRequest` and `QueryRequest` validators, the node-label
    check of `create_node`, and the neighbourhood `get_concept_graph`
    returns. Neo4j is replaced by a map of nodes and a list of edges. */
module KnowledgeGraph {
  import opened Wrappers
  import opened Text
  import J = Json

  datatype NodeType = Concept | User | Content | Quiz | LearningPath

  function NodeTypeName(t: NodeType): string {
    match t
    case Concept => "Concept"
    case User => "User"
    case Content => "Content"
    case Quiz => "Quiz"
    case LearningPath => "LearningPath"
  }

  /** The `node_types` of the agent's configuration. */
  const ConfiguredNodeTypes: seq<string> := ["Concept", "User", "Content", "Quiz", "LearningPath"]

  type Properties = map<string, J.Value>

  datatype NodeRequest = NodeRequest(nodeLabel: NodeType, properties: Properties)

  const EmptyProperties: string := "Properties cannot be empty"
  const MissingId: string := "Properties must include 'id' field"

  /** `NodeRequest(label, properties)`: empty properties are refused
      first, then properties without an `id`. */
  function ValidateNodeRequest(nodeLabel: NodeType, properties: Properties): (r: Result<NodeRequest>)
    ensures |properties| == 0 ==> r == Err(EmptyProperties)
    ensures |properties| > 0 && "id" !in properties ==> r == Err(MissingId)
    ensures r.Ok? <==> "id" in properties
    ensures r.Ok? ==> r.value.nodeLabel == nodeLabel && r.value.properties == properties
  {
    if |properties| == 0 then Err(EmptyProperties)
    else if "id" !in properties then Err(MissingId)
    else Ok(NodeRequest(nodeLabel, properties))
  }

  datatype QueryRequest = QueryRequest(cypher: string, parameters: Properties)

  const EmptyCypher: string := "Cypher query cannot be empty"
  const DangerousMessage: string := "Query contains dangerous query pattern"

  /** Some dangerous pattern occurs in the upper-cased query. */
  predicate Dangerous(cypher: string, patterns: seq<string>) {
    exists k :: 0 <= k < |patterns| && Contains(Upper(cypher), patterns[k])
  }

  /** `QueryRequest(cypher, parameters)`: a blank query is refused, then
      one containing a pattern from the configured deny list. */
  function ValidateQueryRequest(cypher: string, parameters: Properties, patterns: seq<string>): (r: Result<QueryRequest>)
    ensures IsBlank(cypher) ==> r == Err(EmptyCypher)
    ensures !IsBlank(cypher) && Dangerous(cypher, patterns) ==> r == Err(DangerousMessage)
    ensures r.Ok? <==> !IsBlank(cypher) && !Dangerous(cypher, patterns)
    ensures r.Ok? ==> r.value == QueryRequest(cypher, parameters)
  {
    if IsBlank(cypher) then Err(EmptyCypher)
    else if Dangerous(cypher, patterns) then Err(DangerousMessage)
    else Ok(QueryRequest(cypher, parameters))
  }

  /** The whitespace query is refused as empty, and a query ending in
      DELETE ALL is refused when that pattern is on the deny list. */
  lemma QueryScenarios(patterns: seq<string>, parameters: Properties)
    requires "DELETE ALL" in patterns
    ensures ValidateQueryRequest("   ", parameters, patterns) == Err(EmptyCypher)
    ensures ValidateQueryRequest("MATCH (n) DELETE ALL", parameters, patterns) == Err(DangerousMessage)
  {
    var q := "MATCH (n) DELETE ALL";
    assert !IsSpace(q[0]);
    assert Upper(q)[10..20] == "DELETE ALL";
    assert OccursAt("DELETE ALL", Upper(q), 10);
    var k :| 0 <= k < |patterns| && patterns[k] == "DELETE ALL";
    assert Contains(Upper(q), patterns[k]);
  }

  datatype Node = Node(nodeLabel: string, properties: Properties)

  datatype Edge = Edge(relId: nat, fromId: J.Value, toId: J.Value, relType: string, properties: Properties)

  /** The stored graph; nodes are keyed by their `id` property. */
  datatype Graph = Graph(nodes: map<J.Value, Node>, edges: seq<Edge>)

  /** `create_node(label, properties)`: refuses a label outside the
      configured node types, then validates the properties as
      `NodeRequest` does; stores the node and returns its id. */
  function CreateNode(g: Graph, nodeTypes: seq<string>, nodeLabel: string, properties: Properties): (r: Result<(J.Value, Graph)>)
    ensures nodeLabel !in nodeTypes ==> r == Err("Invalid node label: " + nodeLabel)
    ensures r.Ok? <==> nodeLabel in nodeTypes && "id" in properties
    ensures r.Ok? ==> r.value.0 == properties["id"]
    ensures r.Ok? ==> r.value.1.nodes == g.nodes[properties["id"] := Node(nodeLabel, properties)]
    ensures r.Ok? ==> r.value.1.edges == g.edges
  {
    if nodeLabel !in nodeTypes then Err("Invalid node label: " + nodeLabel)
    else if |properties| == 0 then Err(EmptyProperties)
    else if "id" !in properties then Err(MissingId)
    else
      var id := properties["id"];
      Ok((id, Graph(g.nodes[id := Node(nodeLabel, properties)], g.edges)))
  }

  /** Every configured node type is accepted as a label; "InvalidLabel" is not. */
  lemma LabelCheck(g: Graph, t: NodeType, properties: Properties)
    requires "id" in properties
    ensures CreateNode(g, ConfiguredNodeTypes, NodeTypeName(t), properties).Ok?
    ensures CreateNode(g, ConfiguredNodeTypes, "InvalidLabel", properties).Err?
  {
  }

  /** Ids one relationship away from some id of `s`, in either direction. */
  function Neighbours(edges: seq<Edge>, s: set<J.Value>): set<J.Value> {
    (set e | e in edges && e.fromId in s :: e.toId) + (set e | e in edges && e.toId in s :: e.fromId)
  }

  /** Ids at most `depth` relationships away from `center`. */
  function Within(edges: seq<Edge>, center: J.Value, depth: nat): set<J.Value> {
    if depth == 0 then {center}
    else
      var inner := Within(edges, center, depth - 1);
      inner + Neighbours(edges, inner)
  }

  /** One relationship joins `a` and `b`, in either direction. */
  predicate Adjacent(edges: seq<Edge>, a: J.Value, b: J.Value) {
    exists e :: e in edges && ((e.fromId == a && e.toId == b) || (e.fromId == b && e.toId == a))
  }

  /** A walk from `center` to `target` along relationships. */
  predicate Walk(edges: seq<Edge>, w: seq<J.Value>, center: J.Value, target: J.Value) {
    && |w| > 0 && w[0] == center && w[|w| - 1] == target
    && forall i :: 0 <= i < |w| - 1 ==> Adjacent(edges, w[i], w[i + 1])
  }

  lemma {:induction false} WithinGrows(edges: seq<Edge>, center: J.Value, d1: nat, d2: nat)
    requires d1 <= d2
    ensures Within(edges, center, d1) <= Within(edges, center, d2)
    decreases d2
  {
    if d1 < d2 {
      WithinGrows(edges, center, d1, d2 - 1);
    }
  }

  /** Every id within `depth` is reached by a walk of at most `depth` steps. */
  lemma {:induction false} WithinHasWalk(edges: seq<Edge>, center: J.Value, depth: nat, x: J.Value)
    requires x in Within(edges, center, depth)
    ensures exists w :: Walk(edges, w, center, x) && |w| <= depth + 1
  {
    if depth == 0 {
      assert Walk(edges, [center], center, x);
    } else {
      var inner := Within(edges, center, depth - 1);
      if x in inner {
        WithinHasWalk(edges, center, depth - 1, x);
      } else {
        var e :| e in edges && ((e.fromId in inner && e.toId == x) || (e.toId in inner && e.fromId == x));
        var y := if e.fromId in inner && e.toId == x then e.fromId else e.toId;
        assert Adjacent(edges, y, x);
        WithinHasWalk(edges, center, depth - 1, y);
        var w :| Walk(edges, w, center, y) && |w| <= depth;
        var w' := w + [x];
        assert forall i :: 0 <= i < |w| ==> w'[i] == w[i];
        assert Walk(edges, w', center, x);
      }
    }
  }

  /** Every walk of at most `depth` steps ends within `depth`. */
  lemma {:induction false} WalkIsWithin(edges: seq<Edge>, center: J.Value, w: seq<J.Value>, x: J.Value, depth: nat)
    requires Walk(edges, w, center, x) && |w| <= depth + 1
    ensures x in Within(edges, center, depth)
    decreases |w|
  {
    if |w| == 1 {
      WithinGrows(edges, center, 0, depth);
    } else {
      var prev := w[..|w| - 1];
      var y := prev[|prev| - 1];
      assert Walk(edges, prev, center, y);
      WalkIsWithin(edges, center, prev, y, depth - 1);
      assert Adjacent(edges, y, x);
      var e :| e in edges && ((e.fromId == y && e.toId == x) || (e.fromId == x && e.toId == y));
      assert x in Neighbours(edges, Within(edges, center, depth - 1));
    }
  }

  /** The relationships whose two ends both lie in `ids`, in stored order. */
  function EdgesAmong(edges: seq<Edge>, ids: set<J.Value>): (r: seq<Edge>)
    ensures forall e :: e in r <==> e in edges && e.fromId in ids && e.toId in ids
  {
    if |edges| == 0 then []
    else
      var rest := EdgesAmong(edges[1..], ids);
      assert forall e :: e in edges <==> e == edges[0] || e in edges[1..];
      if edges[0].fromId in ids && edges[0].toId in ids then [edges[0]] + rest else rest
  }

  datatype ConceptGraph = ConceptGraph(centralNode: J.Value, depth: nat, nodes: map<J.Value, Node>, edges: seq<Edge>)

  /** `get_concept_graph(concept_id, depth)`: the stored nodes reachable
      from the concept by walks of at most `depth` relationships, and the
      relationships among them. */
  function GetConceptGraph(g: Graph, conceptId: J.Value, depth: nat): (r: ConceptGraph)
    ensures r.centralNode == conceptId && r.depth == depth
    ensures forall x :: x in r.nodes <==> x in g.nodes && x in Within(g.edges, conceptId, depth)
    ensures forall x :: x in r.nodes ==> r.nodes[x] == g.nodes[x]
    ensures var ids := Within(g.edges, conceptId, depth);
            forall e :: e in r.edges <==> e in g.edges && e.fromId in ids && e.toId in ids
  {
    var ids := Within(g.edges, conceptId, depth);
    ConceptGraph(conceptId, depth, map x | x in g.nodes && x in ids :: g.nodes[x], EdgesAmong(g.edges, ids))
  }

  /** A stored node is in the concept graph exactly when a walk of at most
      `depth` relationships leads to it, and every returned relationship
      joins two ids of the neighbourhood. */
  lemma ConceptGraphIsNeighbourhood(g: Graph, conceptId: J.Value, depth: nat, x: J.Value)
    requires x in g.nodes
    ensures x in GetConceptGraph(g, conceptId, depth).nodes <==>
              exists w :: Walk(g.edges, w, conceptId, x) && |w| <= depth + 1
    ensures forall e :: e in GetConceptGraph(g, conceptId, depth).edges ==>
              e.fromId in Within(g.edges, conceptId, depth) && e.toId in Within(g.edges, conceptId, depth)
  {
    if x in GetConceptGraph(g, conceptId, depth).nodes {
      WithinHasWalk(g.edges, conceptId, depth, x);
    }
    if exists w :: Walk(g.edges, w, conceptId, x) && |w| <= depth + 1 {
      var w :| Walk(g.edges, w, conceptId, x) && |w| <= depth + 1;
      WalkIsWithin(g.edges, conceptId, w, x, depth);
    }
  }

  /** A deeper request never loses a node. */
  lemma DeeperGraphKeepsNodes(g: Graph, conceptId: J.Value, d1: nat, d2: nat)
    requires d1 <= d2
    ensures GetConceptGraph(g, conceptId, d1).nodes.Keys <= GetConceptGraph(g, conceptId, d2).nodes.Keys
  {
    WithinGrows(g.edges, conceptId, d1, d2);
  }
}

=== FILE: l1_cache.dfy ===
/** The in-process L1 tier of the caching agent: entries with an absolute
    expiry time, tags and dependencies, kept in least-recently-used order
    (oldest first) under a byte budget. A value's size is its length. */
module L1Cache {
  import opened Wrappers
  import Text

  datatype Slot = Slot(key: string, value: string, expiresAt: real, tags: set<string>, deps: set<string>)

  datatype Cache = Cache(maxBytes: nat, slots: seq<Slot>)

  function Size(s: Slot): nat {
    |s.value|
  }

  function Total(slots: seq<Slot>): nat {
    if |slots| == 0 then 0 else Size(slots[0]) + Total(slots[1..])
  }

  function Keys(slots: seq<Slot>): (ks: seq<string>)
    ensures |ks| == |slots|
    ensures forall i :: 0 <= i < |slots| ==> ks[i] == slots[i].key
  {
    seq(|slots|, i requires 0 <= i < |slots| => slots[i].key)
  }

  predicate DistinctKeys(slots: seq<Slot>) {
    forall i, j :: 0 <= i < j < |slots| ==> slots[i].key != slots[j].key
  }

  /** Keys are unique and the byte budget holds, except that a single
      entry larger than the whole budget is still admitted. */
  predicate Valid(c: Cache) {
    DistinctKeys(c.slots) && (Total(c.slots) <= c.maxBytes || |c.slots| <= 1)
  }

  function Init(maxBytes: nat): (c: Cache)
    ensures Valid(c) && |c.slots| == 0 && c.maxBytes == maxBytes
  {
    Cache(maxBytes, [])
  }

  /** The slot stored under `key`, if any. */
  function Lookup(slots: seq<Slot>, key: string): (r: Option<Slot>)
    ensures r.Some? <==> exists i :: 0 <= i < |slots| && slots[i].key == key
    ensures r.Some? ==> r.value in slots && r.value.key == key
  {
    if |slots| == 0 then None
    else if slots[0].key == key then Some(slots[0])
    else
      var r := Lookup(slots[1..], key);
      assert forall i :: 1 <= i < |slots| ==> slots[i] == slots[1..][i - 1];
      r
  }

  /** The slots without the one stored under `key`, order kept. */
  function Without(slots: seq<Slot>, key: string): (r: seq<Slot>)
    ensures forall s :: s in r <==> s in slots && s.key != key
    ensures forall i :: 0 <= i < |r| ==> r[i].key != key
    ensures Total(r) <= Total(slots)
    ensures DistinctKeys(slots) ==> DistinctKeys(r)
  {
    if |slots| == 0 then []
    else
      var rest := Without(slots[1..], key);
      assert forall s :: s in slots[1..] ==> s in slots;
      if slots[0].key == key then rest
      else
        assert DistinctKeys(slots) ==> forall s :: s in rest ==> s.key != slots[0].key;
        if DistinctKeys(slots) then
          SuffixDistinct(slots, 1);
          ConsDistinct(slots[0], rest);
          [slots[0]] + rest
        else
          [slots[0]] + rest
  }

  /** A slot whose key is new keeps the keys distinct when prepended. */
  lemma ConsDistinct(s: Slot, rest: seq<Slot>)
    requires DistinctKeys(rest) && forall t :: t in rest ==> t.key != s.key
    ensures DistinctKeys([s] + rest)
  {
    forall i, j | 0 <= i < j < |rest| + 1
      ensures ([s] + rest)[i].key != ([s] + rest)[j].key
    {
      assert ([s] + rest)[j] == rest[j - 1];
      if i > 0 {
        assert ([s] + rest)[i] == rest[i - 1];
      }
    }
  }

  lemma TotalAppend(a: seq<Slot>, b: seq<Slot>)
    ensures Total(a + b) == Total(a) + Total(b)
  {
    if |a| > 0 {
      assert (a + b)[0] == a[0] && (a + b)[1..] == a[1..] + b;
      TotalAppend(a[1..], b);
    } else {
      assert a + b == b;
    }
  }

  /** LRU eviction: drops entries from the old end until `need` more bytes
      fit or nothing is left. The result is a suffix of the input, and no
      longer suffix would have made room. */
  function EvictFor(slots: seq<Slot>, need: nat, maxBytes: nat): (r: seq<Slot>)
    ensures |r| <= |slots| && r == slots[|slots| - |r|..]
    ensures Total(r) + need <= maxBytes || |r| == 0
    ensures |r| < |slots| ==> Total(slots[|slots| - |r| - 1..]) + need > maxBytes
    ensures Total(slots) + need <= maxBytes ==> r == slots
  {
    if Total(slots) + need <= maxBytes || |slots| == 0 then slots
    else
      var r := EvictFor(slots[1..], need, maxBytes);
      assert slots[1..][|slots| - 1 - |r|..] == slots[|slots| - |r|..];
      r
  }

  lemma SuffixDistinct(slots: seq<Slot>, k: nat)
    requires DistinctKeys(slots) && k <= |slots|
    ensures DistinctKeys(slots[k..])
  {
    forall i, j | 0 <= i < j < |slots| - k
      ensures slots[k..][i].key != slots[k..][j].key
    {
      assert slots[k..][i] == slots[k + i] && slots[k..][j] == slots[k + j];
    }
  }

  lemma SuffixFresh(slots: seq<Slot>, k: nat, key: string)
    requires k <= |slots| && forall i :: 0 <= i < |slots| ==> slots[i].key != key
    ensures forall i :: 0 <= i < |slots[k..]| ==> slots[k..][i].key != key
  {
    forall i | 0 <= i < |slots[k..]| ensures slots[k..][i].key != key {
      assert slots[k..][i] == slots[k + i];
    }
  }

  /** A slot whose key is new keeps the keys distinct when appended. */
  lemma AppendDistinct(kept: seq<Slot>, slot: Slot)
    requires DistinctKeys(kept) && forall i :: 0 <= i < |kept| ==> kept[i].key != slot.key
    ensures DistinctKeys(kept + [slot])
  {
    forall i, j | 0 <= i < j < |kept| + 1
      ensures (kept + [slot])[i].key != (kept + [slot])[j].key
    {
      assert (kept + [slot])[i] == kept[i];
    }
  }

  /** Makes room for `slot` by LRU eviction from `rest` and appends it as
      the most recent entry. Eviction stops as soon as the slot fits. */
  function Admit(rest: seq<Slot>, slot: Slot, maxBytes: nat): (r: seq<Slot>)
    requires DistinctKeys(rest) && forall i :: 0 <= i < |rest| ==> rest[i].key != slot.key
    ensures DistinctKeys(r) && (Total(r) <= maxBytes || |r| == 1)
    ensures |r| > 0 && r[|r| - 1] == slot && Lookup(r, slot.key) == Some(slot)
    ensures |r| - 1 <= |rest| && r[..|r| - 1] == rest[|rest| - (|r| - 1)..]
    ensures forall s :: s in r ==> s in rest || s == slot
    ensures Total(rest) + Size(slot) <= maxBytes ==> r == rest + [slot]
    ensures |r| - 1 < |rest| ==> Total(rest[|rest| - |r|..]) + Size(slot) > maxBytes
  {
    var kept := EvictFor(rest, Size(slot), maxBytes);
    var slots := kept + [slot];
    SuffixDistinct(rest, |rest| - |kept|);
    SuffixFresh(rest, |rest| - |kept|, slot.key);
    AppendDistinct(kept, slot);
    TotalAppend(kept, [slot]);
    assert Total([slot]) == Size(slot);
    assert slots[..|slots| - 1] == kept;
    LastIsFound(kept, slot);
    assert forall s :: s in kept ==> s in rest;
    assert |rest| - |kept| - 1 == |rest| - |slots|;
    slots
  }

  /** `set(key, value, ttl, tags, dependencies)` at time `now`: any old
      entry for the key is replaced, the oldest entries are evicted until
      the new value fits, and the new entry becomes the most recent. */
  function Set(c: Cache, key: string, value: string, ttl: real, now: real,
               tags: set<string>, deps: set<string>): (r: Cache)
    requires Valid(c)
    ensures Valid(r) && r.maxBytes == c.maxBytes
    ensures |r.slots| > 0 && r.slots[|r.slots| - 1] == Slot(key, value, now + ttl, tags, deps)
    ensures Lookup(r.slots, key) == Some(Slot(key, value, now + ttl, tags, deps))
    ensures var rest := Without(c.slots, key);
            |r.slots| - 1 <= |rest| && r.slots[..|r.slots| - 1] == rest[|rest| - (|r.slots| - 1)..]
    ensures forall s :: s in r.slots ==> (s in c.slots && s.key != key) || s == Slot(key, value, now + ttl, tags, deps)
    ensures var rest := Without(c.slots, key);
            Total(rest) + |value| <= c.maxBytes ==> r.slots == rest + [Slot(key, value, now + ttl, tags, deps)]
    ensures var rest := Without(c.slots, key);
            |r.slots| - 1 < |rest| ==> Total(rest[|rest| - |r.slots|..]) + |value| > c.maxBytes
    ensures Total(r.slots) <= c.maxBytes || |r.slots| == 1
  {
    Cache(c.maxBytes, Admit(Without(c.slots, key), Slot(key, value, now + ttl, tags, deps), c.maxBytes))
  }

  lemma LastIsFound(kept: seq<Slot>, slot: Slot)
    requires forall i :: 0 <= i < |kept| ==> kept[i].key != slot.key
    ensures Lookup(kept + [slot], slot.key) == Some(slot)
  {
    if |kept| > 0 {
      assert (kept + [slot])[1..] == kept[1..] + [slot];
      LastIsFound(kept[1..], slot);
    }
  }

  predicate Expired(s: Slot, now: real) {
    now > s.expiresAt
  }

  datatype Read = Read(value: Option<string>, cache: Cache)

  /** `get(key)` at time `now`: a live entry is returned and becomes the
      most recently used; an expired one is dropped and reads as a miss. */
  function Get(c: Cache, key: string, now: real): (r: Read)
    requires Valid(c)
    ensures Valid(r.cache) && r.cache.maxBytes == c.maxBytes
    ensures r.value.Some? <==> Lookup(c.slots, key).Some? && !Expired(Lookup(c.slots, key).value, now)
    ensures r.value.Some? ==> r.value.value == Lookup(c.slots, key).value.value
    ensures r.value.Some? ==> forall s :: s in r.cache.slots <==> s in c.slots
    ensures r.value.None? ==> forall s :: s in r.cache.slots <==> s in c.slots && s.key != key
  {
    match Lookup(c.slots, key)
    case None =>
      assert forall s :: s in c.slots ==> s.key != key;
      Read(None, c)
    case Some(slot) =>
      var rest := Without(c.slots, key);
      if Expired(slot, now) then
        assert Total(rest) <= Total(c.slots);
        assert |rest| <= 1 || Total(rest) <= c.maxBytes by {
          if Total(c.slots) > c.maxBytes { WithoutShrinks(c.slots, key); }
        }
        Read(None, Cache(c.maxBytes, rest))
      else
        var slots := rest + [slot];
        WithoutShrinks(c.slots, key);
        TotalAppend(rest, [slot]);
        assert Total([slot]) == Size(slot);
        KeyedTotal(c.slots, slot);
        Read(Some(slot.value), Cache(c.maxBytes, slots))
  }

  lemma WithoutShrinks(slots: seq<Slot>, key: string)
    requires DistinctKeys(slots) && Lookup(slots, key).Some?
    ensures |Without(slots, key)| == |slots| - 1
  {
    if |slots| > 0 && slots[0].key != key {
      assert Lookup(slots[1..], key).Some?;
      WithoutShrinks(slots[1..], key);
    } else if |slots| > 0 {
      assert forall i :: 0 <= i < |slots[1..]| ==> slots[1..][i].key != key;
      WithoutAbsent(slots[1..], key);
    }
  }

  lemma WithoutAbsent(slots: seq<Slot>, key: string)
    requires forall i :: 0 <= i < |slots| ==> slots[i].key != key
    ensures Without(slots, key) == slots
  {
    if |slots| > 0 {
      WithoutAbsent(slots[1..], key);
    }
  }

  /** Moving the found slot to the end keeps the total byte count. */
  lemma KeyedTotal(slots: seq<Slot>, slot: Slot)
    requires DistinctKeys(slots) && Lookup(slots, slot.key) == Some(slot)
    ensures Total(Without(slots, slot.key)) + Size(slot) == Total(slots)
  {
    if slots[0].key == slot.key {
      assert forall i :: 0 <= i < |slots[1..]| ==> slots[1..][i].key != slot.key;
      WithoutAbsent(slots[1..], slot.key);
    } else {
      KeyedTotal(slots[1..], slot);
    }
  }

  /** `delete(key)`: removes the entry and reports whether there was one. */
  function Delete(c: Cache, key: string): (r: (Cache, bool))
    requires Valid(c)
    ensures Valid(r.0) && r.0.maxBytes == c.maxBytes
    ensures r.1 <==> Lookup(c.slots, key).Some?
    ensures Lookup(r.0.slots, key).None?
    ensures forall s :: s in r.0.slots <==> s in c.slots && s.key != key
  {
    var rest := Without(c.slots, key);
    assert |rest| <= 1 || Total(rest) <= c.maxBytes by {
      if Total(c.slots) > c.maxBytes {
        assert |c.slots| <= 1;
        assert |rest| <= |c.slots| by {
          if |c.slots| == 1 { assert c.slots[1..] == []; }
        }
      }
    }
    (Cache(c.maxBytes, rest), Lookup(c.slots, key).Some?)
  }

  /** The keys of the slots satisfying a per-slot test, in slot order. */
  function KeysWhere(slots: seq<Slot>, test: Slot -> bool): (ks: seq<string>)
    ensures forall k :: k in ks <==> exists s :: s in slots && s.key == k && test(s)
    ensures |ks| <= |slots|
  {
    if |slots| == 0 then []
    else
      var rest := KeysWhere(slots[1..], test);
      assert forall s :: s in slots <==> s == slots[0] || s in slots[1..];
      if test(slots[0]) then [slots[0].key] + rest else rest
  }

  /** No key is listed twice. */
  predicate NoRepeats(ks: seq<string>) {
    forall i, j :: 0 <= i < j < |ks| ==> ks[i] != ks[j]
  }

  lemma ConsNoRepeats(k: string, rest: seq<string>)
    requires NoRepeats(rest) && k !in rest
    ensures NoRepeats([k] + rest)
  {
    forall i, j | 0 <= i < j < |rest| + 1 ensures ([k] + rest)[i] != ([k] + rest)[j] {
      assert ([k] + rest)[j] == rest[j - 1];
      if i > 0 {
        assert ([k] + rest)[i] == rest[i - 1];
      }
    }
  }

  /** Over slots with distinct keys, each selected key is listed once. */
  lemma {:induction false} KeysWhereNoRepeats(slots: seq<Slot>, test: Slot -> bool)
    requires DistinctKeys(slots)
    ensures NoRepeats(KeysWhere(slots, test))
  {
    if |slots| > 0 {
      SuffixDistinct(slots, 1);
      KeysWhereNoRepeats(slots[1..], test);
      var rest := KeysWhere(slots[1..], test);
      if test(slots[0]) {
        forall k | k in rest ensures k != slots[0].key {
          var s :| s in slots[1..] && s.key == k && test(s);
          var i :| 0 <= i < |slots[1..]| && slots[1..][i] == s;
          assert slots[i + 1] == s;
        }
        ConsNoRepeats(slots[0].key, rest);
      }
    }
  }

  /** A list without repeats has as many entries as distinct elements. */
  lemma {:induction false} NoRepeatsCount(ks: seq<string>)
    requires NoRepeats(ks)
    ensures |set k | k in ks| == |ks|
  {
    if |ks| > 0 {
      assert NoRepeats(ks[1..]) by {
        forall i, j | 0 <= i < j < |ks| - 1 ensures ks[1..][i] != ks[1..][j] {
          assert ks[1..][i] == ks[i + 1] && ks[1..][j] == ks[j + 1];
        }
      }
      NoRepeatsCount(ks[1..]);
      assert (set k | k in ks) == {ks[0]} + (set k | k in ks[1..]);
      forall j | 0 <= j < |ks| - 1 ensures ks[1..][j] != ks[0] {
        assert ks[1..][j] == ks[j + 1];
      }
      assert ks[0] !in (set k | k in ks[1..]);
    }
  }

  /** `get_keys_by_pattern(pattern)`: keys matching the shell-style glob,
      each once. */
  function KeysByPattern(c: Cache, pattern: string): (ks: seq<string>)
    requires Valid(c)
    ensures forall k :: k in ks <==> k in Keys(c.slots) && Text.Glob(pattern, k)
    ensures NoRepeats(ks)
  {
    var ks := KeysWhere(c.slots, (s: Slot) => Text.Glob(pattern, s.key));
    KeysWhereNoRepeats(c.slots, (s: Slot) => Text.Glob(pattern, s.key));
    assert forall k :: k in Keys(c.slots) <==> exists s :: s in c.slots && s.key == k by {
      forall k ensures k in Keys(c.slots) ==> exists s :: s in c.slots && s.key == k {
        if k in Keys(c.slots) {
          var i :| 0 <= i < |c.slots| && Keys(c.slots)[i] == k;
          assert c.slots[i] in c.slots;
        }
      }
    }
    ks
  }

  /** `get_keys_by_tag(tag)`: the keys carrying the tag, each once. */
  function KeysByTag(c: Cache, tag: string): (ks: seq<string>)
    requires Valid(c)
    ensures forall k :: k in ks <==> exists s :: s in c.slots && s.key == k && tag in s.tags
    ensures NoRepeats(ks)
  {
    KeysWhereNoRepeats(c.slots, (s: Slot) => tag in s.tags);
    KeysWhere(c.slots, (s: Slot) => tag in s.tags)
  }

  /** The pattern scenario: of `user:1:profile`, `user:2:profile` and
      `content:1`, the glob `user:*:profile` selects two keys. */
  lemma PatternScenario(c: Cache)
    requires Valid(c) && |c.slots| == 3
    requires c.slots[0].key == "user:1:profile" && c.slots[1].key == "user:2:profile"
    requires c.slots[2].key == "content:1"
    ensures |KeysByPattern(c, "user:*:profile")| == 2
  {
    ProfileMatches();
    TwoOfThreeMatch(c, "user:*:profile");
  }

  /** A pattern matching the first two of three stored keys but not the
      third selects exactly two keys. */
  lemma TwoOfThreeMatch(c: Cache, pattern: string)
    requires Valid(c) && |c.slots| == 3
    requires Text.Glob(pattern, c.slots[0].key) && Text.Glob(pattern, c.slots[1].key)
    requires !Text.Glob(pattern, c.slots[2].key)
    ensures |KeysByPattern(c, pattern)| == 2
  {
    var ks := KeysByPattern(c, pattern);
    var keys := Keys(c.slots);
    assert keys[0] == c.slots[0].key && keys[1] == c.slots[1].key && keys[2] == c.slots[2].key;
    forall k | k in ks ensures k == keys[0] || k == keys[1] {
      var i :| 0 <= i < 3 && keys[i] == k;
    }
    assert keys[0] != keys[1];
    assert (set k | k in ks) == {keys[0], keys[1]};
    NoRepeatsCount(ks);
  }

  /** `user:*:profile` matches both profile keys and not `content:1`. */
  lemma ProfileMatches()
    ensures Text.Glob("user:*:profile", "user:1:profile")
    ensures Text.Glob("user:*:profile", "user:2:profile")
    ensures !Text.Glob("user:*:profile", "content:1")
  {
    Text.GlobStarMiddle("user:", "1", ":profile");
    Text.GlobStarMiddle("user:", "2", ":profile");
    assert "user:" + "*" + ":profile" == "user:*:profile";
    assert "user:" + "1" + ":profile" == "user:1:profile";
    assert "user:" + "2" + ":profile" == "user:2:profile";
  }

  /** The tag scenario: two entries carry `tag1`, so two keys come back. */
  lemma TagScenario(c: Cache)
    requires Valid(c) && |c.slots| == 2
    requires c.slots[0].key == "key1" && c.slots[0].tags == {"tag1", "tag2"}
    requires c.slots[1].key == "key2" && c.slots[1].tags == {"tag1"}
    ensures |KeysByTag(c, "tag1")| == 2
  {
    var ks := KeysByTag(c, "tag1");
    assert c.slots[0] in c.slots && c.slots[1] in c.slots;
    assert (set k | k in ks) == {"key1", "key2"};
    NoRepeatsCount(ks);
  }

  /** The namespaced form under which the agent records an entry, which is
      the form the dependency index hands back. */
  function StoredKey(key: string): (sk: string)
    ensures Text.IsPrefix("cache:", sk) && |sk| == 6 + |key| && sk[6..] == key
  {
    "cache:" + key
  }

  /** The stored form of each key, order kept. A string is among them
      exactly when it is the prefix followed by one of the keys. */
  function StoredKeys(ks: seq<string>): (r: seq<string>)
    ensures |r| == |ks|
    ensures forall k :: k in r <==> Text.IsPrefix("cache:", k) && k[6..] in ks
  {
    if |ks| == 0 then []
    else
      var rest := StoredKeys(ks[1..]);
      forall k | Text.IsPrefix("cache:", k)
        ensures k == StoredKey(ks[0]) <==> k[6..] == ks[0]
      {
        assert k == k[..6] + k[6..];
      }
      assert forall x :: x in ks <==> x == ks[0] || x in ks[1..];
      [StoredKey(ks[0])] + rest
  }

  /** `get_dependent_keys(key)`: the stored (namespaced) keys of the entries
      declared to depend on `key`. */
  function DependentKeys(c: Cache, key: string): (ks: seq<string>)
    ensures forall k :: k in ks <==>
              Text.IsPrefix("cache:", k) && exists s :: s in c.slots && s.key == k[6..] && key in s.deps
  {
    StoredKeys(KeysWhere(c.slots, (s: Slot) => key in s.deps))
  }

  /** Set-then-get round trip: a value just stored is read back until its
      ttl elapses, and reads as a miss afterwards. */
  lemma SetThenGet(c: Cache, key: string, value: string, ttl: real, now: real, later: real,
                   tags: set<string>, deps: set<string>)
    requires Valid(c)
    ensures var r := Get(Set(c, key, value, ttl, now, tags, deps), key, later);
            (later <= now + ttl ==> r.value == Some(value))
            && (later > now + ttl ==> r.value.None?)
  {
  }

  /** A hit moves the entry to the most-recently-used end and every other
      entry keeps its place in the eviction order; so with another entry
      present, the key read is no longer the first candidate for eviction. */
  lemma HitMovesToEnd(c: Cache, key: string, now: real)
    requires Valid(c) && Get(c, key, now).value.Some?
    ensures Get(c, key, now).cache.slots == Without(c.slots, key) + [Lookup(c.slots, key).value]
    ensures var s := Get(c, key, now).cache.slots;
            |s| == |c.slots| && s[|s| - 1].key == key && (|c.slots| >= 2 ==> s[0].key != key)
  {
    WithoutShrinks(c.slots, key);
    var rest := Without(c.slots, key);
    if |c.slots| >= 2 {
      assert rest[0] in rest;
    }
  }

  /** A key never stored is a miss. */
  lemma MissOnUnknown(c: Cache, key: string, now: real)
    requires Valid(c)
    requires forall i :: 0 <= i < |c.slots| ==> c.slots[i].key != key
    ensures Get(c, key, now).value.None? && Get(c, key, now).cache == c
  {
  }

  /** Eviction order: an insertion evicts only the oldest entries, so when an
      entry survives, every entry stored after it survives too. */
  lemma EvictionIsOldestFirst(c: Cache, key: string, value: string, ttl: real, now: real,
                              tags: set<string>, deps: set<string>, i: nat, j: nat)
    requires Valid(c)
    requires i < j < |Without(c.slots, key)|
    requires Without(c.slots, key)[i] in Set(c, key, value, ttl, now, tags, deps).slots
    ensures Without(c.slots, key)[j] in Set(c, key, value, ttl, now, tags, deps).slots
  {
    AdmitEvictsOldestFirst(Without(c.slots, key), Slot(key, value, now + ttl, tags, deps), c.maxBytes, i, j);
  }

  lemma AdmitEvictsOldestFirst(rest: seq<Slot>, slot: Slot, maxBytes: nat, i: nat, j: nat)
    requires DistinctKeys(rest) && forall t :: 0 <= t < |rest| ==> rest[t].key != slot.key
    requires i < j < |rest| && rest[i] in Admit(rest, slot, maxBytes)
    ensures rest[j] in Admit(rest, slot, maxBytes)
  {
    var a := Admit(rest, slot, maxBytes);
    var n := |a| - 1;
    assert a == a[..n] + [slot];
    SurvivorsFormSuffix(rest, a[..n], slot, i, j);
  }

  /** Inside a list of distinct keys, a member of a suffix (plus one new
      slot of another key) has every later member in the suffix too. */
  lemma SurvivorsFormSuffix(rest: seq<Slot>, kept: seq<Slot>, last: Slot, i: nat, j: nat)
    requires DistinctKeys(rest) && |kept| <= |rest| && kept == rest[|rest| - |kept|..]
    requires forall t :: 0 <= t < |rest| ==> rest[t].key != last.key
    requires i < j < |rest| && rest[i] in kept + [last]
    ensures rest[j] in kept + [last]
  {
    var m := |rest| - |kept|;
    assert rest[i] != last;
    var k :| 0 <= k < |kept| && kept[k] == rest[i];
    assert kept[k] == rest[m + k];
    assert m + k == i;
    assert (kept + [last])[j - m] == rest[j];
  }

  /** When the stored entries plus the new value exceed the byte budget,
      the least recently used entry (of another key) is evicted. */
  lemma OverBudgetEvictsOldest(c: Cache, key: string, value: string, ttl: real, now: real,
                               tags: set<string>, deps: set<string>)
    requires Valid(c)
    requires |Without(c.slots, key)| > 0
    requires Total(Without(c.slots, key)) + |value| > c.maxBytes
    ensures Without(c.slots, key)[0] !in Set(c, key, value, ttl, now, tags, deps).slots
  {
    SuffixDistinct(Without(c.slots, key), 0);
  }

  /** The slots passing a per-slot test, order kept. */
  function Keep(slots: seq<Slot>, test: Slot -> bool): (r: seq<Slot>)
    ensures forall s :: s in r <==> s in slots && test(s)
    ensures |r| <= |slots| && Total(r) <= Total(slots)
    ensures DistinctKeys(slots) ==> DistinctKeys(r)
  {
    if |slots| == 0 then []
    else
      var rest := Keep(slots[1..], test);
      assert forall s :: s in slots[1..] ==> s in slots;
      if !test(slots[0]) then rest
      else
        assert DistinctKeys(slots) ==> forall s :: s in rest ==> s.key != slots[0].key;
        if DistinctKeys(slots) then
          SuffixDistinct(slots, 1);
          ConsDistinct(slots[0], rest);
          [slots[0]] + rest
        else
          [slots[0]] + rest
  }

  /** Drops every entry whose key matches the glob. */
  function DropMatching(c: Cache, pattern: string): (r: Cache)
    requires Valid(c)
    ensures Valid(r) && r.maxBytes == c.maxBytes
    ensures forall s :: s in r.slots <==> s in c.slots && !Text.Glob(pattern, s.key)
  {
    Cache(c.maxBytes, Keep(c.slots, (s: Slot) => !Text.Glob(pattern, s.key)))
  }
}

=== FILE: local_ai.dfy ===
/** Field anonymisation of the local AI agent. A field is classified by
    its (lower-cased) name; string values of name, email, SSN and phone
    fields are replaced, nested objects are anonymised recursively and
    everything else is kept. Pseudonyms are derived from a digest of the
    original value (MD5 in the source), passed in as `digest`. */
module Anonymization {
  import Text
  import J = Json

  datatype FieldKind = NameField | EmailField | SsnField | PhoneField | OtherField

  function Kind(fieldName: string): FieldKind {
    var f := Text.Lower(fieldName);
    if Text.Contains(f, "name") then NameField
    else if Text.Contains(f, "email") then EmailField
    else if Text.Contains(f, "ssn") then SsnField
    else if Text.Contains(f, "phone") then PhoneField
    else OtherField
  }

  const SsnMask: string := "XXX-XX-XXXX"
  const PhoneMask: string := "XXX-XXX-XXXX"
  const NamePrefix: string := "Student_"
  const EmailDomain: string := "@anonymous.local"

  function Take8(s: string): (r: string)
    ensures |r| <= 8 && Text.IsPrefix(r, s)
  {
    if |s| <= 8 then s else s[..8]
  }

  /** `anonymize_field(value, field_name)`. */
  function AnonymizeField(value: string, fieldName: string, digest: string -> string): (r: string)
    ensures Kind(fieldName) == NameField ==> Text.IsPrefix(NamePrefix, r)
    ensures Kind(fieldName) == EmailField ==> Text.Contains(r, EmailDomain)
    ensures Kind(fieldName) == SsnField ==> r == SsnMask
    ensures Kind(fieldName) == PhoneField ==> r == PhoneMask
    ensures Kind(fieldName) == OtherField ==> r == value
  {
    match Kind(fieldName)
    case NameField => NamePrefix + Take8(digest(value))
    case EmailField =>
      var user := "user_" + Take8(digest(value));
      Text.ContainsMiddle(user, EmailDomain, []);
      assert user + EmailDomain + [] == user + EmailDomain;
      user + EmailDomain
    case SsnField => SsnMask
    case PhoneField => PhoneMask
    case OtherField => value
  }

  /** A pseudonymised name or email never equals an original value that
      did not already have the pseudonym's shape. */
  lemma AnonymizedDiffers(value: string, fieldName: string, digest: string -> string)
    ensures Kind(fieldName) == NameField && !Text.IsPrefix(NamePrefix, value) ==>
              AnonymizeField(value, fieldName, digest) != value
    ensures Kind(fieldName) == EmailField && !Text.Contains(value, EmailDomain) ==>
              AnonymizeField(value, fieldName, digest) != value
  {
  }

  /** `anonymize_data(data)`: string values are anonymised by their
      field's kind, nested objects recursively; lists, numbers and other
      scalars are kept. */
  function AnonymizeData(v: J.Value, digest: string -> string): (r: J.Value)
    ensures v.Obj? <==> r.Obj?
    ensures v.Obj? ==> |r.fields| == |v.fields|
                       && forall i :: 0 <= i < |v.fields| ==> r.fields[i].0 == v.fields[i].0
    ensures v.Obj? ==> forall i :: 0 <= i < |v.fields| && v.fields[i].1.Str? ==>
                         r.fields[i].1 == J.Str(AnonymizeField(v.fields[i].1.s, v.fields[i].0, digest))
    ensures v.Obj? ==> forall i :: 0 <= i < |v.fields| && !v.fields[i].1.Str? && !v.fields[i].1.Obj? ==>
                         r.fields[i].1 == v.fields[i].1
    ensures !v.Obj? ==> r == v
  {
    match v
    case Obj(fields) =>
      J.Obj(seq(|fields|, i requires 0 <= i < |fields| =>
        (fields[i].0,
         if fields[i].1.Str? then J.Str(AnonymizeField(fields[i].1.s, fields[i].0, digest))
         else AnonymizeData(fields[i].1, digest))))
    case _ => v
  }

  /** Nothing identifying survives at any depth: every string under an SSN
      or phone field is the fixed mask, every string under a name field
      carries the pseudonym prefix and every string under an email field
      the anonymous domain. */
  predicate Anonymous(v: J.Value) {
    match v
    case Obj(fields) =>
      forall i :: 0 <= i < |fields| ==>
        (match fields[i].1
         case Str(s) => FieldClean(fields[i].0, s)
         case Obj(_) => Anonymous(fields[i].1)
         case _ => true)
    case _ => true
  }

  predicate FieldClean(fieldName: string, s: string) {
    match Kind(fieldName)
    case NameField => Text.IsPrefix(NamePrefix, s)
    case EmailField => Text.Contains(s, EmailDomain)
    case SsnField => s == SsnMask
    case PhoneField => s == PhoneMask
    case OtherField => true
  }

  lemma {:induction false} AnonymizeDataIsAnonymous(v: J.Value, digest: string -> string)
    ensures Anonymous(AnonymizeData(v, digest))
  {
    match v
    case Obj(fields) =>
      var r := AnonymizeData(v, digest);
      forall i | 0 <= i < |fields| && fields[i].1.Obj?
        ensures Anonymous(r.fields[i].1)
      {
        AnonymizeDataIsAnonymous(fields[i].1, digest);
      }
    case _ =>
  }

  /** Anonymising anonymised data again changes nothing under the fixed
      masks, and keeps other field shapes. */
  lemma MasksAreStable(fieldName: string, digest: string -> string)
    ensures Kind(fieldName) == SsnField ==> AnonymizeField(SsnMask, fieldName, digest) == SsnMask
    ensures Kind(fieldName) == PhoneField ==> AnonymizeField(PhoneMask, fieldName, digest) == PhoneMask
  {
  }

  /** The nested example: a phone two levels down is masked. */
  lemma NestedPhoneMasked(name: string, mail: string, phone: string, digest: string -> string)
    ensures var info := J.Obj([("phone", J.Str(phone))]);
            var student := J.Obj([("name", J.Str(name)), ("email", J.Str(mail)), ("info", info)]);
            var r := AnonymizeData(J.Obj([("student", student)]), digest);
            var s := r.fields[0].1;
            s.Obj? && |s.fields| == 3 && s.fields[2].1.Obj? && |s.fields[2].1.fields| == 1
            && s.fields[2].1.fields[0] == ("phone", J.Str(PhoneMask))
  {
    var info := J.Obj([("phone", J.Str(phone))]);
    PhoneKind();
    InfoKind();
    var student := J.Obj([("name", J.Str(name)), ("email", J.Str(mail)), ("info", info)]);
    var r := AnonymizeData(J.Obj([("student", student)]), digest);
    assert r.fields[0].1 == AnonymizeData(student, digest);
    assert r.fields[0].1.fields[2].1 == AnonymizeData(info, digest);
    assert AnonymizeData(info, digest).fields[0].1 == J.Str(AnonymizeField(phone, "phone", digest));
  }

  lemma PhoneKind()
    ensures Kind("phone") == PhoneField
  {
    var f := Text.Lower("phone");
    assert f == "phone";
    Text.PrefixIsContained("phone", f);
    Text.AbsentByFirst(f, "name");
    Text.AbsentByFirst(f, "email");
    Text.AbsentByFirst(f, "ssn");
  }

  lemma InfoKind()
    ensures Kind("info") == OtherField
  {
    var f := Text.Lower("info");
    assert f == "info";
    Text.AbsentByFirst(f, "name");
    Text.AbsentByFirst(f, "email");
    Text.AbsentByFirst(f, "ssn");
    Text.AbsentByFirst(f, "phone");
  }
}

/** Privacy compliance rules of the local AI agent's privacy checker. */
module PrivacyRules {
  import opened Wrappers
  import J = Json
  import Text

  datatype Standard = GDPR | COPPA | FERPA

  datatype SensitiveType = StudentPersonalInfo | LearningDifficulties | BehavioralData | FamilyInformation

  datatype Result = Result(
    compliant: bool,
    standardsMet: seq<Standard>,
    violations: seq<string>,
    sensitiveDataFound: seq<SensitiveType>)

  const ChildAge: int := 13
  const GdprConsent: string := "GDPR: Consent not provided"
  const GdprRetention: string := "GDPR: No data retention policy"
  const CoppaConsent: string := "COPPA: Parental consent required for users under 13"
  const FerpaInterest: string := "FERPA: Sensitive data without legitimate educational interest"

  /** The violations one standard finds in the record; `sensitive` is what
      keyword detection found in the record's text. */
  function Violations(data: seq<(string, J.Value)>, s: Standard, sensitive: seq<SensitiveType>): (vs: seq<string>)
    ensures s == GDPR && !J.Flag(data, "consent_provided") ==> |vs| > 0 && vs[0] == GdprConsent
    ensures s == GDPR ==> (|vs| == 0 <==> J.Flag(data, "consent_provided") && J.Flag(data, "data_retention_policy"))
    ensures s == COPPA ==> (|vs| > 0 <==> IsChild(data) && !J.Flag(data, "parental_consent"))
    ensures s == FERPA ==> (|vs| > 0 <==> |sensitive| > 0 && !J.Flag(data, "legitimate_educational_interest"))
  {
    match s
    case GDPR =>
      (if J.Flag(data, "consent_provided") then [] else [GdprConsent])
      + (if J.Flag(data, "data_retention_policy") then [] else [GdprRetention])
    case COPPA =>
      if IsChild(data) && !J.Flag(data, "parental_consent") then [CoppaConsent] else []
    case FERPA =>
      if |sensitive| > 0 && !J.Flag(data, "legitimate_educational_interest") then [FerpaInterest] else []
  }

  /** An "age" field below 13; a record without an age is not treated as
      a child's. */
  predicate IsChild(data: seq<(string, J.Value)>) {
    var age := J.Get(data, "age");
    age.Some? && age.value.Num? && age.value.n < ChildAge
  }

  function AllViolations(data: seq<(string, J.Value)>, standards: seq<Standard>, sensitive: seq<SensitiveType>): seq<string> {
    if |standards| == 0 then []
    else Violations(data, standards[0], sensitive) + AllViolations(data, standards[1..], sensitive)
  }

  function Met(data: seq<(string, J.Value)>, standards: seq<Standard>, sensitive: seq<SensitiveType>): (m: seq<Standard>)
    ensures forall s :: s in m <==> s in standards && |Violations(data, s, sensitive)| == 0
  {
    if |standards| == 0 then []
    else
      var rest := Met(data, standards[1..], sensitive);
      if |Violations(data, standards[0], sensitive)| == 0 then [standards[0]] + rest else rest
  }

  lemma {:induction false} NoViolationsIffAllMet(data: seq<(string, J.Value)>, standards: seq<Standard>, sensitive: seq<SensitiveType>)
    ensures |AllViolations(data, standards, sensitive)| == 0 <==>
            forall s :: s in standards ==> |Violations(data, s, sensitive)| == 0
  {
    if |standards| > 0 {
      NoViolationsIffAllMet(data, standards[1..], sensitive);
      assert forall s :: s in standards <==> s == standards[0] || s in standards[1..];
    }
  }

  /** `check_compliance(data, standards)`: compliant exactly when no
      requested standard finds a violation; the met standards are those
      that find none, and violations are listed in the order requested. */
  function CheckCompliance(data: seq<(string, J.Value)>, standards: seq<Standard>, sensitive: seq<SensitiveType>): (r: Result)
    ensures r.compliant <==> forall s :: s in standards ==> s in r.standardsMet
    ensures forall s :: s in r.standardsMet <==> s in standards && |Violations(data, s, sensitive)| == 0
    ensures r.compliant <==> |r.violations| == 0
    ensures r.sensitiveDataFound == sensitive
    ensures |standards| > 0 ==>
              var first := Violations(data, standards[0], sensitive);
              |first| <= |r.violations| && r.violations[..|first|] == first
  {
    NoViolationsIffAllMet(data, standards, sensitive);
    var vs := AllViolations(data, standards, sensitive);
    assert |standards| > 0 ==> vs[..|Violations(data, standards[0], sensitive)|] == Violations(data, standards[0], sensitive);
    Result(|vs| == 0, Met(data, standards, sensitive), vs, sensitive)
  }
}

/** Key bookkeeping of the encryption manager (the ciphers themselves are
    not modelled). */
module KeyRotation {
  datatype KeyInfo = KeyInfo(key: string, createdAt: real, expiresAt: real)

  predicate Expired(k: KeyInfo, now: real) {
    k.expiresAt < now
  }

  /** `rotate_keys()`: drops every expired key and reports how many went. */
  function RotateKeys(keys: map<string, KeyInfo>, now: real): (r: (map<string, KeyInfo>, nat))
    ensures forall u :: u in r.0 <==> u in keys && !Expired(keys[u], now)
    ensures forall u :: u in r.0 ==> r.0[u] == keys[u]
    ensures r.1 + |r.0| == |keys|
    ensures r.1 == |set u | u in keys && Expired(keys[u], now)|
  {
    var kept := map u | u in keys && !Expired(keys[u], now) :: keys[u];
    var gone := set u | u in keys && Expired(keys[u], now);
    assert keys.Keys == kept.Keys + gone && kept.Keys !! gone;
    assert |keys.Keys| == |kept.Keys| + |gone|;
    (kept, |gone|)
  }

  /** When every key has expired, rotation removes all of them and counts
      them all. */
  lemma AllExpiredRotated(keys: map<string, KeyInfo>, now: real)
    requires forall u :: u in keys ==> Expired(keys[u], now)
    ensures RotateKeys(keys, now).0 == map[] && RotateKeys(keys, now).1 == |keys|
  {
  }
}

=== FILE: orchestrator.dfy ===
/** The orchestration core: request validation, exact-match routing gated
    by each agent's circuit breaker, distribution gated by each agent's
    token bucket, the priority dispatch queue, the task registry and its
    state machine, result aggregation and the health snapshot.
    Task ids are drawn from a counter (the source draws UUIDs); the
    network call to the downstream agent is replaced by its outcome,
    passed in as a parameter. */
module Orchestrator {
  import opened Wrappers
  import CB = CircuitBreaker
  import TB = TokenBucket
  import Q = DispatchQueue

  const MinPriority: int := 1
  const MaxPriority: int := 5

  datatype TaskRequest = TaskRequest(
    pattern: string,
    payload: map<string, string>,
    priority: int,
    metadata: map<string, string>,
    timeout: Option<real>,
    callbackUrl: Option<string>)

  /** A request as the validating constructor admits it. */
  predicate WellFormed(r: TaskRequest) {
    |r.pattern| > 0 && MinPriority <= r.priority <= MaxPriority
  }

  /** `TaskRequest(...)`: rejects an empty pattern and a priority outside
      1..5; otherwise keeps every field as given. */
  function NewTaskRequest(pattern: string, payload: map<string, string>, priority: int,
                          metadata: map<string, string>, timeout: Option<real>,
                          callbackUrl: Option<string>): (r: Result<TaskRequest>)
    ensures r.Ok? <==> |pattern| > 0 && MinPriority <= priority <= MaxPriority
    ensures r.Ok? ==> WellFormed(r.value)
    ensures r.Ok? ==> (r.value.pattern == pattern && r.value.payload == payload
                       && r.value.priority == priority && r.value.metadata == metadata
                       && r.value.timeout == timeout && r.value.callbackUrl == callbackUrl)
  {
    if |pattern| == 0 then Err("pattern must not be empty")
    else if priority < MinPriority || priority > MaxPriority then Err("priority must be between 1 and 5")
    else Ok(TaskRequest(pattern, payload, priority, metadata, timeout, callbackUrl))
  }

  /** `TaskRequest(pattern=..., payload=...)` with every default:
      priority 1, empty metadata, no timeout, no callback. */
  function DefaultTaskRequest(pattern: string, payload: map<string, string>): (r: Result<TaskRequest>)
    ensures r.Ok? <==> |pattern| > 0
    ensures r.Ok? ==> (r.value.priority == 1 && r.value.metadata == map[]
                       && r.value.timeout.None? && r.value.callbackUrl.None?
                       && r.value.pattern == pattern && r.value.payload == payload)
  {
    NewTaskRequest(pattern, payload, 1, map[], None, None)
  }

  datatype RoutingRule = RoutingRule(pattern: string, targetAgent: string, endpoint: string)

  /** Task lifecycle; the outcome of a terminal task is kept in its status. */
  datatype TaskStatus = Queued | Running | Completed(result: string) | Failed(error: string)

  predicate Terminal(s: TaskStatus) {
    s.Completed? || s.Failed?
  }

  type TaskId = nat

  datatype TaskRecord = TaskRecord(
    taskId: TaskId,
    request: TaskRequest,
    agent: string,
    status: TaskStatus,
    createdAt: real,
    attempts: nat)

  datatype Orchestrator = Orchestrator(
    rules: map<string, RoutingRule>,
    breakers: map<string, CB.Breaker>,
    limiters: map<string, TB.Bucket>,
    queue: Q.Queue<TaskId>,
    tasks: map<TaskId, TaskRecord>,
    nextId: TaskId,
    maxRetries: nat)

  /** Registry invariant: records are filed under their own id, ids below
      the counter, and every queued entry refers to a recorded QUEUED task
      that has no other entry. */
  predicate Valid(o: Orchestrator) {
    && Q.Valid(o.queue)
    && (forall id :: id in o.tasks ==> id < o.nextId && o.tasks[id].taskId == id)
    && (forall e :: e in o.queue.entries ==> e.taskId in o.tasks && o.tasks[e.taskId].status == Queued)
    && (forall e1, e2 :: e1 in o.queue.entries && e2 in o.queue.entries && e1.taskId == e2.taskId ==> e1 == e2)
  }

  datatype Routed = Routed(agent: string, orch: Orchestrator)

  /** `route_request`: exact-match lookup of the pattern, then the target
      agent's breaker must admit (an admission check may move an OPEN
      breaker whose cooldown has passed to HALF_OPEN). */
  function RouteRequest(o: Orchestrator, req: TaskRequest, now: real): (r: Result<Routed>)
    ensures req.pattern !in o.rules ==> r.Err?
    ensures req.pattern in o.rules ==>
      var agent := o.rules[req.pattern].targetAgent;
      && (r.Ok? <==> (agent !in o.breakers || CB.CanExecute(o.breakers[agent], now).allowed))
      && (r.Ok? ==> r.value.agent == agent)
    ensures r.Ok? ==> (r.value.orch.tasks == o.tasks && r.value.orch.queue == o.queue
                       && r.value.orch.rules == o.rules && r.value.orch.limiters == o.limiters
                       && r.value.orch.nextId == o.nextId && r.value.orch.breakers.Keys == o.breakers.Keys)
    ensures r.Ok? && r.value.agent in o.breakers ==>
              r.value.orch.breakers == o.breakers[r.value.agent := CB.CanExecute(o.breakers[r.value.agent], now).breaker]
    ensures r.Ok? && r.value.agent !in o.breakers ==> r.value.orch == o
    ensures Valid(o) && r.Ok? ==> Valid(r.value.orch)
  {
    if req.pattern !in o.rules then Err("Unknown pattern: " + req.pattern)
    else
      var agent := o.rules[req.pattern].targetAgent;
      if agent !in o.breakers then Ok(Routed(agent, o))
      else
        var adm := CB.CanExecute(o.breakers[agent], now);
        if !adm.allowed then Err("Circuit breaker open for " + agent)
        else Ok(Routed(agent, o.(breakers := o.breakers[agent := adm.breaker])))
  }

  datatype Distributed = Distributed(taskId: TaskId, status: TaskStatus, orch: Orchestrator)

  /** `distribute_task`: the agent's token bucket must admit; the task then
      gets a fresh id, is queued by priority and recorded as QUEUED. */
  function DistributeTask(o: Orchestrator, req: TaskRequest, agent: string, now: real): (r: Result<Distributed>)
    requires Valid(o)
    ensures agent in o.limiters && !TB.Acquire(o.limiters[agent], now).allowed ==> r.Err?
    ensures Q.Size(o.queue) >= o.queue.maxSize ==> r.Err?
    ensures ((agent !in o.limiters || TB.Acquire(o.limiters[agent], now).allowed)
             && Q.Size(o.queue) < o.queue.maxSize) ==> r.Ok?
    ensures r.Ok? ==>
      && r.value.taskId !in o.tasks
      && r.value.status == Queued
      && r.value.orch.tasks == o.tasks[r.value.taskId := TaskRecord(r.value.taskId, req, agent, Queued, now, 0)]
      && r.value.orch.queue.entries ==
           o.queue.entries + [Q.Entry(r.value.taskId, req.priority, o.queue.counter, req.payload)]
      && r.value.orch.rules == o.rules && r.value.orch.breakers == o.breakers
      && r.value.orch.limiters ==
           (if agent in o.limiters then o.limiters[agent := TB.Acquire(o.limiters[agent], now).bucket] else o.limiters)
    ensures r.Ok? ==> Valid(r.value.orch)
  {
    var limiters :=
      if agent !in o.limiters then Some(o.limiters)
      else
        var a := TB.Acquire(o.limiters[agent], now);
        if a.allowed then Some(o.limiters[agent := a.bucket]) else None;
    if limiters.None? then Err("Rate limit exceeded for " + agent)
    else
      var id := o.nextId;
      var enq := Q.Enqueue(o.queue, id, req.priority, req.payload);
      if enq.Err? then Err(enq.msg)
      else
        var rec := TaskRecord(id, req, agent, Queued, now, 0);
        assert forall e :: e in o.queue.entries ==> e.taskId != id;
        Ok(Distributed(id, Queued,
          o.(limiters := limiters.value, queue := enq.value, tasks := o.tasks[id := rec], nextId := id + 1)))
  }

  datatype TaskView = TaskView(taskId: TaskId, status: TaskStatus, agent: string)

  /** `monitor_execution`: the recorded status of a known task. */
  function MonitorExecution(o: Orchestrator, id: TaskId): (r: Result<TaskView>)
    ensures r.Ok? <==> id in o.tasks
    ensures r.Ok? ==> (r.value.taskId == id && r.value.status == o.tasks[id].status
                       && r.value.agent == o.tasks[id].agent)
  {
    if id !in o.tasks then Err("Task not found") else Ok(TaskView(id, o.tasks[id].status, o.tasks[id].agent))
  }

  datatype Aggregate = Aggregate(totalTasks: nat, results: map<TaskId, string>, errors: map<TaskId, string>)

  /** `aggregate_results`: completed tasks report their result, failed
      and unknown ids report an error, tasks still in flight report in
      neither map. */
  function AggregateResults(o: Orchestrator, ids: seq<TaskId>): (a: Aggregate)
    ensures a.totalTasks == |ids|
    ensures forall id :: id in a.results <==> id in ids && id in o.tasks && o.tasks[id].status.Completed?
    ensures forall id :: id in a.errors <==> id in ids && (id !in o.tasks || o.tasks[id].status.Failed?)
    ensures forall id :: id in a.results ==> a.results[id] == o.tasks[id].status.result
    ensures a.results.Keys !! a.errors.Keys
  {
    var results := map id | id in ids && id in o.tasks && o.tasks[id].status.Completed? :: o.tasks[id].status.result;
    var errors := map id | id in ids && (id !in o.tasks || o.tasks[id].status.Failed?) ::
      if id in o.tasks then o.tasks[id].status.error else "Task not found";
    Aggregate(|ids|, results, errors)
  }

  /** A worker takes the next entry off the queue and marks its task RUNNING. */
  datatype Taken = Taken(taskId: Option<TaskId>, orch: Orchestrator)

  function DequeueNext(o: Orchestrator): (t: Taken)
    requires Valid(o)
    ensures t.taskId.None? <==> Q.Size(o.queue) == 0
    ensures t.taskId.None? ==> t.orch == o
    ensures t.taskId.Some? ==>
      && Q.Dequeue(o.queue).entry.Some?
      && t.taskId.value == Q.Dequeue(o.queue).entry.value.taskId
      && t.taskId.value in o.tasks
      && o.tasks[t.taskId.value].status == Queued
      && t.orch.tasks == o.tasks[t.taskId.value := o.tasks[t.taskId.value].(status := Running)]
    ensures t.orch.queue == Q.Dequeue(o.queue).queue
    ensures t.orch.rules == o.rules && t.orch.breakers == o.breakers
            && t.orch.limiters == o.limiters && t.orch.nextId == o.nextId
    ensures Valid(t.orch)
  {
    var d := Q.Dequeue(o.queue);
    match d.entry
    case None => Taken(None, o)
    case Some(e) =>
      DequeueKeepsValid(o, e, d.queue);
      Taken(Some(e.taskId), o.(queue := d.queue, tasks := o.tasks[e.taskId := Start(o.tasks[e.taskId])]))
  }

  /** The served entry leaves the queue, and no other entry names its
      task, so the remaining entries still refer to QUEUED tasks. */
  lemma DequeueKeepsValid(o: Orchestrator, e: Q.Entry<TaskId>, rest: Q.Queue<TaskId>)
    requires Valid(o) && Q.Valid(rest)
    requires multiset(rest.entries) + multiset{e} == multiset(o.queue.entries)
    requires Q.ServedFirst(e, rest.entries)
    requires rest.counter == o.queue.counter
    ensures e in o.queue.entries && e.taskId in o.tasks && o.tasks[e.taskId].status == Queued
    ensures Valid(o.(queue := rest, tasks := o.tasks[e.taskId := Start(o.tasks[e.taskId])]))
  {
    assert e in multiset(o.queue.entries);
    forall x | x in rest.entries
      ensures x in o.queue.entries && x.taskId != e.taskId
    {
      assert x in multiset(rest.entries);
      assert multiset(o.queue.entries)[x] >= multiset(rest.entries)[x];
      assert x in multiset(o.queue.entries);
      var j :| 0 <= j < |rest.entries| && rest.entries[j] == x;
      assert rest.entries[j] != e;
    }
  }

  /** QUEUED -> RUNNING; any other status is left alone. */
  function Start(t: TaskRecord): (r: TaskRecord)
    ensures t.status == Queued ==> r.status == Running
    ensures t.status != Queued ==> r == t
    ensures r.taskId == t.taskId && r.agent == t.agent && r.createdAt == t.createdAt
  {
    if t.status == Queued then t.(status := Running) else t
  }

  /** Outcome of one network call to the downstream agent. */
  datatype Outcome = Success(result: string) | Failure(error: string)

  /** One dispatch attempt of a RUNNING task: a success closes the agent's
      breaker and completes the task; a failure counts against the breaker
      and fails the task once `maxRetries` attempts are spent. */
  function RecordAttempt(o: Orchestrator, id: TaskId, outcome: Outcome, now: real): (r: Result<Orchestrator>)
    ensures r.Ok? <==> id in o.tasks && o.tasks[id].status == Running
    ensures r.Ok? ==> id in r.value.tasks
    ensures r.Ok? ==>
      var t := r.value.tasks[id];
      && t.attempts == o.tasks[id].attempts + 1
      && (outcome.Success? ==> t.status == Completed(outcome.result))
      && (outcome.Failure? ==>
            t.status == (if t.attempts >= o.maxRetries then Failed(outcome.error) else Running))
      && r.value.tasks.Keys == o.tasks.Keys
      && (forall other :: other in o.tasks && other != id ==> r.value.tasks[other] == o.tasks[other])
    ensures r.Ok? ==>
      var agent := o.tasks[id].agent;
      r.value.breakers ==
        (if agent !in o.breakers then o.breakers
         else if outcome.Success? then o.breakers[agent := CB.RecordSuccess(o.breakers[agent])]
         else o.breakers[agent := CB.RecordFailure(o.breakers[agent], now)])
    ensures r.Ok? ==>
      && r.value.rules == o.rules && r.value.limiters == o.limiters && r.value.queue == o.queue
      && r.value.nextId == o.nextId && r.value.maxRetries == o.maxRetries
    ensures Valid(o) && r.Ok? ==> Valid(r.value)
  {
    if id !in o.tasks || o.tasks[id].status != Running then Err("Task is not running")
    else
      var t := o.tasks[id];
      var attempts := t.attempts + 1;
      var agent := t.agent;
      match outcome
      case Success(res) =>
        var breakers := if agent in o.breakers then o.breakers[agent := CB.RecordSuccess(o.breakers[agent])] else o.breakers;
        Ok(o.(breakers := breakers, tasks := o.tasks[id := t.(attempts := attempts, status := Completed(res))]))
      case Failure(err) =>
        var breakers := if agent in o.breakers then o.breakers[agent := CB.RecordFailure(o.breakers[agent], now)] else o.breakers;
        var status := if attempts >= o.maxRetries then Failed(err) else Running;
        Ok(o.(breakers := breakers, tasks := o.tasks[id := t.(attempts := attempts, status := status)]))
  }

  /** Per-task timeout: a task that is not terminal when its timeout has
      elapsed is marked FAILED; a terminal task is left alone. */
  function CheckTimeout(t: TaskRecord, now: real): (r: TaskRecord)
    ensures Terminal(t.status) ==> r == t
    ensures (!Terminal(t.status) && t.request.timeout.Some? && now - t.createdAt >= t.request.timeout.value)
              ==> r.status == Failed("Task timed out")
    ensures !r.status.Completed? || t.status.Completed?
    ensures r.taskId == t.taskId && r.agent == t.agent
  {
    if Terminal(t.status) then t
    else match t.request.timeout
      case Some(limit) =>
        if now - t.createdAt >= limit then t.(status := Failed("Task timed out")) else t
      case None => t
  }

  datatype Recovery = Recovery(taskId: TaskId, orch: Orchestrator)

  /** `handle_failure`: records the error on a known, not yet terminal task,
      withdraws any queue entry it still has, and echoes its id. */
  function HandleFailure(o: Orchestrator, id: TaskId, error: string): (r: Result<Recovery>)
    requires Valid(o)
    ensures r.Ok? <==> id in o.tasks
    ensures r.Ok? ==> r.value.taskId == id && id in r.value.orch.tasks
    ensures r.Ok? && !Terminal(o.tasks[id].status) ==>
      && r.value.orch.tasks == o.tasks[id := o.tasks[id].(status := Failed(error))]
      && (forall e :: e in r.value.orch.queue.entries <==> e in o.queue.entries && e.taskId != id)
      && r.value.orch.rules == o.rules && r.value.orch.breakers == o.breakers
      && r.value.orch.limiters == o.limiters && r.value.orch.nextId == o.nextId
    ensures r.Ok? && Terminal(o.tasks[id].status) ==> r.value.orch == o
    ensures r.Ok? ==> Valid(r.value.orch)
  {
    if id !in o.tasks then Err("Task not found")
    else if Terminal(o.tasks[id].status) then Ok(Recovery(id, o))
    else
      var rm := Q.Remove(o.queue, id);
      Ok(Recovery(id, o.(queue := rm.queue, tasks := o.tasks[id := o.tasks[id].(status := Failed(error))])))
  }

  /** A task failed by `handle_failure` is never handed to a worker
      afterwards, even if it was still waiting in the queue. */
  lemma FailedTaskNeverDequeued(o: Orchestrator, id: TaskId, error: string)
    requires Valid(o) && id in o.tasks
    ensures HandleFailure(o, id, error).Ok?
    ensures DequeueNext(HandleFailure(o, id, error).value.orch).taskId != Some(id)
  {
  }

  /** Terminal states are absorbing: no operation of the registry moves a
      COMPLETED or FAILED task, so repeated polling sees the same record. */
  lemma TerminalIsFinal(o: Orchestrator, id: TaskId, outcome: Outcome, error: string, now: real)
    requires Valid(o) && id in o.tasks && Terminal(o.tasks[id].status)
    ensures Start(o.tasks[id]) == o.tasks[id]
    ensures CheckTimeout(o.tasks[id], now) == o.tasks[id]
    ensures RecordAttempt(o, id, outcome, now).Err?
    ensures HandleFailure(o, id, error) == Ok(Recovery(id, o))
    ensures MonitorExecution(o, id).Ok? && MonitorExecution(o, id).value.status == o.tasks[id].status
  {
  }

  /** Integration: once the target agent's breaker refuses admission,
      routing any pattern bound to that agent fails and nothing is queued. */
  lemma OpenBreakerBlocksRouting(o: Orchestrator, req: TaskRequest, now: real)
    requires req.pattern in o.rules
    requires o.rules[req.pattern].targetAgent in o.breakers
    requires o.breakers[o.rules[req.pattern].targetAgent] ==
               CB.Failures(CB.Init(o.breakers[o.rules[req.pattern].targetAgent].threshold,
                                   o.breakers[o.rules[req.pattern].targetAgent].timeout),
                           o.breakers[o.rules[req.pattern].targetAgent].threshold, now)
    requires o.breakers[o.rules[req.pattern].targetAgent].threshold > 0
    requires o.breakers[o.rules[req.pattern].targetAgent].timeout > 0.0
    ensures RouteRequest(o, req, now).Err?
  {
    var b := o.breakers[o.rules[req.pattern].targetAgent];
    CB.ThresholdFailuresBlock(b.threshold, b.timeout, now);
  }

  /** Integration: after `burst` acquisitions on a fresh bucket at this
      instant, distributing a task to that agent is refused. */
  lemma ExhaustedLimiterBlocksDistribution(o: Orchestrator, req: TaskRequest, agent: string, now: real)
    requires Valid(o)
    requires agent in o.limiters
    requires o.limiters[agent] ==
               TB.Drain(TB.Init(o.limiters[agent].rate, o.limiters[agent].burst, now), o.limiters[agent].burst, now)
    ensures DistributeTask(o, req, agent, now).Err?
  {
    TB.BurstExhausts(o.limiters[agent].rate, o.limiters[agent].burst, now);
  }

  /** Integration: with an empty queue, a priority-1 task submitted before a
      priority-5 task is overtaken; the first dequeue serves the later one. */
  lemma HigherPriorityDequeuedFirst(o: Orchestrator, low: TaskRequest, high: TaskRequest, agent: string, now: real)
    requires Valid(o) && Q.Size(o.queue) == 0 && o.queue.maxSize >= 2
    requires agent !in o.limiters
    requires low.priority < high.priority
    ensures DistributeTask(o, low, agent, now).Ok?
    ensures var d1 := DistributeTask(o, low, agent, now).value;
            DistributeTask(d1.orch, high, agent, now).Ok?
    ensures var d1 := DistributeTask(o, low, agent, now).value;
            var d2 := DistributeTask(d1.orch, high, agent, now).value;
            DequeueNext(d2.orch).taskId == Some(d2.taskId)
  {
    var d1 := DistributeTask(o, low, agent, now).value;
    assert |d1.orch.queue.entries| == 1;
    var d2 := DistributeTask(d1.orch, high, agent, now).value;
    var es := d2.orch.queue.entries;
    assert |es| == 2 && es[0].priority == low.priority && es[1].priority == high.priority;
    assert Q.BestIndex(es) == 1;
  }

  /** Aggregating `n` submitted ids reports `n` tasks, and every known id
      lands in exactly one of results, errors, or neither (still pending). */
  lemma AggregatePartitions(o: Orchestrator, ids: seq<TaskId>)
    ensures var a := AggregateResults(o, ids);
      forall id :: id in ids && id in o.tasks ==>
        (id in a.results <==> o.tasks[id].status.Completed?)
        && (id in a.errors <==> o.tasks[id].status.Failed?)
        && (id !in a.results && id !in a.errors <==> !Terminal(o.tasks[id].status))
  {
  }

  datatype Health = Healthy | Degraded

  /** Agents whose breaker is CLOSED. */
  function HealthyAgents(o: Orchestrator): set<string> {
    set a | a in o.breakers && o.breakers[a].state == CB.Closed
  }

  /** Tasks still QUEUED or RUNNING. */
  function ActiveTasks(o: Orchestrator): set<TaskId> {
    set id | id in o.tasks && !Terminal(o.tasks[id].status)
  }

  datatype HealthSnapshot = HealthSnapshot(
    status: Health, agentsTotal: nat, agentsHealthy: nat, activeTasks: nat, queueSize: nat)

  /** `get_health_status`: an agent counts as healthy while its breaker is
      CLOSED; the system is healthy when the healthy share reaches
      `minHealthyRatio`. Active tasks are those QUEUED or RUNNING. */
  function HealthStatus(o: Orchestrator, minHealthyRatio: real): (h: HealthSnapshot)
    ensures h.agentsTotal == |o.breakers|
    ensures h.agentsHealthy == |HealthyAgents(o)| && h.activeTasks == |ActiveTasks(o)|
    ensures h.agentsHealthy <= h.agentsTotal
    ensures h.activeTasks <= |o.tasks|
    ensures h.queueSize == Q.Size(o.queue)
    ensures h.status == Healthy <==> h.agentsHealthy as real >= minHealthyRatio * h.agentsTotal as real
  {
    var healthy := HealthyAgents(o);
    var active := ActiveTasks(o);
    assert healthy <= o.breakers.Keys;
    assert active <= o.tasks.Keys;
    SubsetCard(healthy, o.breakers.Keys);
    SubsetCard(active, o.tasks.Keys);
    var status := if |healthy| as real >= minHealthyRatio * |o.breakers| as real then Healthy else Degraded;
    HealthSnapshot(status, |o.breakers|, |healthy|, |active|, Q.Size(o.queue))
  }

  /** Distributing a task adds one active task and one queued entry to the
      health snapshot; the agent count is unchanged. */
  lemma DistributeAddsActiveTask(o: Orchestrator, req: TaskRequest, agent: string, now: real, ratio: real)
    requires Valid(o) && DistributeTask(o, req, agent, now).Ok?
    ensures var h0 := HealthStatus(o, ratio);
            var h1 := HealthStatus(DistributeTask(o, req, agent, now).value.orch, ratio);
            h1.activeTasks == h0.activeTasks + 1 && h1.queueSize == h0.queueSize + 1
            && h1.agentsTotal == h0.agentsTotal && h1.agentsHealthy == h0.agentsHealthy
  {
    var d := DistributeTask(o, req, agent, now).value;
    ActiveAfterInsert(o, d.orch, d.taskId, TaskRecord(d.taskId, req, agent, Queued, now, 0));
    HealthyFrame(o, d.orch);
  }

  /** Recording a new unfinished task adds exactly that task to the active set. */
  lemma ActiveAfterInsert(o: Orchestrator, p: Orchestrator, id: TaskId, rec: TaskRecord)
    requires id !in o.tasks && p.tasks == o.tasks[id := rec] && !Terminal(rec.status)
    ensures ActiveTasks(p) == ActiveTasks(o) + {id}
    ensures |ActiveTasks(p)| == |ActiveTasks(o)| + 1
  {
    assert ActiveTasks(p) == ActiveTasks(o) + {id};
  }

  /** The healthy agents depend on the breakers alone. */
  lemma HealthyFrame(o: Orchestrator, p: Orchestrator)
    requires p.breakers == o.breakers
    ensures HealthyAgents(p) == HealthyAgents(o)
  {
  }

  /** Failing an unfinished task removes it from the active count. */
  lemma FailureRetiresActiveTask(o: Orchestrator, id: TaskId, error: string, ratio: real)
    requires Valid(o) && id in o.tasks && !Terminal(o.tasks[id].status)
    ensures HandleFailure(o, id, error).Ok?
    ensures HealthStatus(HandleFailure(o, id, error).value.orch, ratio).activeTasks
              == HealthStatus(o, ratio).activeTasks - 1
  {
    var r := HandleFailure(o, id, error).value.orch;
    assert ActiveTasks(r) == ActiveTasks(o) - {id};
    assert id in ActiveTasks(o);
  }

  lemma SubsetCard<T>(a: set<T>, b: set<T>)
    requires a <= b
    ensures |a| <= |b|
  {
    if a != {} {
      var x :| x in a;
      SubsetCard(a - {x}, b - {x});
    }
  }
}

=== FILE: personalization.dfy ===
/** Deterministic parts of the personalization agent: the fallback
    learner profile of `UserProfileAnalyzer`, the cache keys of
    `CachingClient` and the string transforms of `ContentAdapter`.
    Content generation by the language model is outside the model. */
module Personalization {
  import opened Wrappers
  import opened Text

  datatype Profile = Profile(userId: string, gradeLevel: string, interests: seq<string>,
                             learningStyle: string, culture: string, language: string, difficulty: string)

  /** The profile used when the knowledge graph cannot be reached. */
  function DefaultProfile(userId: string): (p: Profile)
    ensures p.userId == userId && p.gradeLevel == "8" && p.interests == ["general"]
  {
    Profile(userId, "8", ["general"], "visual", "general", "en", "intermediate")
  }

  /** `get_user_profile(user_id)`: the fetched profile, or the default one
      when the fetch failed. */
  function GetUserProfile(userId: string, fetched: Result<Profile>): (p: Profile)
    ensures fetched.Ok? ==> p == fetched.value
    ensures fetched.Err? ==> p.userId == userId && p.gradeLevel == "8" && p.interests == ["general"]
  {
    if fetched.Ok? then fetched.value else DefaultProfile(userId)
  }

  const KeyPrefix: string := "personalization:"

  /** `generate_cache_key(user_id, concept_id, content_type)`. */
  function CacheKey(userId: string, conceptId: string, contentType: string): (k: string)
    ensures IsPrefix(KeyPrefix, k)
    ensures |k| == |KeyPrefix| + |userId| + |conceptId| + |contentType| + 2
  {
    KeyPrefix + userId + ":" + conceptId + ":" + contentType
  }

  /** Keys for the same concept and content type differ between users. */
  lemma CacheKeySeparatesUsers(u1: string, u2: string, conceptId: string, contentType: string)
    requires u1 != u2
    ensures CacheKey(u1, conceptId, contentType) != CacheKey(u2, conceptId, contentType)
  {
    var tail := ":" + conceptId + ":" + contentType;
    assert CacheKey(u1, conceptId, contentType) == KeyPrefix + u1 + tail;
    assert CacheKey(u2, conceptId, contentType) == KeyPrefix + u2 + tail;
    if |u1| == |u2| {
      var i :| 0 <= i < |u1| && u1[i] != u2[i];
      assert (KeyPrefix + u1 + tail)[|KeyPrefix| + i] == u1[i];
      assert (KeyPrefix + u2 + tail)[|KeyPrefix| + i] == u2[i];
    }
  }

  predicate NoColon(s: string) {
    forall i :: 0 <= i < |s| ==> s[i] != ':'
  }

  /** When identifiers hold no ':', the key determines all three parts. */
  lemma CacheKeyInjective(u1: string, c1: string, t1: string, u2: string, c2: string, t2: string)
    requires NoColon(u1) && NoColon(c1) && NoColon(u2) && NoColon(c2)
    requires CacheKey(u1, c1, t1) == CacheKey(u2, c2, t2)
    ensures u1 == u2 && c1 == c2 && t1 == t2
  {
    var k := CacheKey(u1, c1, t1);
    var p := |KeyPrefix|;
    assert k == KeyPrefix + u1 + ":" + c1 + ":" + t1;
    assert k == KeyPrefix + u2 + ":" + c2 + ":" + t2;
    assert forall i :: 0 <= i < |u1| ==> k[p + i] == u1[i];
    assert forall i :: 0 <= i < |u2| ==> k[p + i] == u2[i];
    assert k[p + |u1|] == ':' && k[p + |u2|] == ':';
    assert |u1| == |u2|;
    assert u1 == u2;
    var q := p + |u1| + 1;
    assert forall i :: 0 <= i < |c1| ==> k[q + i] == c1[i];
    assert forall i :: 0 <= i < |c2| ==> k[q + i] == c2[i];
    assert k[q + |c1|] == ':' && k[q + |c2|] == ':';
    assert |c1| == |c2|;
    assert c1 == c2;
    assert t1 == k[q + |c1| + 1..];
    assert t2 == k[q + |c2| + 1..];
  }

  /** `", ".join(items)`. */
  function Join(items: seq<string>): string {
    if |items| == 0 then ""
    else if |items| == 1 then items[0]
    else items[0] + ", " + Join(items[1..])
  }

  const Connection: string := "Connection to your interests"

  /** `adapt_examples(base_content, profile)`: the base content followed by
      a note tying it to the learner's interests. */
  function AdaptExamples(base: string, profile: Profile): (r: string)
    ensures IsPrefix(base, r) && |r| > |base|
    ensures Contains(r, Connection)
  {
    var note := "\n\n" + Connection + ": " + Join(profile.interests);
    ContainsMiddle("\n\n", Connection, ": " + Join(profile.interests));
    assert note == "\n\n" + Connection + (": " + Join(profile.interests));
    ContainsExtendLeft(base, note, Connection);
    base + note
  }

  const CulturalTag: string := " [culturally adapted]"

  /** Terms each cultural context filters; contexts without an entry, such
      as "general", filter nothing. */
  const CulturalFilters: map<string, seq<string>> := map["middle_eastern" := ["pork"]]

  /** Some filtered term of the context occurs in the lower-cased content. */
  predicate Flagged(content: string, terms: seq<string>) {
    exists j :: 0 <= j < |terms| && Contains(Lower(content), terms[j])
  }

  /** `_apply_cultural_context(content, culture)`: content naming a term the
      context filters is marked as adapted; other content is unchanged. */
  function ApplyCulturalContext(content: string, culture: string): (r: string)
    ensures IsPrefix(content, r)
    ensures culture in CulturalFilters && Flagged(content, CulturalFilters[culture]) ==> Contains(r, CulturalTag)
    ensures !(culture in CulturalFilters && Flagged(content, CulturalFilters[culture])) ==> r == content
  {
    if culture in CulturalFilters && Flagged(content, CulturalFilters[culture]) then
      SuffixIsContained(CulturalTag, content + CulturalTag);
      content + CulturalTag
    else content
  }

  /** The "general" context keeps every term, so "pork" stays; under
      "middle_eastern" text naming pork is marked. */
  lemma CulturalContextCases(content: string)
    ensures ApplyCulturalContext(content, "general") == content
    ensures Contains(Lower(content), "pork") ==> Contains(ApplyCulturalContext(content, "middle_eastern"), CulturalTag)
  {
    if Contains(Lower(content), "pork") {
      assert CulturalFilters["middle_eastern"][0] == "pork";
    }
  }

  /** Number of full stops. */
  function Dots(s: string): nat {
    if |s| == 0 then 0 else (if s[0] == '.' then 1 else 0) + Dots(s[1..])
  }

  lemma {:induction false} DotsAppend(a: string, b: string)
    ensures Dots(a + b) == Dots(a) + Dots(b)
  {
    if |a| == 0 {
      assert a + b == b;
    } else {
      DotsAppend(a[1..], b);
      assert (a + b)[1..] == a[1..] + b;
    }
  }

  lemma {:induction false} NoDots(s: string)
    requires forall i :: 0 <= i < |s| ==> s[i] != '.'
    ensures Dots(s) == 0
  {
    if |s| > 0 {
      NoDots(s[1..]);
    }
  }

  /** " and " starts at position i. */
  predicate AndAt(s: string, i: int) {
    0 <= i && i + 5 <= |s| && s[i] == ' ' && s[i + 1] == 'a' && s[i + 2] == 'n' && s[i + 3] == 'd' && s[i + 4] == ' '
  }

  /** Splits compound sentences: every " and " becomes a sentence break. */
  function SplitCompound(s: string): string {
    if |s| == 0 then ""
    else if AndAt(s, 0) then ". " + SplitCompound(s[5..])
    else [s[0]] + SplitCompound(s[1..])
  }

  /** Splitting never loses a full stop, adds one where it splits, and
      leaves text without " and " unchanged. */
  lemma {:induction false} SplitCompoundDots(s: string)
    ensures Dots(SplitCompound(s)) >= Dots(s)
    ensures (exists i :: AndAt(s, i)) ==> Dots(SplitCompound(s)) > Dots(s)
    ensures (forall i :: !AndAt(s, i)) ==> SplitCompound(s) == s
  {
    if |s| > 0 {
      if AndAt(s, 0) {
        SplitCompoundDots(s[5..]);
        DotsAppend(". ", SplitCompound(s[5..]));
        assert s == s[..5] + s[5..];
        DotsAppend(s[..5], s[5..]);
        NoDots(s[..5]);
        assert Dots(". ") == 1;
      } else {
        SplitCompoundDots(s[1..]);
        DotsAppend([s[0]], SplitCompound(s[1..]));
        assert s == [s[0]] + s[1..];
        DotsAppend([s[0]], s[1..]);
        if exists i :: AndAt(s, i) {
          var i :| AndAt(s, i);
          assert AndAt(s[1..], i - 1);
        }
        if forall i :: !AndAt(s, i) {
          forall i ensures !AndAt(s[1..], i) {
            assert AndAt(s[1..], i) ==> AndAt(s, i + 1);
          }
        }
      }
    }
  }

  /** `scale_difficulty(content, level, grade)`: beginners get compound
      sentences split; other levels keep the text. */
  function ScaleDifficulty(content: string, level: string, grade: string): (r: string)
    ensures level != "beginner" ==> r == content
    ensures Dots(r) >= Dots(content)
    ensures level == "beginner" && (exists i :: AndAt(content, i)) ==> Dots(r) > Dots(content)
  {
    SplitCompoundDots(content);
    if level == "beginner" then SplitCompound(content) else content
  }

  /** A sentence joined by " and ", such as the long sentence of the
      difficulty-scaling scenario, gains a full stop when scaled for a
      beginner of any grade. */
  lemma CompoundSentenceSplits(front: string, back: string, grade: string)
    ensures var content := front + " and " + back;
            Dots(ScaleDifficulty(content, "beginner", grade)) > Dots(content)
  {
    assert AndAt(front + " and " + back, |front|);
  }

  const VisualTip: string := "\U{1F3A8} " + "Visual Tip" + ": draw a diagram of this idea."
  const AuditoryTip: string := "\U{1F3B5} " + "Auditory Tip" + ": explain it out loud to yourself."
  const KinestheticTip: string := "\U{1F3C3} " + "Kinesthetic Tip" + ": try acting it out with objects."

  function StyleTip(style: string): Option<string> {
    if style == "visual" then Some(VisualTip)
    else if style == "auditory" then Some(AuditoryTip)
    else if style == "kinesthetic" then Some(KinestheticTip)
    else None
  }

  /** `match_learning_style(content, style)`: the content followed by the
      tip for the style; an unknown style leaves the content as is. */
  function MatchLearningStyle(content: string, style: string): (r: string)
    ensures IsPrefix(content, r)
    ensures StyleTip(style).Some? ==> IsSuffix(StyleTip(style).value, r) && |r| > |content|
    ensures StyleTip(style).None? ==> r == content
  {
    match StyleTip(style)
    case Some(tip) => content + "\n\n" + tip
    case None => content
  }

  /** Each style's tip names the style. */
  lemma StyleTipsNamed(content: string)
    ensures Contains(MatchLearningStyle(content, "visual"), "Visual Tip")
    ensures Contains(MatchLearningStyle(content, "auditory"), "Auditory Tip")
    ensures Contains(MatchLearningStyle(content, "kinesthetic"), "Kinesthetic Tip")
  {
    TipNamed(content, VisualTip, "\U{1F3A8} ", "Visual Tip", ": draw a diagram of this idea.");
    TipNamed(content, AuditoryTip, "\U{1F3B5} ", "Auditory Tip", ": explain it out loud to yourself.");
    TipNamed(content, KinestheticTip, "\U{1F3C3} ", "Kinesthetic Tip", ": try acting it out with objects.");
  }

  lemma TipNamed(content: string, tip: string, pre: string, name: string, post: string)
    requires tip == pre + name + post
    ensures Contains(content + "\n\n" + tip, name)
  {
    ContainsMiddle(pre, name, post);
    ContainsExtendLeft(content + "\n\n", tip, name);
  }
}

=== FILE: realtime.dfy ===
/** Per-device logical clocks of the realtime coordination agent. A clock
    maps device ids to counters; an absent device reads as 0. */
module VectorClocks {
  type Clock = map<string, nat>

  function Get(c: Clock, d: string): nat {
    if d in c then c[d] else 0
  }

  /** `increment(d)`: the device's counter goes up by one (an absent device
      starts from 0, so its first increment reads 1); every other device
      keeps its counter. */
  function Increment(c: Clock, d: string): (r: Clock)
    ensures r.Keys == c.Keys + {d}
    ensures Get(r, d) == Get(c, d) + 1
    ensures forall e :: e != d ==> Get(r, e) == Get(c, e)
  {
    c[d := Get(c, d) + 1]
  }

  function Max(x: nat, y: nat): nat {
    if x >= y then x else y
  }

  /** `merge(other)`: the pointwise maximum over the union of devices. */
  function Merge(a: Clock, b: Clock): (r: Clock)
    ensures r.Keys == a.Keys + b.Keys
    ensures forall d :: Get(r, d) == Max(Get(a, d), Get(b, d))
  {
    map d | d in a.Keys + b.Keys :: Max(Get(a, d), Get(b, d))
  }

  /** Happened-before-or-equal: every component of `a` is at most the
      matching component of `b`. */
  ghost predicate LessEq(a: Clock, b: Clock) {
    forall d :: Get(a, d) <= Get(b, d)
  }

  datatype Order = Before | After | Equal | Concurrent

  /** `compare(other)`: scans the devices of both clocks for a component
      where `a` is ahead and one where `b` is ahead. */
  function Compare(a: Clock, b: Clock): (o: Order)
    ensures o == Equal <==> LessEq(a, b) && LessEq(b, a)
    ensures o == Before <==> LessEq(a, b) && !LessEq(b, a)
    ensures o == After <==> LessEq(b, a) && !LessEq(a, b)
    ensures o == Concurrent <==> !LessEq(a, b) && !LessEq(b, a)
  {
    var aAhead := exists d | d in a.Keys + b.Keys :: Get(a, d) > Get(b, d);
    var bAhead := exists d | d in a.Keys + b.Keys :: Get(b, d) > Get(a, d);
    assert !aAhead ==> LessEq(a, b) by {
      if !aAhead {
        forall d ensures Get(a, d) <= Get(b, d) {
          if d !in a.Keys + b.Keys { assert Get(a, d) == 0; }
        }
      }
    }
    assert !bAhead ==> LessEq(b, a) by {
      if !bAhead {
        forall d ensures Get(b, d) <= Get(a, d) {
          if d !in a.Keys + b.Keys { assert Get(b, d) == 0; }
        }
      }
    }
    if aAhead && bAhead then Concurrent
    else if aAhead then After
    else if bAhead then Before
    else Equal
  }

  /** Equal as ordered means equal as counters. */
  lemma EqualMeansSameCounters(a: Clock, b: Clock)
    ensures Compare(a, b) == Equal <==> forall d :: Get(a, d) == Get(b, d)
  {
    if forall d :: Get(a, d) == Get(b, d) {
      assert LessEq(a, b) && LessEq(b, a);
    }
  }

  /** Swapping the operands mirrors the answer. */
  lemma CompareMirror(a: Clock, b: Clock)
    ensures Compare(a, b) == Before <==> Compare(b, a) == After
    ensures Compare(a, b) == Equal <==> Compare(b, a) == Equal
    ensures Compare(a, b) == Concurrent <==> Compare(b, a) == Concurrent
  {
  }

  /** An increment moves a clock strictly forward. */
  lemma IncrementIsAfter(c: Clock, d: string)
    ensures Compare(Increment(c, d), c) == After
  {
    assert Get(Increment(c, d), d) > Get(c, d);
  }

  /** Merging yields the least upper bound of both clocks. */
  lemma MergeIsLeastUpperBound(a: Clock, b: Clock, c: Clock)
    ensures LessEq(a, Merge(a, b)) && LessEq(b, Merge(a, b))
    ensures LessEq(a, c) && LessEq(b, c) ==> LessEq(Merge(a, b), c)
  {
  }

  /** Merge is commutative and idempotent as counters. */
  lemma MergeCommutesAndAbsorbs(a: Clock, b: Clock)
    ensures Merge(a, b) == Merge(b, a)
    ensures Merge(a, a) == a
  {
  }
}

/** Conflict resolution between a local and a remote update of the same
    user's state. */
module Conflicts {
  import opened Wrappers
  import VC = VectorClocks

  datatype StateUpdate = StateUpdate(
    userId: string,
    deviceId: string,
    state: map<string, string>,
    timestamp: real,
    clock: Option<VC.Clock>)

  datatype Strategy = LastWriteWins | VectorClock

  /** LAST_WRITE_WINS keeps the update with the later timestamp (the local
      one on a tie). VECTOR_CLOCK keeps the remote update only when the
      local clock happened before it and the local one otherwise; without
      clocks on both sides it falls back to timestamps. */
  function Resolve(strategy: Strategy, local: StateUpdate, remote: StateUpdate): (r: StateUpdate)
    ensures r == local || r == remote
    ensures strategy == LastWriteWins ==> (r == remote <==> remote.timestamp > local.timestamp || local == remote)
    ensures strategy == VectorClock && local.clock.Some? && remote.clock.Some? ==>
              (r == remote <==> VC.Compare(local.clock.value, remote.clock.value) == VC.Before || local == remote)
  {
    match strategy
    case LastWriteWins => LatestOf(local, remote)
    case VectorClock =>
      if local.clock.Some? && remote.clock.Some? then
        if VC.Compare(local.clock.value, remote.clock.value) == VC.Before then remote else local
      else LatestOf(local, remote)
  }

  function LatestOf(local: StateUpdate, remote: StateUpdate): StateUpdate {
    if remote.timestamp > local.timestamp then remote else local
  }

  /** Under LAST_WRITE_WINS the kept update is never older than the other,
      and the winner does not depend on which side is called local. */
  lemma LwwKeepsNewest(local: StateUpdate, remote: StateUpdate)
    ensures Resolve(LastWriteWins, local, remote).timestamp >= local.timestamp
    ensures Resolve(LastWriteWins, local, remote).timestamp >= remote.timestamp
    ensures local.timestamp != remote.timestamp ==>
              Resolve(LastWriteWins, local, remote) == Resolve(LastWriteWins, remote, local)
  {
  }

  /** Under VECTOR_CLOCK a remote update that the local one has already
      seen (or a concurrent one) never overwrites the local state, and a
      remote update that causally follows the local one always does. */
  lemma VectorClockRespectsCausality(local: StateUpdate, remote: StateUpdate)
    requires local.clock.Some? && remote.clock.Some?
    ensures VC.LessEq(remote.clock.value, local.clock.value) ==> Resolve(VectorClock, local, remote) == local
    ensures !VC.LessEq(local.clock.value, remote.clock.value) ==> Resolve(VectorClock, local, remote) == local
    ensures (VC.LessEq(local.clock.value, remote.clock.value) && !VC.LessEq(remote.clock.value, local.clock.value))
              ==> Resolve(VectorClock, local, remote) == remote
  {
  }
}

/** Study rooms: a bounded, duplicate-free member list per room. */
module Rooms {
  import opened Wrappers

  datatype Room = Room(roomId: string, roomName: string, creatorId: string, members: seq<string>, maxSize: nat)

  predicate NoDuplicates(s: seq<string>) {
    forall i, j :: 0 <= i < j < |s| ==> s[i] != s[j]
  }

  /** A room's members are distinct; the creator is counted even when the
      requested capacity is below one. */
  predicate Valid(r: Room) {
    NoDuplicates(r.members) && (|r.members| <= r.maxSize || |r.members| <= 1)
  }

  type Rooms = map<string, Room>

  /** `create_room`: the new room, under the supplied fresh id, holds its
      creator. */
  function CreateRoom(rooms: Rooms, roomId: string, name: string, creatorId: string, maxSize: nat): (r: (Rooms, Room))
    ensures r.0 == rooms[roomId := r.1]
    ensures r.1.members == [creatorId] && r.1.creatorId == creatorId && r.1.roomName == name
    ensures Valid(r.1)
  {
    var room := Room(roomId, name, creatorId, [creatorId], maxSize);
    (rooms[roomId := room], room)
  }

  /** `get_room`. */
  function GetRoom(rooms: Rooms, roomId: string): (r: Option<Room>)
    ensures r.Some? <==> roomId in rooms
    ensures r.Some? ==> r.value == rooms[roomId]
  {
    if roomId in rooms then Some(rooms[roomId]) else None
  }

  /** `join_room`: refused for an unknown room or a full room; a member
      who is already present is accepted without being listed twice. */
  function JoinRoom(rooms: Rooms, roomId: string, userId: string): (r: (Rooms, bool))
    ensures r.1 <==> roomId in rooms && (userId in rooms[roomId].members || |rooms[roomId].members| < rooms[roomId].maxSize)
    ensures !r.1 ==> r.0 == rooms
    ensures r.1 ==> roomId in r.0 && userId in r.0[roomId].members
    ensures r.1 ==> r.0.Keys == rooms.Keys
    ensures r.1 ==> forall u :: u in r.0[roomId].members <==> u in rooms[roomId].members || u == userId
    ensures roomId in rooms && Valid(rooms[roomId]) ==> roomId in r.0 && Valid(r.0[roomId])
  {
    if roomId !in rooms then (rooms, false)
    else
      var room := rooms[roomId];
      if userId in room.members then (rooms, true)
      else if |room.members| >= room.maxSize then (rooms, false)
      else (rooms[roomId := room.(members := room.members + [userId])], true)
  }

  function RemoveAll(s: seq<string>, x: string): (r: seq<string>)
    ensures forall u :: u in r <==> u in s && u != x
    ensures |r| <= |s|
    ensures NoDuplicates(s) ==> NoDuplicates(r)
    ensures x !in s ==> r == s
    ensures NoDuplicates(s) && x in s ==> |r| == |s| - 1
  {
    if |s| == 0 then []
    else
      assert NoDuplicates(s) ==> NoDuplicates(s[1..]) && s[0] !in s[1..];
      if s[0] == x then RemoveAll(s[1..], x)
      else
        var rest := RemoveAll(s[1..], x);
        assert NoDuplicates(s) ==> s[0] !in rest;
        [s[0]] + rest
  }

  /** `leave_room`: removes exactly that member; reports whether the room
      exists and the user was in it. */
  function LeaveRoom(rooms: Rooms, roomId: string, userId: string): (r: (Rooms, bool))
    ensures r.1 <==> roomId in rooms && userId in rooms[roomId].members
    ensures !r.1 ==> r.0 == rooms
    ensures r.1 ==> roomId in r.0 && r.0.Keys == rooms.Keys
    ensures r.1 ==> forall u :: u in r.0[roomId].members <==> u in rooms[roomId].members && u != userId
    ensures roomId in rooms && Valid(rooms[roomId]) ==> roomId in r.0 && Valid(r.0[roomId])
  {
    if roomId !in rooms || userId !in rooms[roomId].members then (rooms, false)
    else
      var room := rooms[roomId];
      (rooms[roomId := room.(members := RemoveAll(room.members, userId))], true)
  }

  /** Joining never pushes a valid room past its capacity. */
  lemma JoinKeepsCapacity(rooms: Rooms, roomId: string, userId: string)
    requires roomId in rooms && Valid(rooms[roomId]) && rooms[roomId].maxSize >= 1
    ensures |JoinRoom(rooms, roomId, userId).0[roomId].members| <= rooms[roomId].maxSize
  {
  }

  /** A room created by u1 and joined by u2 and u3 lists exactly three
      members; one created with capacity 2 refuses its third member. */
  lemma ThreeMembersAfterTwoJoins(rooms: Rooms, id: string, u1: string, u2: string, u3: string)
    requires u1 != u2 && u2 != u3 && u1 != u3
    ensures var r0 := CreateRoom(rooms, id, "room", u1, 10).0;
            var r2 := JoinRoom(JoinRoom(r0, id, u2).0, id, u3).0;
            |r2[id].members| == 3
    ensures var r0 := CreateRoom(rooms, id, "room", u1, 2).0;
            var r1 := JoinRoom(r0, id, u2);
            r1.1 && !JoinRoom(r1.0, id, u3).1
  {
  }

  /** Joining then leaving restores the member set of a room the user was
      not in. */
  lemma JoinThenLeave(rooms: Rooms, roomId: string, userId: string)
    requires roomId in rooms && userId !in rooms[roomId].members
    requires JoinRoom(rooms, roomId, userId).1
    ensures var after := LeaveRoom(JoinRoom(rooms, roomId, userId).0, roomId, userId);
            after.1 && forall u :: u in after.0[roomId].members <==> u in rooms[roomId].members
  {
  }
}

=== FILE: security.dfy ===
/** Role-based access control of the security and compliance agent. A
    permission is written "action:resource"; the permission table (read
    from configuration in the source) maps each role to its permissions,
    and "*" grants everything. */
module Authorization {
  function PermissionString(action: string, resource: string): string {
    action + ":" + resource
  }

  predicate NoColon(s: string) {
    forall i :: 0 <= i < |s| ==> s[i] != ':'
  }

  /** Position of the first ':' (the length when there is none). */
  function FirstColon(s: string): (k: nat)
    ensures k <= |s|
  {
    if |s| == 0 || s[0] == ':' then 0 else 1 + FirstColon(s[1..])
  }

  lemma {:induction false} ColonSplits(a: string, r: string)
    requires NoColon(a)
    ensures FirstColon(PermissionString(a, r)) == |a|
  {
    if |a| > 0 {
      assert PermissionString(a, r)[1..] == PermissionString(a[1..], r);
      ColonSplits(a[1..], r);
    }
  }

  /** Reading a permission string back: with colon-free actions the
      "action:resource" spelling identifies the pair. */
  lemma PermissionStringInjective(a1: string, r1: string, a2: string, r2: string)
    requires NoColon(a1) && NoColon(a2)
    ensures PermissionString(a1, r1) == PermissionString(a2, r2) <==> a1 == a2 && r1 == r2
  {
    if PermissionString(a1, r1) == PermissionString(a2, r2) {
      var p := PermissionString(a1, r1);
      ColonSplits(a1, r1);
      ColonSplits(a2, r2);
      assert a1 == p[..|a1|] && a2 == p[..|a2|];
      assert r1 == p[|a1| + 1..] && r2 == p[|a2| + 1..];
    }
  }

  /** `get_user_permissions(role)`: the role's permission strings; an
      unknown role has none. */
  function UserPermissions(table: map<string, set<string>>, role: string): (ps: set<string>)
    ensures role !in table ==> ps == {}
    ensures role in table ==> ps == table[role]
  {
    if role in table then table[role] else {}
  }

  /** `check_permission(user, role, resource, action)`. */
  function CheckPermission(table: map<string, set<string>>, role: string, resource: string, action: string): (ok: bool)
    ensures ok <==> PermissionString(action, resource) in UserPermissions(table, role) || "*" in UserPermissions(table, role)
  {
    var ps := UserPermissions(table, role);
    PermissionString(action, resource) in ps || "*" in ps
  }

  /** An unknown role is denied everything; a role holding "*" (admin) is
      allowed everything; otherwise exactly the listed pairs are allowed. */
  lemma CheckPermissionCases(table: map<string, set<string>>, role: string, resource: string, action: string)
    ensures role !in table ==> !CheckPermission(table, role, resource, action)
    ensures role in table && "*" in table[role] ==> CheckPermission(table, role, resource, action)
    ensures role in table && "*" !in table[role] ==>
              (CheckPermission(table, role, resource, action) <==> PermissionString(action, resource) in table[role])
  {
  }

  /** Granting a permission to one role changes no other role's answers. */
  lemma RolesAreIndependent(table: map<string, set<string>>, role: string, other: string, perm: string,
                            resource: string, action: string)
    requires role != other
    ensures CheckPermission(table[role := UserPermissions(table, role) + {perm}], other, resource, action)
            == CheckPermission(table, other, resource, action)
  {
  }
}

/** Fixed-window request counters per (user, endpoint). The window index
    stands for the time bucket whose counter the source keeps in Redis
    with an expiry. */
module RequestLimits {
  datatype Limits = Limits(
    defaultLimit: nat,
    endpointLimits: map<string, nat>,
    counts: map<(string, string, nat), nat>)

  function LimitFor(l: Limits, endpoint: string): nat {
    if endpoint in l.endpointLimits then l.endpointLimits[endpoint] else l.defaultLimit
  }

  function Count(l: Limits, user: string, endpoint: string, window: nat): nat {
    if (user, endpoint, window) in l.counts then l.counts[(user, endpoint, window)] else 0
  }

  datatype Checked = Checked(limits: Limits, allowed: bool)

  /** `rate_limit_check(user, endpoint)`: counts the request and admits it
      while the count stays within the endpoint's limit (the default limit
      when the endpoint has none of its own). */
  function Check(l: Limits, user: string, endpoint: string, window: nat): (r: Checked)
    ensures r.allowed <==> Count(l, user, endpoint, window) < LimitFor(l, endpoint)
    ensures Count(r.limits, user, endpoint, window) == Count(l, user, endpoint, window) + 1
    ensures forall u, e, w: nat :: (u, e, w) != (user, endpoint, window) ==> Count(r.limits, u, e, w) == Count(l, u, e, w)
    ensures r.limits.defaultLimit == l.defaultLimit && r.limits.endpointLimits == l.endpointLimits
  {
    var n := Count(l, user, endpoint, window) + 1;
    Checked(l.(counts := l.counts[(user, endpoint, window) := n]), n <= LimitFor(l, endpoint))
  }

  /** Outcomes of `n` consecutive checks by one user on one endpoint. */
  function CheckMany(l: Limits, user: string, endpoint: string, window: nat, n: nat): (out: seq<bool>)
    ensures |out| == n
    decreases n
  {
    if n == 0 then []
    else
      var r := Check(l, user, endpoint, window);
      [r.allowed] + CheckMany(r.limits, user, endpoint, window, n - 1)
  }

  function Repeated(n: nat, k: nat, l: Limits, user: string, endpoint: string, window: nat): Limits
    decreases n
  {
    if n == 0 then l else Repeated(n - 1, k, Check(l, user, endpoint, window).limits, user, endpoint, window)
  }

  /** With `c` requests already counted, the i-th further request passes
      exactly when c + i stays below the limit. */
  lemma {:induction false} CheckManyOutcomes(l: Limits, user: string, endpoint: string, window: nat, n: nat)
    ensures forall i :: 0 <= i < n ==>
              (CheckMany(l, user, endpoint, window, n)[i] <==> Count(l, user, endpoint, window) + i < LimitFor(l, endpoint))
    decreases n
  {
    if n > 0 {
      var r := Check(l, user, endpoint, window);
      CheckManyOutcomes(r.limits, user, endpoint, window, n - 1);
      assert LimitFor(r.limits, endpoint) == LimitFor(l, endpoint);
      forall i | 0 <= i < n
        ensures CheckMany(l, user, endpoint, window, n)[i] <==> Count(l, user, endpoint, window) + i < LimitFor(l, endpoint)
      {
        if i > 0 {
          assert CheckMany(l, user, endpoint, window, n)[i] == CheckMany(r.limits, user, endpoint, window, n - 1)[i - 1];
        }
      }
    }
  }

  /** From a fresh counter, the first `limit` requests pass and the next
      one is refused. */
  lemma LimitThenRefuse(l: Limits, user: string, endpoint: string, window: nat)
    requires Count(l, user, endpoint, window) == 0
    ensures CheckMany(l, user, endpoint, window, LimitFor(l, endpoint) + 1)
            == seq(LimitFor(l, endpoint), _ => true) + [false]
  {
    var n := LimitFor(l, endpoint) + 1;
    CheckManyOutcomes(l, user, endpoint, window, n);
    var out := CheckMany(l, user, endpoint, window, n);
    assert out == seq(LimitFor(l, endpoint), _ => true) + [false];
  }

  /** Exhausting one user's counter on one endpoint leaves every other
      (user, endpoint) pair's next answer unchanged. */
  lemma CountersAreIndependent(l: Limits, user: string, endpoint: string, window: nat,
                               otherUser: string, otherEndpoint: string)
    requires (otherUser, otherEndpoint) != (user, endpoint)
    ensures var after := Check(l, user, endpoint, window).limits;
            Check(after, otherUser, otherEndpoint, window).allowed == Check(l, otherUser, otherEndpoint, window).allowed
  {
  }
}

/** Audit logging: sensitive fields are masked, at any depth, before an
    event is stored; logs are read back newest first, filtered by user and
    optionally by event type. */
module Audit {
  import opened Wrappers
  import J = Json

  const Masked: string := "***MASKED***"

  /** Masks the value of every field whose name is sensitive; other fields
      keep their names and order, and their values are masked recursively. */
  function Mask(v: J.Value, sensitive: set<string>): (r: J.Value)
    ensures v.Obj? <==> r.Obj?
    ensures v.Arr? <==> r.Arr?
    ensures v.Obj? ==> |r.fields| == |v.fields|
                       && forall i :: 0 <= i < |v.fields| ==> r.fields[i].0 == v.fields[i].0
    ensures v.Obj? ==> forall i :: 0 <= i < |v.fields| && v.fields[i].0 in sensitive ==> r.fields[i].1 == J.Str(Masked)
    ensures v.Arr? ==> |r.items| == |v.items|
    ensures !v.Obj? && !v.Arr? ==> r == v
  {
    match v
    case Obj(fields) =>
      J.Obj(seq(|fields|, i requires 0 <= i < |fields| =>
        (fields[i].0, if fields[i].0 in sensitive then J.Str(Masked) else Mask(fields[i].1, sensitive))))
    case Arr(items) =>
      J.Arr(seq(|items|, i requires 0 <= i < |items| => Mask(items[i], sensitive)))
    case _ => v
  }

  /** No sensitive field anywhere in the value holds anything but the mask. */
  predicate NoSecrets(v: J.Value, sensitive: set<string>) {
    match v
    case Obj(fields) =>
      forall i :: 0 <= i < |fields| ==>
        if fields[i].0 in sensitive then fields[i].1 == J.Str(Masked) else NoSecrets(fields[i].1, sensitive)
    case Arr(items) => forall i :: 0 <= i < |items| ==> NoSecrets(items[i], sensitive)
    case _ => true
  }

  /** Masking leaves no secret behind, and masking twice changes nothing. */
  lemma {:induction false} MaskHidesSecrets(v: J.Value, sensitive: set<string>)
    ensures NoSecrets(Mask(v, sensitive), sensitive)
    ensures Mask(Mask(v, sensitive), sensitive) == Mask(v, sensitive)
  {
    match v
    case Obj(fields) =>
      var m := Mask(v, sensitive);
      forall i | 0 <= i < |fields| && fields[i].0 !in sensitive
        ensures NoSecrets(m.fields[i].1, sensitive)
        ensures Mask(m.fields[i].1, sensitive) == m.fields[i].1
      {
        MaskHidesSecrets(fields[i].1, sensitive);
      }
      assert Mask(m, sensitive).fields == m.fields;
    case Arr(items) =>
      var m := Mask(v, sensitive);
      forall i | 0 <= i < |items|
        ensures NoSecrets(m.items[i], sensitive)
        ensures Mask(m.items[i], sensitive) == m.items[i]
      {
        MaskHidesSecrets(items[i], sensitive);
      }
      assert Mask(m, sensitive).items == m.items;
    case _ =>
  }

  /** A field that is not sensitive and holds a scalar is stored as it was. */
  lemma MaskKeepsPlainFields(v: J.Value, sensitive: set<string>, i: nat)
    requires v.Obj? && i < |v.fields| && v.fields[i].0 !in sensitive
    requires !v.fields[i].1.Obj? && !v.fields[i].1.Arr?
    ensures Mask(v, sensitive).fields[i] == v.fields[i]
  {
  }

  /** The log, newest event first. */
  type Log = seq<J.Value>

  /** `audit_log(event)`: stores the masked event in front of the log. */
  function AuditLog(log: Log, event: J.Value, sensitive: set<string>): (r: Log)
    ensures |r| == |log| + 1 && r[0] == Mask(event, sensitive) && r[1..] == log
    ensures NoSecrets(r[0], sensitive)
  {
    MaskHidesSecrets(event, sensitive);
    [Mask(event, sensitive)] + log
  }

  predicate Matches(e: J.Value, userId: string, eventType: Option<string>) {
    && e.Obj?
    && J.StrField(e.fields, "user_id") == Some(userId)
    && (eventType.Some? ==> J.StrField(e.fields, "event_type") == eventType)
  }

  function Filter(log: Log, userId: string, eventType: Option<string>): (r: Log)
    ensures |r| <= |log|
    ensures forall e :: e in r <==> e in log && Matches(e, userId, eventType)
  {
    if |log| == 0 then []
    else
      var rest := Filter(log[1..], userId, eventType);
      assert forall e :: e in log <==> e == log[0] || e in log[1..];
      if Matches(log[0], userId, eventType) then [log[0]] + rest else rest
  }

  /** Filtering distributes over concatenation, so the matching events
      keep their relative (newest-first) order. */
  lemma {:induction false} FilterAppend(a: Log, b: Log, userId: string, eventType: Option<string>)
    ensures Filter(a + b, userId, eventType) == Filter(a, userId, eventType) + Filter(b, userId, eventType)
  {
    if |a| == 0 {
      assert a + b == b;
    } else {
      assert (a + b)[0] == a[0] && (a + b)[1..] == a[1..] + b;
      FilterAppend(a[1..], b, userId, eventType);
    }
  }

  /** Logging an event puts its masked form at the head of the user's
      filtered history when it matches, and leaves the history alone
      otherwise: the newest event is reported first. */
  lemma NewestFirst(log: Log, event: J.Value, sensitive: set<string>, userId: string, eventType: Option<string>)
    ensures var m := Mask(event, sensitive);
            Filter(AuditLog(log, event, sensitive), userId, eventType) ==
              (if Matches(m, userId, eventType) then [m] else []) + Filter(log, userId, eventType)
  {
    FilterAppend([Mask(event, sensitive)], log, userId, eventType);
    assert [Mask(event, sensitive)][1..] == [];
  }

  /** `get_audit_logs(user_id, event_type, limit)`: at most `limit` of the
      user's events, newest first, of the given type when one is named. */
  function GetAuditLogs(log: Log, userId: string, eventType: Option<string>, limit: nat): (r: Log)
    ensures |r| <= limit
    ensures forall e :: e in r ==> e in log && Matches(e, userId, eventType)
    ensures var all := Filter(log, userId, eventType);
            |r| == (if |all| <= limit then |all| else limit) && r == all[..|r|]
  {
    var all := Filter(log, userId, eventType);
    if |all| <= limit then all else all[..limit]
  }

  /** The masking scenario: a password nested in the event's data object is
      masked and the username beside it is kept. */
  lemma NestedPasswordMasked(user: string, name: string, pw: string, mail: string)
    ensures var data := J.Obj([("username", J.Str(name)), ("password", J.Str(pw)), ("email", J.Str(mail))]);
            var event := J.Obj([("event_type", J.Str("data_access")), ("user_id", J.Str(user)), ("data", data)]);
            var stored := AuditLog([], event, {"password"})[0];
            stored.Obj? && stored.fields[2].0 == "data"
            && stored.fields[2].1.Obj?
            && stored.fields[2].1.fields[1] == ("password", J.Str(Masked))
            && stored.fields[2].1.fields[0] == ("username", J.Str(name))
  {
    var data := J.Obj([("username", J.Str(name)), ("password", J.Str(pw)), ("email", J.Str(mail))]);
    var event := J.Obj([("event_type", J.Str("data_access")), ("user_id", J.Str(user)), ("data", data)]);
    var stored := Mask(event, {"password"});
    assert stored.fields[2].1 == Mask(data, {"password"});
  }
}

/** Regulation checks of the compliance checker on a submitted record. */
module Compliance {
  import opened Wrappers
  import J = Json
  import Text

  datatype Regulation = GDPR | COPPA | FERPA

  datatype Report = Report(regulation: Regulation, compliant: bool, issues: seq<string>)

  const CoppaAge: int := 13

  const ConsentIssue: string := "User consent not obtained"
  const PolicyIssue: string := "Privacy policy not accepted"
  const ParentalIssue: string := "Parental consent required for users under 13"
  const RecordsIssue: string := "Educational records access not restricted"

  lemma ParentalIssueMentionsConsent()
    ensures Text.Contains(Text.Lower(ParentalIssue), "parental consent")
  {
    var low := Text.Lower(ParentalIssue);
    assert forall i :: 1 <= i < 16 ==> ParentalIssue[i] == "parental consent"[i];
    assert forall i :: 1 <= i < 16 ==> low[i] == ParentalIssue[i];
    assert ParentalIssue[0] == 'P' && low[0] == Text.LowerChar('P');
    assert low[..16] == "parental consent";
    Text.PrefixIsContained("parental consent", low);
  }

  function Issues(data: seq<(string, J.Value)>, regulation: Regulation, userAge: Option<int>): seq<string> {
    match regulation
    case GDPR =>
      (if J.Flag(data, "consent") then [] else [ConsentIssue])
      + (if J.Flag(data, "privacy_policy_accepted") then [] else [PolicyIssue])
    case COPPA =>
      if userAge.Some? && userAge.value < CoppaAge && !J.Flag(data, "parental_consent") then [ParentalIssue] else []
    case FERPA =>
      var rec := J.Get(data, "educational_records");
      if rec.Some? && rec.value.Obj? && J.Flag(rec.value.fields, "access_restricted") then [] else [RecordsIssue]
  }

  /** `check_compliance(data, regulation, user_age)`: compliant exactly when
      no issue is found. */
  function CheckCompliance(data: seq<(string, J.Value)>, regulation: Regulation, userAge: Option<int>): (r: Report)
    ensures r.regulation == regulation
    ensures r.compliant <==> |r.issues| == 0
    ensures regulation == COPPA ==>
              (r.compliant <==> userAge.None? || userAge.value >= CoppaAge || J.Flag(data, "parental_consent"))
    ensures regulation == COPPA && !r.compliant ==> Text.Contains(Text.Lower(r.issues[0]), "parental consent")
    ensures regulation == GDPR ==> (r.compliant <==> J.Flag(data, "consent") && J.Flag(data, "privacy_policy_accepted"))
  {
    var issues := Issues(data, regulation, userAge);
    ParentalIssueMentionsConsent();
    Report(regulation, |issues| == 0, issues)
  }
}

=== FILE: testing_qa.dfy ===
/** Status rules of the test runners (`UnitTestRunner`,
    `IntegrationTestRunner`, `E2ETestRunner`), the label metrics of
    `MLModelTestRunner`, `CoverageCalculator` and `ReportGenerator`.
    Running pytest, agents, browsers and models is outside the model:
    their outcomes arrive as parameters. */
module TestingQA {
  import opened Wrappers
  import opened Text

  datatype Status = Passed | Failed | Skipped

  function StatusName(s: Status): string {
    match s
    case Passed => "passed"
    case Failed => "failed"
    case Skipped => "skipped"
  }

  /** One section of a test run, as the runners report it. */
  datatype Section = Section(status: Status, passed: nat, failed: nat, durationSeconds: real, coverage: Option<real>)

  datatype UnitRun = UnitRun(moduleName: string, section: Section)

  /** `run_unit_tests(module, calculate_coverage)`: the status follows
      pytest's exit code; the coverage, when asked for, comes from the
      coverage report if one was written. */
  function RunUnitTests(moduleName: string, exitCode: int, duration: real,
                        calculateCoverage: bool, coverageReport: Option<real>): (r: UnitRun)
    ensures r.moduleName == moduleName && r.section.durationSeconds == duration
    ensures r.section.status == Passed <==> exitCode == 0
    ensures r.section.status == Failed <==> exitCode != 0
    ensures r.section.status == Failed ==> r.section.failed >= 1
    ensures r.section.status == Passed ==> r.section.failed == 0
    ensures r.section.coverage.Some? <==> calculateCoverage && coverageReport.Some?
    ensures r.section.coverage.Some? ==> r.section.coverage == coverageReport
  {
    var ok := exitCode == 0;
    var coverage := if calculateCoverage then coverageReport else None;
    UnitRun(moduleName, Section(if ok then Passed else Failed, if ok then 1 else 0, if ok then 0 else 1, duration, coverage))
  }

  /** Reference count: how many of the agents the check gives status `st`. */
  function CountStatus(agents: seq<string>, check: string -> Status, st: Status): nat {
    if |agents| == 0 then 0
    else CountStatus(agents[..|agents| - 1], check, st) + (if check(agents[|agents| - 1]) == st then 1 else 0)
  }

  lemma {:induction false} CountZeroIffNone(agents: seq<string>, check: string -> Status, st: Status)
    ensures CountStatus(agents, check, st) == 0 <==> forall i :: 0 <= i < |agents| ==> check(agents[i]) != st
  {
    if |agents| > 0 {
      var init := agents[..|agents| - 1];
      CountZeroIffNone(init, check, st);
      assert forall i :: 0 <= i < |init| ==> init[i] == agents[i];
    }
  }

  lemma {:induction false} CountsPartition(agents: seq<string>, check: string -> Status)
    ensures CountStatus(agents, check, Passed) + CountStatus(agents, check, Failed)
          + CountStatus(agents, check, Skipped) == |agents|
  {
    if |agents| > 0 {
      CountsPartition(agents[..|agents| - 1], check);
    }
  }

  datatype Integration = Integration(status: Status, passed: nat, failed: nat, skipped: nat, agents: seq<(string, Status)>)

  /** `run_integration_tests(agents)`: checks every agent in turn; the run
      passes exactly when no agent failed. */
  method RunIntegrationTests(agents: seq<string>, check: string -> Status) returns (r: Integration)
    ensures |r.agents| == |agents|
    ensures forall i :: 0 <= i < |agents| ==> r.agents[i] == (agents[i], check(agents[i]))
    ensures r.passed == CountStatus(agents, check, Passed)
    ensures r.failed == CountStatus(agents, check, Failed)
    ensures r.passed + r.failed + r.skipped == |agents|
    ensures r.status == Passed <==> forall i :: 0 <= i < |agents| ==> check(agents[i]) != Failed
    ensures r.status == Failed <==> r.failed >= 1
  {
    var results: seq<(string, Status)> := [];
    var passed, failed, skipped := 0, 0, 0;
    var i := 0;
    while i < |agents|
      invariant 0 <= i <= |agents|
      invariant |results| == i
      invariant forall j :: 0 <= j < i ==> results[j] == (agents[j], check(agents[j]))
      invariant passed == CountStatus(agents[..i], check, Passed)
      invariant failed == CountStatus(agents[..i], check, Failed)
      invariant skipped == CountStatus(agents[..i], check, Skipped)
    {
      var st := check(agents[i]);
      assert agents[..i + 1][..i] == agents[..i];
      results := results + [(agents[i], st)];
      match st {
        case Passed => passed := passed + 1;
        case Failed => failed := failed + 1;
        case Skipped => skipped := skipped + 1;
      }
      i := i + 1;
    }
    assert agents[..i] == agents;
    CountsPartition(agents, check);
    CountZeroIffNone(agents, check, Failed);
    r := Integration(if failed == 0 then Passed else Failed, passed, failed, skipped, results);
  }

  datatype E2E = E2E(status: Status, scenarios: seq<string>, scenarioResults: seq<(string, Status)>)

  /** `run_e2e_tests(scenarios)`: runs each scenario and echoes the
      requested list; the run passes when every scenario passes. */
  function RunE2ETests(scenarios: seq<string>, run: string -> bool): (r: E2E)
    ensures r.scenarios == scenarios
    ensures |r.scenarioResults| == |scenarios|
    ensures forall i :: 0 <= i < |scenarios| ==>
      r.scenarioResults[i].0 == scenarios[i] && (r.scenarioResults[i].1 == Passed <==> run(scenarios[i]))
    ensures r.status == Passed <==> forall i :: 0 <= i < |scenarios| ==> run(scenarios[i])
    ensures r.status != Skipped
  {
    var results := seq(|scenarios|, i requires 0 <= i < |scenarios| =>
      (scenarios[i], if run(scenarios[i]) then Passed else Failed));
    var allPassed := forall i :: 0 <= i < |scenarios| ==> run(scenarios[i]);
    E2E(if allPassed then Passed else Failed, scenarios, results)
  }

  /** Number of positions where prediction and truth agree. */
  function Matches(yTrue: seq<int>, yPred: seq<int>): nat
    requires |yTrue| == |yPred|
  {
    if |yTrue| == 0 then 0
    else (if yTrue[0] == yPred[0] then 1 else 0) + Matches(yTrue[1..], yPred[1..])
  }

  lemma {:induction false} MatchesBounds(yTrue: seq<int>, yPred: seq<int>)
    requires |yTrue| == |yPred|
    ensures Matches(yTrue, yPred) <= |yTrue|
    ensures Matches(yTrue, yPred) == |yTrue| <==> forall i :: 0 <= i < |yTrue| ==> yTrue[i] == yPred[i]
    ensures Matches(yTrue, yPred) == 0 <==> forall i :: 0 <= i < |yTrue| ==> yTrue[i] != yPred[i]
  {
    if |yTrue| > 0 {
      MatchesBounds(yTrue[1..], yPred[1..]);
      assert forall i :: 1 <= i < |yTrue| ==> yTrue[1..][i - 1] == yTrue[i] && yPred[1..][i - 1] == yPred[i];
    }
  }

  /** `accuracy_score`: the fraction of matching labels. Label lists of
      different lengths, or no labels at all, are an error. */
  function Accuracy(yTrue: seq<int>, yPred: seq<int>): (r: Result<real>)
    ensures r.Ok? <==> |yTrue| == |yPred| > 0
    ensures r.Ok? ==> 0.0 <= r.value <= 1.0
    ensures r.Ok? ==> (r.value == 1.0 <==> forall i :: 0 <= i < |yTrue| ==> yTrue[i] == yPred[i])
    ensures r.Ok? ==> (r.value == 0.0 <==> forall i :: 0 <= i < |yTrue| ==> yTrue[i] != yPred[i])
  {
    if |yTrue| != |yPred| then Err("Inconsistent numbers of samples")
    else if |yTrue| == 0 then Err("No samples")
    else
      MatchesBounds(yTrue, yPred);
      QuotientBounds(Matches(yTrue, yPred) as real, |yTrue| as real);
      Ok(Matches(yTrue, yPred) as real / |yTrue| as real)
  }

  /** Number of labels equal to the positive label 1. */
  function Positives(labels: seq<int>): nat {
    if |labels| == 0 then 0 else (if labels[0] == 1 then 1 else 0) + Positives(labels[1..])
  }

  /** Number of positions where truth and prediction are both 1. */
  function TruePositives(yTrue: seq<int>, yPred: seq<int>): nat
    requires |yTrue| == |yPred|
  {
    if |yTrue| == 0 then 0
    else (if yTrue[0] == 1 && yPred[0] == 1 then 1 else 0) + TruePositives(yTrue[1..], yPred[1..])
  }

  lemma {:induction false} TruePositivesBounded(yTrue: seq<int>, yPred: seq<int>)
    requires |yTrue| == |yPred|
    ensures TruePositives(yTrue, yPred) <= Positives(yTrue)
    ensures TruePositives(yTrue, yPred) <= Positives(yPred)
  {
    if |yTrue| > 0 {
      TruePositivesBounded(yTrue[1..], yPred[1..]);
    }
  }

  /** A ratio of counts, 0 when the denominator is 0 (scikit-learn's
      `zero_division` default). */
  function Ratio(num: nat, den: nat): (r: real)
    requires num <= den
    ensures 0.0 <= r <= 1.0
    ensures r == 1.0 <==> 0 < den && num == den
  {
    if den == 0 then 0.0
    else
      QuotientBounds(num as real, den as real);
      num as real / den as real
  }

  lemma QuotientBounds(n: real, d: real)
    requires 0.0 <= n <= d && 0.0 < d
    ensures 0.0 <= n / d <= 1.0
    ensures n / d == 0.0 <==> n == 0.0
    ensures n / d == 1.0 <==> n == d
  {
    var x := n / d;
    assert x * d == n;
    assert (x - 1.0) * d == n - d <= 0.0;
  }

  const MetricNames: seq<string> := ["accuracy", "precision", "recall", "f1_score"]

  function MetricValue(yTrue: seq<int>, yPred: seq<int>, name: string): (r: real)
    requires |yTrue| == |yPred| > 0
    ensures 0.0 <= r <= 1.0
  {
    TruePositivesBounded(yTrue, yPred);
    MatchesBounds(yTrue, yPred);
    var precision := Ratio(TruePositives(yTrue, yPred), Positives(yPred));
    var recall := Ratio(TruePositives(yTrue, yPred), Positives(yTrue));
    var f1 := Ratio(2 * TruePositives(yTrue, yPred), Positives(yPred) + Positives(yTrue));
    if name == "accuracy" then Accuracy(yTrue, yPred).value
    else if name == "precision" then precision
    else if name == "recall" then recall
    else f1
  }

  /** `_calculate_metrics(y_true, y_pred, metrics)`: every requested metric
      the runner knows, each a value in [0, 1]. */
  function CalculateMetrics(yTrue: seq<int>, yPred: seq<int>, requested: seq<string>): (r: map<string, real>)
    requires |yTrue| == |yPred| > 0
    ensures forall m :: m in r <==> m in requested && m in MetricNames
    ensures forall m :: m in r ==> 0.0 <= r[m] <= 1.0
    ensures "accuracy" in r ==> r["accuracy"] == Accuracy(yTrue, yPred).value
  {
    map m | m in requested && m in MetricNames :: MetricValue(yTrue, yPred, m)
  }

  /** The labels of the metric test: four of five agree, both predicted
      positives are right, two of three actual positives are found. */
  lemma MetricsScenario()
    ensures Accuracy([0, 1, 1, 0, 1], [0, 1, 0, 0, 1]) == Ok(0.8)
    ensures CalculateMetrics([0, 1, 1, 0, 1], [0, 1, 0, 0, 1], ["accuracy", "precision"])
            == map["accuracy" := 0.8, "precision" := 1.0]
  {
    var t, p := [0, 1, 1, 0, 1], [0, 1, 0, 0, 1];
    assert Matches(t[4..], p[4..]) == 1;
    assert Matches(t[3..], p[3..]) == 2;
    assert Matches(t[2..], p[2..]) == 2;
    assert Matches(t[1..], p[1..]) == 3;
    assert Matches(t, p) == 4;
    assert TruePositives(t[1..], p[1..]) == 2;
    assert TruePositives(t, p) == 2;
    assert Positives(p[1..]) == 2;
    assert Positives(p) == 2;
  }

  /** A finished run: its id, timestamp and the sections in the order they ran. */
  datatype TestRun = TestRun(runId: string, timestamp: string, sections: seq<(string, Section)>)

  /** Section `i` is the first one called `name`. */
  predicate FirstNamed(sections: seq<(string, Section)>, name: string, i: int) {
    0 <= i < |sections| && sections[i].0 == name && forall j :: 0 <= j < i ==> sections[j].0 != name
  }

  function Lookup(sections: seq<(string, Section)>, name: string): (r: Option<Section>)
    ensures r.Some? <==> exists i :: 0 <= i < |sections| && sections[i].0 == name
    ensures r.Some? ==> exists i :: 0 <= i < |sections| && sections[i] == (name, r.value)
    ensures forall i :: FirstNamed(sections, name, i) ==> r == Some(sections[i].1)
  {
    if |sections| == 0 then None
    else if sections[0].0 == name then Some(sections[0].1)
    else
      var r := Lookup(sections[1..], name);
      assert forall i :: 1 <= i < |sections| ==> sections[1..][i - 1] == sections[i];
      r
  }

  /** `calculate_code_coverage(results)`: the unit section's coverage, 0.0
      when there is none. */
  function CalculateCodeCoverage(run: TestRun): (r: real)
    ensures (forall i :: 0 <= i < |run.sections| ==> run.sections[i].0 != "unit") ==> r == 0.0
    ensures r != 0.0 ==> exists i :: 0 <= i < |run.sections| && run.sections[i].0 == "unit"
                                   && run.sections[i].1.coverage == Some(r)
    ensures forall i :: FirstNamed(run.sections, "unit", i) ==>
              r == (if run.sections[i].1.coverage.Some? then run.sections[i].1.coverage.value else 0.0)
  {
    match Lookup(run.sections, "unit")
    case Some(s) => if s.coverage.Some? then s.coverage.value else 0.0
    case None => 0.0
  }

  /** The coverage a unit run computed is what the calculator reports. */
  lemma UnitCoverageReported(id: string, ts: string, moduleName: string, duration: real, report: real)
    ensures CalculateCodeCoverage(TestRun(id, ts, [("unit", RunUnitTests(moduleName, 0, duration, true, Some(report)).section)])) == report
    ensures CalculateCodeCoverage(TestRun(id, ts, [])) == 0.0
  {
  }

  /** Decimal digits of a count. */
  function Decimal(n: nat): (r: string)
    ensures |r| > 0
    ensures forall i :: 0 <= i < |r| ==> '0' <= r[i] <= '9'
  {
    var d := ['0' + (n % 10) as char];
    if n < 10 then d else Decimal(n / 10) + d
  }

  const Banner: string := "============================================================"
  const Title: string := "TEST REPORT"

  function Header(run: TestRun): (r: string)
    ensures Contains(r, Title) && Contains(r, run.runId)
  {
    var top := Banner + "\n" + Title + "\n" + Banner + "\n";
    var idLine := "Run ID: " + run.runId + "\n";
    var rest := "Timestamp: " + run.timestamp + "\n";
    ContainsMiddle(Banner + "\n", Title, "\n" + Banner + "\n");
    assert Banner + "\n" + Title + "\n" + Banner + "\n" == (Banner + "\n") + Title + ("\n" + Banner + "\n");
    ContainsExtendRight(top, idLine + rest, Title);
    ContainsMiddle("Run ID: ", run.runId, "\n");
    ContainsExtendRight(idLine, rest, run.runId);
    ContainsExtendLeft(top, idLine + rest, run.runId);
    assert top + idLine + rest == top + (idLine + rest);
    top + idLine + rest
  }

  function CoverageLine(c: Option<real>, fmt: real -> string): (r: string)
    ensures c.Some? ==> Contains(r, fmt(c.value))
  {
    if c.None? then ""
    else
      ContainsMiddle("  Coverage: ", fmt(c.value), "%\n");
      "  Coverage: " + fmt(c.value) + "%\n"
  }

  /** One section: its name in upper case, then status, counts, duration
      and, when measured, coverage. `fmt` is Python's `str` on floats. */
  function SectionText(name: string, s: Section, fmt: real -> string): (r: string)
    ensures Contains(r, Upper(name))
    ensures s.coverage.Some? ==> Contains(r, fmt(s.coverage.value))
  {
    var head := "\n" + Upper(name) + "\n";
    var stats := "  Status: " + StatusName(s.status) + "\n"
               + "  Passed: " + Decimal(s.passed) + "\n"
               + "  Failed: " + Decimal(s.failed) + "\n"
               + "  Duration: " + fmt(s.durationSeconds) + "s\n";
    var cov := CoverageLine(s.coverage, fmt);
    ContainsMiddle("\n", Upper(name), "\n");
    ContainsExtendRight(head, stats + cov, Upper(name));
    if s.coverage.Some? then
      ContainsExtendLeft(stats, cov, fmt(s.coverage.value));
      ContainsExtendLeft(head, stats + cov, fmt(s.coverage.value));
      head + (stats + cov)
    else
      head + (stats + cov)
  }

  function SectionsText(sections: seq<(string, Section)>, fmt: real -> string): string {
    if |sections| == 0 then ""
    else SectionText(sections[0].0, sections[0].1, fmt) + SectionsText(sections[1..], fmt)
  }

  /** Every section's upper-case name, and its coverage when measured,
      appears in the sections part of the report. */
  lemma {:induction false} SectionsMentioned(sections: seq<(string, Section)>, fmt: real -> string, k: nat)
    requires k < |sections|
    ensures Contains(SectionsText(sections, fmt), Upper(sections[k].0))
    ensures sections[k].1.coverage.Some? ==> Contains(SectionsText(sections, fmt), fmt(sections[k].1.coverage.value))
  {
    var first := SectionText(sections[0].0, sections[0].1, fmt);
    var rest := SectionsText(sections[1..], fmt);
    if k == 0 {
      ContainsExtendRight(first, rest, Upper(sections[0].0));
      if sections[0].1.coverage.Some? {
        ContainsExtendRight(first, rest, fmt(sections[0].1.coverage.value));
      }
    } else {
      SectionsMentioned(sections[1..], fmt, k - 1);
      assert sections[1..][k - 1] == sections[k];
      ContainsExtendLeft(first, rest, Upper(sections[k].0));
      if sections[k].1.coverage.Some? {
        ContainsExtendLeft(first, rest, fmt(sections[k].1.coverage.value));
      }
    }
  }

  /** `generate_test_report(results)`: the title, the run id and every
      section, closed by the overall coverage. */
  function GenerateTestReport(run: TestRun, fmt: real -> string): (r: string)
    ensures Contains(r, Title) && Contains(r, run.runId)
    ensures Contains(r, fmt(CalculateCodeCoverage(run)))
  {
    var head := Header(run);
    var body := SectionsText(run.sections, fmt);
    var tail := "\nCode Coverage: " + fmt(CalculateCodeCoverage(run)) + "%\n";
    ContainsExtendRight(head, body + tail, Title);
    ContainsExtendRight(head, body + tail, run.runId);
    ContainsMiddle("\nCode Coverage: ", fmt(CalculateCodeCoverage(run)), "%\n");
    ContainsExtendLeft(body, tail, fmt(CalculateCodeCoverage(run)));
    ContainsExtendLeft(head, body + tail, fmt(CalculateCodeCoverage(run)));
    head + (body + tail)
  }

  /** The report names every section in upper case and shows every
      measured coverage value. */
  lemma ReportMentionsSections(run: TestRun, fmt: real -> string, k: nat)
    requires k < |run.sections|
    ensures Contains(GenerateTestReport(run, fmt), Upper(run.sections[k].0))
    ensures run.sections[k].1.coverage.Some? ==>
              Contains(GenerateTestReport(run, fmt), fmt(run.sections[k].1.coverage.value))
  {
    var head := Header(run);
    var body := SectionsText(run.sections, fmt);
    var tail := "\nCode Coverage: " + fmt(CalculateCodeCoverage(run)) + "%\n";
    SectionsMentioned(run.sections, fmt, k);
    ContainsExtendRight(body, tail, Upper(run.sections[k].0));
    ContainsExtendLeft(head, body + tail, Upper(run.sections[k].0));
    if run.sections[k].1.coverage.Some? {
      var c := fmt(run.sections[k].1.coverage.value);
      ContainsExtendRight(body, tail, c);
      ContainsExtendLeft(head, body + tail, c);
    }
  }
}

=== FILE: text.dfy ===
/** String helpers: prefix, suffix and substring tests, ASCII case
    mapping, whitespace trimming and glob matching. Strings are
    `seq<char>`; no Unicode case folding is modelled. */
module Text {

  predicate IsPrefix(p: string, s: string) {
    |p| <= |s| && s[..|p|] == p
  }

  predicate IsSuffix(p: string, s: string) {
    |p| <= |s| && s[|s| - |p|..] == p
  }

  /** `p` occurs in `s` at position `i`. */
  predicate OccursAt(p: string, s: string, i: int) {
    0 <= i && i + |p| <= |s| && s[i..i + |p|] == p
  }

  /** Python's `p in s`. */
  predicate Contains(s: string, p: string) {
    exists i | 0 <= i <= |s| :: OccursAt(p, s, i)
  }

  lemma PrefixIsContained(p: string, s: string)
    requires IsPrefix(p, s)
    ensures Contains(s, p)
  {
    assert OccursAt(p, s, 0);
  }

  lemma SuffixIsContained(p: string, s: string)
    requires IsSuffix(p, s)
    ensures Contains(s, p)
  {
    assert OccursAt(p, s, |s| - |p|);
  }

  /** A string contains every infix of a concatenation it is part of. */
  lemma ContainsMiddle(a: string, p: string, b: string)
    ensures Contains(a + p + b, p)
  {
    assert (a + p + b)[|a|..|a| + |p|] == p;
    assert OccursAt(p, a + p + b, |a|);
  }

  /** Appending text keeps every occurrence. */
  lemma ContainsExtendRight(s: string, t: string, p: string)
    requires Contains(s, p)
    ensures Contains(s + t, p)
  {
    var i :| 0 <= i <= |s| && OccursAt(p, s, i);
    assert (s + t)[i..i + |p|] == s[i..i + |p|];
    assert OccursAt(p, s + t, i);
  }

  /** Prepending text keeps every occurrence, shifted. */
  lemma ContainsExtendLeft(t: string, s: string, p: string)
    requires Contains(s, p)
    ensures Contains(t + s, p)
  {
    var i :| 0 <= i <= |s| && OccursAt(p, s, i);
    assert (t + s)[|t| + i..|t| + i + |p|] == s[i..i + |p|];
    assert OccursAt(p, t + s, |t| + i);
  }

  /** `p` cannot occur where no position that leaves room for it starts
      with its first character. */
  lemma AbsentByFirst(s: string, p: string)
    requires |p| > 0
    requires forall i :: 0 <= i && i + |p| <= |s| ==> s[i] != p[0]
    ensures !Contains(s, p)
  {
    forall i | 0 <= i <= |s|
      ensures !OccursAt(p, s, i)
    {
      if i + |p| <= |s| {
        assert s[i..i + |p|][0] == s[i];
      }
    }
  }

  function LowerChar(c: char): char {
    if 'A' <= c <= 'Z' then (c as int + 32) as char else c
  }

  function UpperChar(c: char): char {
    if 'a' <= c <= 'z' then (c as int - 32) as char else c
  }

  /** Python's `str.lower()` restricted to ASCII letters. */
  function Lower(s: string): (r: string)
    ensures |r| == |s|
    ensures forall i :: 0 <= i < |s| ==> r[i] == LowerChar(s[i])
  {
    seq(|s|, i requires 0 <= i < |s| => LowerChar(s[i]))
  }

  /** Python's `str.upper()` restricted to ASCII letters. */
  function Upper(s: string): (r: string)
    ensures |r| == |s|
    ensures forall i :: 0 <= i < |s| ==> r[i] == UpperChar(s[i])
  {
    seq(|s|, i requires 0 <= i < |s| => UpperChar(s[i]))
  }

  /** Lower-casing twice is lower-casing once. */
  lemma LowerIdempotent(s: string)
    ensures Lower(Lower(s)) == Lower(s)
  {
    assert forall i :: 0 <= i < |s| ==> Lower(Lower(s))[i] == Lower(s)[i];
  }

  predicate IsSpace(c: char) {
    c == ' ' || c == '\t' || c == '\n' || c == '\r'
  }

  /** Python's `s.strip() == ""`: every character is whitespace. */
  predicate IsBlank(s: string) {
    forall i :: 0 <= i < |s| ==> IsSpace(s[i])
  }

  /** Python's `s.lstrip()`: drops leading whitespace. */
  function TrimStart(s: string): (r: string)
    ensures IsSuffix(r, s)
    ensures |r| > 0 ==> !IsSpace(r[0])
    ensures forall i :: 0 <= i < |s| - |r| ==> IsSpace(s[i])
  {
    if |s| == 0 || !IsSpace(s[0]) then s
    else
      var r := TrimStart(s[1..]);
      assert forall i :: 1 <= i < |s| - |r| ==> s[i] == s[1..][i - 1];
      r
  }

  /** Upper-casing ignores an earlier lower-casing. */
  lemma UpperOfLower(s: string)
    ensures Upper(Lower(s)) == Upper(s)
  {
    assert forall i :: 0 <= i < |s| ==> Upper(Lower(s))[i] == Upper(s)[i];
  }

  /** The wildcards shared by shell-style key patterns: `*` matches any
      run of characters, `?` exactly one, and every other character
      itself. Character classes and escapes are not modelled. */
  function Glob(pat: string, s: string): bool
    decreases |pat| + |s|
  {
    if |pat| == 0 then |s| == 0
    else if pat[0] == '*' then
      Glob(pat[1..], s) || (|s| > 0 && Glob(pat, s[1..]))
    else if pat[0] == '?' then |s| > 0 && Glob(pat[1..], s[1..])
    else |s| > 0 && s[0] == pat[0] && Glob(pat[1..], s[1..])
  }

  /** A pattern without wildcards matches exactly itself. */
  lemma {:induction false} GlobLiteral(pat: string, s: string)
    requires forall i :: 0 <= i < |pat| ==> pat[i] != '*' && pat[i] != '?'
    ensures Glob(pat, s) <==> s == pat
    decreases |pat| + |s|
  {
    if |pat| == 0 {
    } else if |s| > 0 && s[0] == pat[0] {
      GlobLiteral(pat[1..], s[1..]);
      if s == pat {
        assert s[1..] == pat[1..];
      }
    }
  }

  /** `?` matches any one character: a string of `n` question marks
      matches exactly the strings of length `n`. */
  lemma {:induction false} GlobAnyChars(n: nat, s: string)
    ensures Glob(seq(n, _ => '?'), s) <==> |s| == n
    decreases n
  {
    var pat := seq(n, _ => '?');
    if n > 0 {
      assert pat[1..] == seq(n - 1, _ => '?');
      if |s| > 0 {
        GlobAnyChars(n - 1, s[1..]);
      }
    }
  }

  /** `*` followed by a pattern matches `w + s` whenever the pattern matches `s`. */
  lemma {:induction false} GlobStarSkips(rest: string, w: string, s: string)
    requires Glob(rest, s)
    ensures Glob(['*'] + rest, w + s)
    decreases |w|
  {
    var pat := ['*'] + rest;
    assert pat[1..] == rest;
    if |w| == 0 {
      assert w + s == s;
    } else {
      GlobStarSkips(rest, w[1..], s);
      assert (w + s)[1..] == w[1..] + s;
    }
  }

  /** A single `*` between literal parts matches any middle. */
  lemma GlobStarMiddle(pre: string, mid: string, post: string)
    requires forall i :: 0 <= i < |pre| ==> pre[i] != '*' && pre[i] != '?'
    requires forall i :: 0 <= i < |post| ==> post[i] != '*' && post[i] != '?'
    ensures Glob(pre + "*" + post, pre + mid + post)
  {
    GlobLiteral(post, post);
    GlobStarSkips(post, mid, post);
    GlobLiteralPrefix(pre, ['*'] + post, mid + post);
    assert pre + "*" + post == pre + (['*'] + post);
    assert pre + mid + post == pre + (mid + post);
  }

  /** A literal prefix of the pattern consumes the same prefix of the string. */
  lemma {:induction false} GlobLiteralPrefix(lit: string, rest: string, s: string)
    requires forall i :: 0 <= i < |lit| ==> lit[i] != '*' && lit[i] != '?'
    requires Glob(rest, s)
    ensures Glob(lit + rest, lit + s)
    decreases |lit|
  {
    if |lit| > 0 {
      GlobLiteralPrefix(lit[1..], rest, s);
      assert (lit + rest)[1..] == lit[1..] + rest;
      assert (lit + s)[1..] == lit[1..] + s;
    } else {
      assert lit + rest == rest && lit + s == s;
    }
  }
}

=== FILE: tiered_cache.dfy ===
/** The caching agent's two tiers behind one interface: the L1 cache in
    memory and the L2 store (Redis in the source; here a map whose values
    are held in compressed form), with a write-back buffer and hit/miss
    counters. Redis's own TTL is not modelled: an L2 entry stays until it
    is deleted. */
module TieredCache {
  import opened Wrappers
  import L1 = L1Cache
  import C = Compression
  import Text

  datatype Strategy = WriteThrough | WriteBack | WriteAround

  datatype Stats = Stats(hits: nat, misses: nat, sets: nat)

  datatype Agent = Agent(
    l1: L1.Cache,
    l2: map<string, C.Compressed>,
    buffer: map<string, string>,
    stats: Stats,
    l1Ttl: real,
    compress: bool,
    thresholdBytes: nat)

  predicate Valid(a: Agent) {
    L1.Valid(a.l1)
  }

  /** `_generate_cache_key(key)`: the namespaced storage key. The source
      hashes the caller's key after the prefix; the model keeps it as is. */
  function CacheKey(key: string): (ck: string)
    ensures Text.IsPrefix("cache:", ck) && |ck| == 6 + |key| && ck[6..] == key
  {
    L1.StoredKey(key)
  }

  lemma CacheKeyInjective(k1: string, k2: string)
    ensures CacheKey(k1) == CacheKey(k2) <==> k1 == k2
  {
    if CacheKey(k1) == CacheKey(k2) {
      assert k1 == CacheKey(k1)[6..];
    }
  }

  /** The value an L2 entry stands for. */
  function L2Value(a: Agent, ck: string): Option<string> {
    Stored(a.l2, ck)
  }

  function Stored(l2: map<string, C.Compressed>, ck: string): Option<string> {
    if ck in l2 then Some(C.Decompress(l2[ck].blob, l2[ck].isCompressed)) else None
  }

  /** Storing compresses the value; reading the L2 entry back gives it. */
  function StoreL2(a: Agent, ck: string, value: string): (l2: map<string, C.Compressed>)
    ensures Stored(l2, ck) == Some(value)
    ensures forall k :: k != ck ==> Stored(l2, k) == Stored(a.l2, k)
  {
    C.CompressRoundTrip(value, a.compress, a.thresholdBytes);
    a.l2[ck := C.Compress(value, a.compress, a.thresholdBytes)]
  }

  /** `set(key, value, strategy)`. WRITE_THROUGH stores in both tiers;
      WRITE_BACK stores in L1 and buffers the L2 write; WRITE_AROUND stores
      in L2 only and drops any stale L1 copy. */
  function Set(a: Agent, key: string, value: string, strategy: Strategy, ttl: real, now: real): (r: Agent)
    requires Valid(a)
    ensures Valid(r)
    ensures r.stats == a.stats.(sets := a.stats.sets + 1)
    ensures strategy != WriteAround ==>
              L1.Lookup(r.l1.slots, CacheKey(key)) == Some(L1.Slot(CacheKey(key), value, now + ttl, {}, {}))
    ensures strategy == WriteAround ==> L1.Lookup(r.l1.slots, CacheKey(key)).None?
    ensures strategy != WriteBack ==> L2Value(r, CacheKey(key)) == Some(value)
    ensures strategy == WriteBack ==> r.l2 == a.l2 && CacheKey(key) in r.buffer && r.buffer[CacheKey(key)] == value
    ensures forall k :: k != CacheKey(key) ==> L2Value(r, k) == L2Value(a, k)
  {
    var ck := CacheKey(key);
    var stats := a.stats.(sets := a.stats.sets + 1);
    match strategy
    case WriteThrough =>
      a.(l1 := L1.Set(a.l1, ck, value, ttl, now, {}, {}), l2 := StoreL2(a, ck, value), stats := stats)
    case WriteBack =>
      a.(l1 := L1.Set(a.l1, ck, value, ttl, now, {}, {}), buffer := a.buffer[ck := value], stats := stats)
    case WriteAround =>
      a.(l1 := L1.Delete(a.l1, ck).0, l2 := StoreL2(a, ck, value), stats := stats)
  }

  /** `_flush_write_buffer()`: every buffered write reaches L2 and the
      buffer empties. */
  function Flush(a: Agent): (r: Agent)
    ensures r.buffer == map[] && r.l1 == a.l1 && r.stats == a.stats
    ensures forall k :: k in a.buffer ==> L2Value(r, k) == Some(a.buffer[k])
    ensures forall k :: k !in a.buffer ==> L2Value(r, k) == L2Value(a, k)
  {
    var flushed := map k | k in a.buffer :: C.Compress(a.buffer[k], a.compress, a.thresholdBytes);
    forall k | k in a.buffer
      ensures C.Decompress(flushed[k].blob, flushed[k].isCompressed) == a.buffer[k]
    {
      C.CompressRoundTrip(a.buffer[k], a.compress, a.thresholdBytes);
    }
    a.(l2 := a.l2 + flushed, buffer := map[])
  }

  datatype Lookup = Lookup(value: Option<string>, agent: Agent)

  /** `get(key)`: L1 first; on an L1 miss an L2 hit is returned and
      promoted into L1; a miss in both counts as a miss. */
  function Get(a: Agent, key: string, now: real): (r: Lookup)
    requires Valid(a)
    ensures Valid(r.agent) && r.agent.l2 == a.l2 && r.agent.buffer == a.buffer
    ensures var l1 := L1.Get(a.l1, CacheKey(key), now);
            && (l1.value.Some? ==> r.value == l1.value)
            && (l1.value.None? ==> r.value == L2Value(a, CacheKey(key)))
    ensures r.value.Some? ==> r.agent.stats == a.stats.(hits := a.stats.hits + 1)
    ensures r.value.None? ==> r.agent.stats == a.stats.(misses := a.stats.misses + 1)
    ensures r.value.Some? ==> L1.Lookup(r.agent.l1.slots, CacheKey(key)).Some?
  {
    var ck := CacheKey(key);
    var l1 := L1.Get(a.l1, ck, now);
    if l1.value.Some? then
      Lookup(l1.value, a.(l1 := l1.cache, stats := a.stats.(hits := a.stats.hits + 1)))
    else match L2Value(a, ck)
      case Some(v) =>
        var promoted := L1.Set(l1.cache, ck, v, a.l1Ttl, now, {}, {});
        Lookup(Some(v), a.(l1 := promoted, stats := a.stats.(hits := a.stats.hits + 1)))
      case None =>
        Lookup(None, a.(l1 := l1.cache, stats := a.stats.(misses := a.stats.misses + 1)))
  }

  datatype Computed = Computed(value: string, computed: bool, agent: Agent)

  /** `get_or_compute(key, compute_fn)`: the supplied computation's result
      (passed in as `computedValue`) is used and stored write-through only on a
      miss. */
  function GetOrCompute(a: Agent, key: string, computedValue: string, ttl: real, now: real): (r: Computed)
    requires Valid(a)
    ensures Valid(r.agent)
    ensures r.computed <==> Get(a, key, now).value.None?
    ensures !r.computed ==> r.value == Get(a, key, now).value.value
    ensures r.computed ==> r.value == computedValue && L2Value(r.agent, CacheKey(key)) == Some(computedValue)
  {
    var g := Get(a, key, now);
    match g.value
    case Some(v) => Computed(v, false, g.agent)
    case None => Computed(computedValue, true, Set(g.agent, key, computedValue, WriteThrough, ttl, now))
  }

  datatype Invalidated = Invalidated(count: nat, agent: Agent)

  /** `invalidate_pattern(pattern)`: drops every stored key that matches the
      glob from both tiers and reports how many distinct keys were dropped. */
  function InvalidatePattern(a: Agent, pattern: string): (r: Invalidated)
    requires Valid(a)
    ensures Valid(r.agent) && r.agent.buffer == a.buffer && r.agent.stats == a.stats
    ensures forall s :: s in r.agent.l1.slots <==> s in a.l1.slots && !Text.Glob(pattern, s.key)
    ensures forall k :: Stored(r.agent.l2, k) == if Text.Glob(pattern, k) then None else Stored(a.l2, k)
    ensures r.count == |Matching(a, pattern)|
  {
    var l1 := L1.DropMatching(a.l1, pattern);
    var l2 := map k | k in a.l2 && !Text.Glob(pattern, k) :: a.l2[k];
    Invalidated(|Matching(a, pattern)|, a.(l1 := l1, l2 := l2))
  }

  /** The stored keys, in either tier, that a glob matches. */
  function Matching(a: Agent, pattern: string): (m: set<string>)
    ensures forall k :: k in m <==> Text.Glob(pattern, k) && (k in a.l2 || exists s :: s in a.l1.slots && s.key == k)
  {
    (set s | s in a.l1.slots && Text.Glob(pattern, s.key) :: s.key) + (set k | k in a.l2 && Text.Glob(pattern, k))
  }

  /** Hit rate as reported by `get_stats()`: hits over all reads, 0 before
      any read. */
  function HitRate(s: Stats): (r: real)
    ensures 0.0 <= r <= 1.0
    ensures s.hits > 0 && s.misses > 0 ==> 0.0 < r < 1.0
  {
    if s.hits + s.misses == 0 then 0.0 else s.hits as real / (s.hits + s.misses) as real
  }

  /** Write-back reaches L2 only through a flush. */
  lemma WriteBackThenFlush(a: Agent, key: string, value: string, ttl: real, now: real)
    requires Valid(a) && CacheKey(key) !in a.l2
    ensures L2Value(Set(a, key, value, WriteBack, ttl, now), CacheKey(key)).None?
    ensures L2Value(Flush(Set(a, key, value, WriteBack, ttl, now)), CacheKey(key)) == Some(value)
  {
  }

  /** Read-through promotion: a key held only in L2 is returned and is in
      L1 afterwards. */
  lemma L2HitPromotes(a: Agent, key: string, now: real)
    requires Valid(a)
    requires L1.Lookup(a.l1.slots, CacheKey(key)).None? && L2Value(a, CacheKey(key)).Some?
    ensures Get(a, key, now).value == L2Value(a, CacheKey(key))
    ensures L1.Lookup(Get(a, key, now).agent.l1.slots, CacheKey(key)).Some?
  {
  }

  /** `get_or_compute` computes at most once: once a key absent from
      both tiers has been computed, the next call is served from the cache
      with the first call's value, at any later time. */
  lemma ComputeOnce(a: Agent, key: string, firstValue: string, secondValue: string, ttl: real, now: real, later: real)
    requires Valid(a)
    requires L1.Lookup(a.l1.slots, CacheKey(key)).None? && CacheKey(key) !in a.l2
    ensures var first := GetOrCompute(a, key, firstValue, ttl, now);
            var second := GetOrCompute(first.agent, key, secondValue, ttl, later);
            first.computed && !second.computed && second.value == firstValue
  {
    var ck := CacheKey(key);
    var g := Get(a, key, now);
    assert g.value.None?;
    var first := GetOrCompute(a, key, firstValue, ttl, now);
    assert first.agent == Set(g.agent, key, firstValue, WriteThrough, ttl, now);
    assert L2Value(first.agent, ck) == Some(firstValue);
    assert L1.Lookup(first.agent.l1.slots, ck).value.value == firstValue;
    var g2 := Get(first.agent, key, later);
    assert g2.value == Some(firstValue);
  }

  lemma LookupSameSlots(s1: seq<L1.Slot>, s2: seq<L1.Slot>, key: string)
    requires L1.DistinctKeys(s1) && L1.DistinctKeys(s2)
    requires forall s :: s in s1 <==> s in s2
    ensures L1.Lookup(s1, key) == L1.Lookup(s2, key)
  {
    var r1 := L1.Lookup(s1, key);
    var r2 := L1.Lookup(s2, key);
    if r1.Some? && r2.Some? {
      var i :| 0 <= i < |s1| && s1[i] == r2.value;
      var j :| 0 <= j < |s1| && s1[j] == r1.value;
      if i != j {
        if i < j { assert s1[i].key != s1[j].key; } else { assert s1[j].key != s1[i].key; }
      }
    }
  }

  /** After invalidating a pattern, every matching key misses and every
      other key reads as before from L2. */
  lemma InvalidatedKeysMiss(a: Agent, pattern: string, key: string, now: real)
    requires Valid(a)
    requires Text.Glob(pattern, CacheKey(key))
    ensures Get(InvalidatePattern(a, pattern).agent, key, now).value.None?
  {
    var r := InvalidatePattern(a, pattern).agent;
    assert L1.Lookup(r.l1.slots, CacheKey(key)).None?;
  }

  /** Storing under `ck` in L1 adds no slot for any other key. */
  lemma L1SetKeepsAbsent(c: L1.Cache, ck: string, v: string, ttl: real, now: real, other: string)
    requires L1.Valid(c) && other != ck
    requires forall s :: s in c.slots ==> s.key != other
    ensures forall s :: s in L1.Set(c, ck, v, ttl, now, {}, {}).slots ==> s.key != other
  {
  }

  /** A read of one key adds no L1 slot for any other key. */
  lemma GetKeepsAbsent(a: Agent, key: string, now: real, other: string)
    requires Valid(a) && other != CacheKey(key)
    requires forall s :: s in a.l1.slots ==> s.key != other
    ensures forall s :: s in Get(a, key, now).agent.l1.slots ==> s.key != other
  {
    var l1 := L1.Get(a.l1, CacheKey(key), now);
    if l1.value.None? && L2Value(a, CacheKey(key)).Some? {
      L1SetKeepsAbsent(l1.cache, CacheKey(key), L2Value(a, CacheKey(key)).value, a.l1Ttl, now, other);
    }
  }

  /** A key stored in neither tier misses and counts one miss. */
  lemma UnknownKeyMisses(a: Agent, key: string, now: real)
    requires Valid(a) && CacheKey(key) !in a.l2
    requires forall s :: s in a.l1.slots ==> s.key != CacheKey(key)
    ensures Get(a, key, now).value.None?
    ensures Get(a, key, now).agent.stats == a.stats.(misses := a.stats.misses + 1)
  {
    assert L1.Lookup(a.l1.slots, CacheKey(key)).None?;
  }

  /** The statistics scenario: one set, a hit on that key, a miss on a
      key stored nowhere. */
  lemma StatsScenario(a: Agent, k1: string, k2: string, v: string, now: real, ttl: real)
    requires Valid(a) && a.stats == Stats(0, 0, 0) && ttl >= 0.0 && k1 != k2
    requires CacheKey(k2) !in a.l2 && L1.Lookup(a.l1.slots, CacheKey(k2)).None?
    ensures var s1 := Set(a, k1, v, WriteThrough, ttl, now);
            var g1 := Get(s1, k1, now);
            var g2 := Get(g1.agent, k2, now);
            g2.agent.stats == Stats(1, 1, 1) && 0.0 < HitRate(g2.agent.stats) < 1.0
  {
    var s1 := Set(a, k1, v, WriteThrough, ttl, now);
    var g1 := Get(s1, k1, now);
    SetWTStores(a, k1, v, ttl, now);
    assert g1.value == Some(v);
    assert g1.agent.stats == Stats(1, 0, 1);
    OtherKeyStaysAbsent(a, k1, k2, v, ttl, now);
    UnknownKeyMisses(g1.agent, k2, now);
    var g2 := Get(g1.agent, k2, now);
    assert g2.agent.stats == Stats(1, 1, 1);
  }

  /** A write-through set leaves the new entry in L1. */
  lemma SetWTStores(a: Agent, key: string, v: string, ttl: real, now: real)
    requires Valid(a)
    ensures L1.Lookup(Set(a, key, v, WriteThrough, ttl, now).l1.slots, CacheKey(key)) == Some(L1.Slot(CacheKey(key), v, now + ttl, {}, {}))
  {
  }

  /** Storing and reading one key leaves a key stored nowhere absent. */
  lemma OtherKeyStaysAbsent(a: Agent, k1: string, k2: string, v: string, ttl: real, now: real)
    requires Valid(a) && k1 != k2
    requires CacheKey(k2) !in a.l2 && L1.Lookup(a.l1.slots, CacheKey(k2)).None?
    ensures var g := Get(Set(a, k1, v, WriteThrough, ttl, now), k1, now);
            CacheKey(k2) !in g.agent.l2 && forall s :: s in g.agent.l1.slots ==> s.key != CacheKey(k2)
  {
    var s1 := Set(a, k1, v, WriteThrough, ttl, now);
    CacheKeyInjective(k1, k2);
    var ck2 := CacheKey(k2);
    assert forall s :: s in a.l1.slots ==> s.key != ck2;
    L1SetKeepsAbsent(a.l1, CacheKey(k1), v, ttl, now, ck2);
    GetKeepsAbsent(s1, k1, now, ck2);
  }
}

=== FILE: token_bucket.dfy ===
/** Token-bucket admission gate of the orchestrator (`RateLimiter`).
    The bucket holds at most `burst` tokens, starts full, and refills
    lazily at `rate` tokens per minute on every acquisition attempt.
    Tokens are fractional, as in the source; time is explicit. */
module TokenBucket {

  datatype Bucket = Bucket(rate: nat, burst: nat, tokens: real, lastRefill: real)

  datatype Acquired = Acquired(bucket: Bucket, allowed: bool)

  predicate Valid(b: Bucket) {
    0.0 <= b.tokens <= b.burst as real
  }

  /** `RateLimiter(rate, burst_size)`: a full bucket. */
  function Init(rate: nat, burst: nat, now: real): (b: Bucket)
    ensures Valid(b) && b.tokens == burst as real
    ensures b.rate == rate && b.burst == burst && b.lastRefill == now
  {
    Bucket(rate, burst, burst as real, now)
  }

  lemma ProductNonnegative(x: real, y: real)
    ensures x >= 0.0 && y >= 0.0 ==> x * y >= 0.0
  {
  }

  function Min(a: real, b: real): real {
    if a <= b then a else b
  }

  /** Tokens after lazily refilling for the time elapsed since the last refill. */
  function Refilled(b: Bucket, now: real): real {
    Min(b.burst as real, b.tokens + (now - b.lastRefill) * (b.rate as real) / 60.0)
  }

  /** `acquire()`: refill, then take one token if at least one is there. */
  function Acquire(b: Bucket, now: real): (a: Acquired)
    ensures a.allowed <==> Refilled(b, now) >= 1.0
    ensures a.bucket.tokens == (if a.allowed then Refilled(b, now) - 1.0 else Refilled(b, now))
    ensures a.bucket.lastRefill == now
    ensures a.bucket.rate == b.rate && a.bucket.burst == b.burst
    ensures Valid(b) && b.lastRefill <= now ==> Valid(a.bucket)
  {
    var t := Refilled(b, now);
    ProductNonnegative(now - b.lastRefill, b.rate as real);
    if t >= 1.0 then Acquired(Bucket(b.rate, b.burst, t - 1.0, now), true)
    else Acquired(Bucket(b.rate, b.burst, t, now), false)
  }

  /** Verdicts of `n` consecutive acquisitions at the same instant. */
  function AcquireMany(b: Bucket, n: nat, now: real): (out: seq<bool>)
    ensures |out| == n
    decreases n
  {
    if n == 0 then []
    else
      var a := Acquire(b, now);
      [a.allowed] + AcquireMany(a.bucket, n - 1, now)
  }

  /** With no time elapsed a refill adds nothing. */
  lemma NoTimeNoRefill(b: Bucket, now: real)
    requires b.lastRefill == now && b.tokens <= b.burst as real
    ensures Refilled(b, now) == b.tokens
  {
    assert now - b.lastRefill == 0.0;
    assert (now - b.lastRefill) * (b.rate as real) == 0.0 * (b.rate as real) == 0.0;
    assert (now - b.lastRefill) * (b.rate as real) / 60.0 == 0.0;
    assert b.tokens + (now - b.lastRefill) * (b.rate as real) / 60.0 == b.tokens;
  }

  /** With `k` whole tokens and no time elapsed, exactly the first `k`
      of any run of acquisitions succeed. */
  lemma {:induction false} DrainWholeTokens(b: Bucket, k: nat, n: nat, now: real)
    requires b.tokens == k as real && k <= b.burst && b.lastRefill == now
    ensures forall i :: 0 <= i < n ==> (AcquireMany(b, n, now)[i] <==> i < k)
    decreases n
  {
    if n > 0 {
      var a := Acquire(b, now);
      NoTimeNoRefill(b, now);
      if k > 0 {
        DrainWholeTokens(a.bucket, k - 1, n - 1, now);
      } else {
        DrainWholeTokens(a.bucket, 0, n - 1, now);
      }
      var out := AcquireMany(b, n, now);
      assert out == [a.allowed] + AcquireMany(a.bucket, n - 1, now);
      forall i | 0 <= i < n
        ensures out[i] <==> i < k
      {
        if i > 0 {
          assert out[i] == AcquireMany(a.bucket, n - 1, now)[i - 1];
        }
      }
    }
  }

  /** A fresh bucket admits exactly `burst` immediate acquisitions and
      refuses the next one. */
  lemma BurstThenRefuse(rate: nat, burst: nat, now: real)
    ensures AcquireMany(Init(rate, burst, now), burst + 1, now) == seq(burst, _ => true) + [false]
  {
    DrainWholeTokens(Init(rate, burst, now), burst, burst + 1, now);
    var out := AcquireMany(Init(rate, burst, now), burst + 1, now);
    assert forall i :: 0 <= i < burst + 1 ==> out[i] == (seq(burst, _ => true) + [false])[i];
  }

  /** The bucket left by `n` consecutive acquisitions at the same instant. */
  function Drain(b: Bucket, n: nat, now: real): (r: Bucket)
    ensures r.rate == b.rate && r.burst == b.burst
    ensures n > 0 ==> r.lastRefill == now
    decreases n
  {
    if n == 0 then b else Drain(Acquire(b, now).bucket, n - 1, now)
  }

  /** Taking `n <= k` tokens from `k` whole tokens, with no time elapsed,
      leaves exactly `k - n`. */
  lemma {:induction false} DrainLeaves(b: Bucket, k: nat, n: nat, now: real)
    requires b.tokens == k as real && k <= b.burst && b.lastRefill == now && n <= k
    ensures Drain(b, n, now).tokens == (k - n) as real
    ensures Drain(b, n, now).lastRefill == now
    decreases n
  {
    if n > 0 {
      NoTimeNoRefill(b, now);
      DrainLeaves(Acquire(b, now).bucket, k - 1, n - 1, now);
    }
  }

  /** After `burst` immediate acquisitions a fresh bucket is empty, so no
      acquisition at that instant can succeed. */
  lemma BurstExhausts(rate: nat, burst: nat, now: real)
    ensures Refilled(Drain(Init(rate, burst, now), burst, now), now) < 1.0
    ensures !Acquire(Drain(Init(rate, burst, now), burst, now), now).allowed
  {
    DrainLeaves(Init(rate, burst, now), burst, burst, now);
  }

  /** Once enough time has passed to accrue one token at `rate` per
      minute, an acquisition succeeds again, whatever was left. */
  lemma RefillAdmits(b: Bucket, now: real)
    requires Valid(b) && b.burst >= 1
    requires (now - b.lastRefill) * (b.rate as real) >= 60.0
    ensures Acquire(b, now).allowed
  {
    var x := (now - b.lastRefill) * (b.rate as real);
    assert x / 60.0 >= 1.0;
    assert b.tokens + x / 60.0 >= 1.0;
    assert Refilled(b, now) >= 1.0;
  }
}

=== FILE: wrappers.dfy ===
/** Failure-carrying results shared by every module of the model.
    The source signals expected failures by raising exceptions or by
    returning None; here both become values. */
module Wrappers {

  datatype Option<+T> = None | Some(value: T)

  /** `Err` carries the message the source puts in the raised exception. */
  datatype Result<+T> = Ok(value: T) | Err(msg: string)
}
